=== FILE: README.md ===
# echoris, modelled in Dafny

echoris is a small log-aggregation system written in Go. It has three parts:

- an HTTP gateway (`api/`) that forwards log entries over gRPC to a worker;
- the worker (`service/worker/`), which stores entries in PostgreSQL and answers queries;
- a developer CLI (`cli/`, `internal/`) that generates Markdown reference documentation and copies directory trees.

This project models the core of each part as pure Dafny functions over immutable data, and proves properties of them.

| module (file) | what it models |
|---|---|
| `Base` (base.dfy) | `Option`, `Result`, Go-style errors (`%w` wrapping, `*fs.PathError`, `fs.ErrInvalid`, `fs.ErrExist`), time as Unix nanoseconds, the environment as a map |
| `Text` (text.dfy) | string helpers: ASCII lower-casing, `strings.Repeat`, join and split, prefixes |
| `StorageTypes` (storage_types.dfy) | `LogEntry`, `QueryFilter` and the `Storage` interface, as a record of six operations over an abstract backend state |
| `QueryBuilder` (query_builder.dfy) | the dynamic `SELECT` built by `PostgresStorage.QueryLogs`: clauses, placeholders `$1..$n`, bound arguments |
| `QuerySemantics` (query_semantics.dfy) | what the database does with such a query, plus a reference meaning of a `QueryFilter` (filter, newest first, offset, limit) |
| `Postgres` (postgres.dfy) | `PostgresStorage`: the `logs` table with its id sequence, transactional batch insert, query, retention delete, close, health check, construction |
| `ConnInfo` (conninfo.dfy) | the keyword/value connection-string syntax of section 34.1.1.1 of the PostgreSQL 16 manual, as the `lib/pq` driver reads it |
| `Factory` (factory.dfy) | `NewStorage`, `NewStorageFromEnv`, `getEnvOrDefault` |
| `Server` (server.dfy) | the worker's gRPC service `LogAggregatorServer`: `SendLogs`, `QueryLogs`, `Close` |
| `Client` (client.dfy) | the gateway's `GRPCLogClient`: `NewGRPCLogClient`, `ForwardLogs`, `FetchLogs`, `Close`, and a client wired directly to a server |
| `AppEnvironment` (app_env.dfy) | the gateway's `ENVIRONMENT` / `LOG_LEVEL` lookups |
| `Logging` (logging_config.dfy) | the gateway logger's formatter and level |
| `CiEnvironment` (ci_env.dfy) | `IsRunningInCI` |
| `BuildInfo` (buildinfo.dfy) | `GetVersion` |
| `Cobra` (cobra.dfy) | the parts of the command library the CLI reads: names, flags, subcommands listed in name order |
| `Registry` (registry.dfy) | `CommandRegistry`: root command, verbosity flag, pre-run hook, registration |
| `Doc` (doc.dfy) | `GenerateMarkdown` and `writeCommandsToDocs` |
| `FileUtils` (copy.dfy) | `CopyFile`, `CopyDirectory` and the walk callback of `copyFS` |

Effects the model cannot perform become parameters. They are modelled as follows:

- The database driver, JSON encoding, RFC 3339 parsing and formatting, the gRPC transport and the file system are oracles: function-valued fields or arguments.
- Clocks are `Time` arguments. The server's clock during a batch conversion is a `Server.Clock`, one reading per event position.
- Storage is any value of `Storage<S>`. The server's properties are stated for every storage. The PostgreSQL model and a recording mock (as in the server tests) are two instances of it.

## Model

| member | source | states |
|---|---|---|
| `StorageTypes.NewEntry` | service/worker/storage/storage.go:9-17 | A fresh entry carries the given timestamp, service, level, message and fields. Its backend-assigned id and creation time are still unset (0 and Go's zero time). |
| `Postgres.InsertLog` | service/worker/storage/postgres.go:76-100 | If the fields do not marshal, the error is wrapped as "failed to marshal fields" and the table is unchanged. On success exactly one row is appended: it takes the next sequence id and stores the entry's columns, its JSON fields and `CURRENT_TIMESTAMP`. On any error the table is as before. |
| `Postgres.InsertLogs` | service/worker/storage/postgres.go:103-146 | An empty batch succeeds and changes nothing. Any failure leaves the rows as they were. The sequence never moves back. `Postgres.InsertLogsAtomic` states the rest. |
| `Postgres.RunBatch` | service/worker/storage/postgres.go:123-139 | The loop only appends to the transaction's rows and never moves the sequence back. `Postgres.RunBatchDone` and `Postgres.RunBatchFailed` state what it appended. |
| `Postgres.RunBatchDone` | service/worker/storage/postgres.go:123-139 | A statement loop that ran to the end has appended one row per entry, in order, with consecutive ids from the sequence. |
| `Postgres.RunBatchFailed` | service/worker/storage/postgres.go:123-139 | A loop that stopped early only moved the sequence forward, by at most the batch size. |
| `Postgres.InsertLogsAtomic` | service/worker/storage/postgres.go:103-146 | The batch insert is all-or-nothing. On any error (begin, prepare, marshal, insert, commit) the rows are those from before. On success the table gains one row per entry, in batch order. The sequence never moves back. |
| `Postgres.InsertLogsEmpty` | service/worker/storage/postgres.go:104-106 | An empty batch succeeds and changes nothing, without opening a transaction. |
| `Postgres.SingletonBatchIsInsertLog` | service/worker/storage/postgres.go:76-146 | When begin, prepare and commit succeed, a one-entry batch has the same error and rows as a single `InsertLog`. |
| `Postgres.InsertIgnoresBackendFields` | service/worker/storage/postgres.go:83-93 | The entry's own `ID` and `CreatedAt` never reach the table. |
| `Postgres.InsertLogKeepsWellFormed` | service/worker/storage/postgres.go:53-61 | A single insert keeps the table's `BIGSERIAL` ids positive, unique and increasing. |
| `Postgres.InsertLogsKeepsWellFormed` | service/worker/storage/postgres.go:103-146 | The same holds for a batch insert, whatever its outcome. |
| `Postgres.DecodeRow` | service/worker/storage/postgres.go:198-222 | Scanning a row succeeds exactly when the scan succeeds and non-empty JSON fields unmarshal. The entry then copies the columns; empty JSON leaves no fields. |
| `Postgres.DecodeRows` | service/worker/storage/postgres.go:198-223 | Every row decodes in order, or the result is the first failing row's error. |
| `Postgres.QueryLogs` | service/worker/storage/postgres.go:149-230 | A failing query is wrapped as "failed to query logs". A driver error during iteration always fails the query. A successful answer has one entry decoded from each row of the reference answer, in order. |
| `Postgres.Delivered` | service/worker/storage/postgres.go:199-228 | `rows.Next()` delivers every row, or only the rows before the driver's error. |
| `Postgres.IterationErrorStopsEarly` | service/worker/storage/postgres.go:199-228 | A driver error ends the loop early. If the rows before it decode, the answer is "error iterating rows", whatever the unread rows hold. |
| `Postgres.DecodedAnswer` | service/worker/storage/postgres.go:198-223 | Entries decoded one-to-one from rows in newest-first order are themselves newest first. |
| `Postgres.QueryLogsAnswer` | service/worker/storage/postgres.go:149-230 | Each answer entry has the requested service and level (when given) and lies within the requested time bounds. Entries come newest first, each has the id of a stored row, and there are at most `Limit` of them. |
| `Postgres.QueryLogsSucceeds` | service/worker/storage/postgres.go:192-229 | When the driver reports no error and every stored row decodes, the query succeeds. |
| `Postgres.Surviving` | service/worker/storage/postgres.go:236-238 | The rows a `DELETE ... WHERE created_at < cutoff` keeps are exactly the stored rows created at or after the cutoff. |
| `Postgres.Expired` | service/worker/storage/postgres.go:236-238 | The rows it removes are exactly those created before the cutoff. |
| `Postgres.DeleteOldLogs` | service/worker/storage/postgres.go:233-250 | A DELETE error leaves the table as it was, with the "failed to delete old logs" error. Otherwise the count is the number of rows removed. Any error reports 0. |
| `Postgres.DeletePartitions` | service/worker/storage/postgres.go:236-238 | The survivors and the removed rows together are the table, as multisets. |
| `Base.Negate` | service/worker/storage/postgres.go:234 | Negating a 64-bit duration agrees with `-d` modulo 2^64, and is `-d` except at the least duration. |
| `Postgres.DeleteOldLogsRemovesExactly` | service/worker/storage/postgres.go:233-250 | After a DELETE the remaining rows are exactly those not older than the cutoff `now - olderThan`, with Go's 64-bit wrap of `-olderThan`: at the least duration the negation is the duration itself, so the cutoff is `now + olderThan`. The count is the number of older rows. The sequence is untouched. |
| `Postgres.SurvivingIdempotent` | service/worker/storage/postgres.go:236-238 | A second sweep with the same cutoff removes nothing. |
| `Postgres.SurvivingKeepsIncreasing` | service/worker/storage/postgres.go:236-238 | The survivors keep table order, so ids stay increasing. |
| `Postgres.DeleteOldLogsKeepsWellFormed` | service/worker/storage/postgres.go:233-250 | Deleting keeps the table's id invariant. |
| `Postgres.FreshRowsSurvive` | service/worker/storage/postgres.go:234-238 | A row created at `now` survives a sweep at `now` exactly when the retention duration is not negative or is the least 64-bit duration, whose negation wraps to itself. |
| `Postgres.Close` | service/worker/storage/postgres.go:253-258 | Closing without a handle is a no-op. With a handle, the result is the handle's close result. |
| `Postgres.HealthCheck` | service/worker/storage/postgres.go:261-263 | Health is exactly the answer of a ping. |
| `Postgres.NewPostgresStorage` | service/worker/storage/postgres.go:19-48 | The handle is returned exactly when open, ping and schema creation all succeed. Each failure is wrapped with its step's context. |
| `QueryBuilder.BuildQuery` | service/worker/storage/postgres.go:150-190 | The built query has these properties: (1) its placeholders are exactly `$1..$n`, in order, for its `n` arguments; (2) its clauses follow the fixed order service, level, start, end, `ORDER BY`, `LIMIT`, `OFFSET`; (3) each placeholder is bound to the filter's own value; (4) a clause is present exactly when its filter field is set (non-empty string, non-nil time, positive limit or offset). |
| `QueryBuilder.StepKeepsInv` | service/worker/storage/postgres.go:154-189 | One `if` of the builder keeps the numbering and binding invariant and adds its clause exactly when its condition holds. |
| `QueryBuilder.Steps` | service/worker/storage/postgres.go:154-189 | The builder's seven `if` blocks taken in order from a given one on. `QueryBuilder.StepsKeepInv` states what they build. |
| `QueryBuilder.StepsKeepInv` | service/worker/storage/postgres.go:154-189 | Running the remaining blocks from a builder that keeps the invariant ends in one that keeps it. A clause kind is then present exactly when the filter asks for it. |
| `QueryBuilder.TextIndependentOfValues` | service/worker/storage/postgres.go:150-190 | The SQL text depends only on which filter fields are set, never on their values. User input reaches the query only as bound arguments. |
| `QueryBuilder.ZeroFilterQuery` | service/worker/storage/postgres.go:150-190 | An all-zero filter gives `SELECT ... WHERE 1=1 ORDER BY timestamp DESC` with no arguments. |
| `QueryBuilder.ServiceLevelLimitQuery` | service/worker/storage/postgres.go:150-190 | A service, level and limit filter gives the placeholders `$1`, `$2`, `$3`, bound to those values. |
| `QuerySemantics.FilterRows` | service/worker/storage/postgres.go:154-176 | The filtered rows are exactly the stored rows that match, taken from the table without duplication. |
| `QuerySemantics.SortDesc` | service/worker/storage/postgres.go:178 | `ORDER BY timestamp DESC` is a newest-first permutation of its input. |
| `QuerySemantics.Drop` | service/worker/storage/postgres.go:186-189 | `OFFSET n` leaves `max(len - n, 0)` rows. |
| `QuerySemantics.Take` | service/worker/storage/postgres.go:180-184 | `LIMIT n` leaves `min(len, n)` rows. |
| `QuerySemantics.BuiltQueryWellTyped` | service/worker/storage/postgres.go:150-190 | Every placeholder of a built query names an argument of the clause's type. |
| `QuerySemantics.BuiltClausesMeanMatches` | service/worker/storage/postgres.go:154-176 | A row passes all `WHERE` clauses of the built query exactly when it matches the filter. |
| `QuerySemantics.WhereIsFilter` | service/worker/storage/postgres.go:150-176 | The `WHERE` part of the built query selects exactly the filter's rows, in table order. |
| `QuerySemantics.LimitArgOfBuilt` | service/worker/storage/postgres.go:180-184 | The built query's `LIMIT` argument is present exactly when the limit is positive, and is the filter's limit. |
| `QuerySemantics.OffsetArgOfBuilt` | service/worker/storage/postgres.go:186-189 | The built query's `OFFSET` argument is present exactly when the offset is positive, and is the filter's offset. |
| `QuerySemantics.BuiltQueryMeansFilter` | service/worker/storage/postgres.go:149-192 | The database's answer to the built query equals the reference meaning of the filter. |
| `QuerySemantics.ReferenceProperties` | service/worker/storage/postgres.go:149-192 | The answer has these properties: (1) every answer row is stored and matches; (2) answers are newest first; (3) a positive limit bounds the count; (4) with no limit or offset, the answer is a permutation of the matching rows. |
| `QuerySemantics.WildcardKeepsAll` | service/worker/storage/postgres.go:154-176 | A filter with no service, level or time constraint matches every row. |
| `QuerySemantics.StrictlyDescendingWhenDistinct` | service/worker/storage/postgres.go:178 | When stored timestamps are distinct, the answer is strictly newest first. |
| `ConnInfo.BareRoundTrip` | service/worker/storage/factory.go:32-35 | Settings with non-empty values free of spaces, quotes and backslashes, written `key=value` and joined by spaces, read back as exactly those settings. |
| `ConnInfo.QuotedRoundTrip` | service/worker/storage/factory.go:32-35 | Settings written with single-quoted, escaped values read back as exactly those settings, whatever the values. |
| `ConnInfo.EmptyValueSwallowsNext` | service/worker/storage/factory.go:32-35 | A setting with an empty bare value takes the next item, `key=value`, as its value. |
| `Factory.NewStorage` | service/worker/storage/factory.go:15-17 | Storage is the PostgreSQL backend opened with the configured connection string. A failed open, ping or schema step comes back as that step's wrapped error (`Postgres.OpensAs`). |
| `Factory.GetEnvOrDefault` | service/worker/storage/factory.go:43-48 | The variable's value when it is set and non-empty, otherwise the default. |
| `Factory.EmptyCountsAsUnset` | service/worker/storage/factory.go:43-48 | A variable set to the empty string reads exactly like an unset one. |
| `Factory.Settings` | service/worker/storage/factory.go:25-30 | The six settings are host, port, user, password, dbname and sslmode, in that order. Each is `getEnvOrDefault` of its `POSTGRES_*` variable with default localhost, 5432, postgres, logs and disable. The password is read without a default. |
| `Factory.SettingsDefaults` | service/worker/storage/factory.go:25-30 | With nothing set, the settings are localhost, 5432, postgres, the empty password, logs and disable. |
| `Factory.ConnString` | service/worker/storage/factory.go:22-35 | A non-empty `DATABASE_URL` is used as it is. Otherwise the six settings are used. |
| `Factory.ConnStringLayout` | service/worker/storage/factory.go:32-35 | Without `DATABASE_URL` the string is `host=.. port=.. user=.. password=.. dbname=.. sslmode=..`. |
| `Factory.ConnStringSplits` | service/worker/storage/factory.go:32-35 | When no value holds a space, the string splits at spaces into the six `key=value` items. |
| `Factory.ConnStringReadsBack` | service/worker/storage/factory.go:32-35 | When every value is non-empty and free of whitespace, quotes and backslashes, the driver reads back exactly the six settings. |
| `Factory.EmptyPasswordSwallowsDbname` | service/worker/storage/factory.go:26-35 | When `POSTGRES_PASSWORD` is empty or unset, the driver reads the password as `dbname=<db>`, and no `dbname` setting remains. |
| `Factory.DefaultConnStringNamesNoDatabase` | service/worker/storage/factory.go:22-35 | With an empty environment the string is read as host, port, user, `password=dbname=logs` and sslmode: no database is named. |
| `Factory.QuotedConnString` | service/worker/storage/factory.go:22-35 | A non-empty `DATABASE_URL` is used as it is. Otherwise the six settings are written with quoted values. |
| `Factory.QuotedConnStringReadsBack` | service/worker/storage/factory.go:25-35 | The quoted string reads back as exactly the six settings, whatever their values, so `dbname` is always the configured database. |
| `Factory.SettingsKeysDistinct` | service/worker/storage/factory.go:32-35 | The six keys are distinct, so each setting can be looked up by its key. |
| `Factory.NewStorageFromEnv` | service/worker/storage/factory.go:21-41 | Storage is opened with the connection string as the code builds it, values unquoted, with each step's failure wrapped as `NewPostgresStorage` does. `DATABASE_URL` wins when it is non-empty. |
| `Factory.EmptyEnvironmentOpensWithoutDatabase` | service/worker/storage/factory.go:21-41 | With an empty environment, storage is opened with a string that reads as password `dbname=logs` and names no database. |
| `Factory.NewStorageFromEnvQuoted` | service/worker/storage/factory.go:21-41 | The corrected construction: the same settings with quoted values. Without `DATABASE_URL` the string names the configured database; with it, the result is the same as `NewStorageFromEnv`. |
| `Server.EventTime` | service/worker/server/server.go:37-41 | An event's time is its parsed RFC 3339 timestamp, or the server's clock when it does not parse. |
| `Server.ToEntry` | service/worker/server/server.go:37-49 | An entry leaves id and creation time at zero for the backend. A timestamp that parses is kept. |
| `Server.ToEntries` | service/worker/server/server.go:35-50 | One entry per event, in order. Each unparsable timestamp takes the clock reading for its own event. |
| `Server.ToEvents` | service/worker/server/server.go:80-92 | One event per entry, in order. |
| `Server.ToEvent` | service/worker/server/server.go:85-91 | When the codec reads back its output and the entry's timestamp lies in years 0000 to 9999, converting the event back gives the entry, up to the backend-assigned fields, whatever the clock. |
| `Server.ToEntryCopies` | service/worker/server/server.go:43-49 | An entry copies its event's service, level, message and fields. |
| `Server.ToEntriesClockOnlyForUnparsed` | service/worker/server/server.go:36-41 | When every timestamp parses, the entries do not depend on the server's clock. |
| `Server.EventsBackToEntries` | service/worker/server/server.go:43-49 | Stored entries turned into events and back give the same contents and timestamps, when the codec reads back its own output and every timestamp lies in years 0000 to 9999. |
| `Server.SendLogs` | service/worker/server/server.go:28-59 | An empty batch is acknowledged without touching storage. Otherwise storage's `InsertLogs` is called once with the converted entries, each unparsable timestamp replaced by the clock reading at its own event. Its error is returned, and the answer is `ok` exactly when it succeeded. |
| `Server.RequestFilter` | service/worker/server/server.go:68-72 | A query asks storage for the request's service and level, with no time bounds, limit 1000 and no offset. |
| `Server.QueryLogs` | service/worker/server/server.go:62-96 | A storage error is passed on. Otherwise there is one event per stored entry, in order, carrying its contents and formatted timestamp. |
| `Server.Close` | service/worker/server/server.go:99-104 | Closing a server without storage is a no-op. With storage, the result is storage's close result. |
| `Server.SendLogsCallsInsertOnce` | service/worker/server/server.go:28-59 | The recording storage shows these calls: none for an empty batch; exactly one, with one entry per event, for a non-empty batch. Its failure comes back unchanged. |
| `Server.SendLogsAcknowledges` | service/worker/server/server.go:52-58 | With any storage, `ok` is true exactly when no error is returned. |
| `Server.SendLogsStoresEvents` | service/worker/server/server.go:28-59 | Over PostgreSQL, an accepted batch adds one row per event, in order, with the event's service, level, message and time. A rejected batch leaves the rows unchanged. |
| `Server.QueryLogsBounded` | service/worker/server/server.go:68-78 | Over PostgreSQL, a query returns at most 1000 events. They have the requested service and level when given. |
| `Client.NewGrpcLogClient` | api/router/v0/client.go:28-41 | A dial error is returned. Otherwise the client holds the connection and the stub over it. |
| `Client.EntryToEvent` | api/router/v0/client.go:46-53 | When the codec reads back its output and the entry's timestamp lies in years 0000 to 9999, `EventToEntry` of the event gives back the entry. |
| `Client.EventToEntry` | api/router/v0/client.go:73-81 | A timestamp that does not parse becomes Go's zero time (the parse error is ignored). |
| `Client.OutgoingBatch` | api/router/v0/client.go:45-54 | One wire event per entry, in order. |
| `Client.IncomingEntries` | api/router/v0/client.go:72-82 | One entry per wire event, in order. |
| `Client.ForwardLogs` | api/router/v0/client.go:44-60 | The whole batch goes out in one call. Only the call's error is returned; the response's `ok` flag is not read. |
| `Client.ForwardIgnoresAcknowledgement` | api/router/v0/client.go:56-59 | An `ok: false` answer without an error counts as success. |
| `Client.FetchLogs` | api/router/v0/client.go:63-85 | The request is exactly (service, level). An RPC error is passed on. Otherwise there is one entry per event with the same contents. |
| `Client.Close` | api/router/v0/client.go:88-93 | Closing without a connection is a no-op. Otherwise the result is the connection's close result. |
| `Client.EntriesRoundTrip` | api/router/v0/client.go:44-85 | Entries sent out and read back are unchanged, when the codec reads back its own output and every timestamp lies in years 0000 to 9999. |
| `Client.ForwardedEntriesReachStorage` | api/router/v0/client.go:45-54 | What the server hands to storage is the gateway entries themselves, with their own timestamps, when every timestamp lies in years 0000 to 9999. |
| `Client.ForwardThroughServer` | api/router/v0/client.go:44-60 | Forwarding a non-empty batch to a server fails exactly with storage's insert error. |
| `Client.FetchedEntries` | api/router/v0/client.go:63-85 | Stored entries served as wire events come back as gateway entries with their own timestamps and contents, in order, when the codec reads back its output and every timestamp lies in years 0000 to 9999. |
| `Client.FetchThroughServer` | api/router/v0/client.go:63-85 | Fetching through a server returns storage's answer, entry for entry, when its timestamps lie in years 0000 to 9999. A storage error comes back unchanged. |
| `AppEnvironment.GetEnvWithDefault` | api/environment/environment.go:24-30 | The value whenever the variable is present, even if empty; the default only when it is absent. |
| `AppEnvironment.GetApplicationEnv` | api/environment/environment.go:32-34 | `ENVIRONMENT`, or `local` when it is unset. |
| `AppEnvironment.IsLocalEnvironment` | api/environment/environment.go:20-22 | Local exactly when `ENVIRONMENT` is unset or `local`. |
| `AppEnvironment.EmptyEnvironmentIsNotLocal` | api/environment/environment.go:20-30 | `ENVIRONMENT=""` is not local, while an unset `ENVIRONMENT` is. |
| `AppEnvironment.PresentButEmptyDiffers` | api/environment/environment.go:24-30 | On a variable set to the empty string, this lookup gives the empty string, while the storage factory's lookup gives the default. |
| `AppEnvironment.LookupsAgreeOtherwise` | api/environment/environment.go:24-30 | On an absent or non-empty variable the two lookups agree. |
| `Logging.SelectFormatter` | api/logging/logging.go:22-30 | Text output exactly when `ENVIRONMENT` is set to `local`. Otherwise JSON. |
| `Logging.ParseLevel` | api/logging/logging.go:32-44 | Debug, warn and error exactly for those names, compared lower-cased. Info for everything else. |
| `Logging.ConfigureLoggerFromEnv` | api/logging/logging.go:19-48 | The logger uses the `time.DateTime` layout, the formatter chosen by `ENVIRONMENT` and the level named by `LOG_LEVEL`. |
| `Logging.LevelIgnoresCase` | api/logging/logging.go:33 | A level name and its lower-case spelling select the same level. |
| `Logging.LevelExamples` | api/logging/logging.go:32-44 | `DEBUG`, `Warn` and `ERROR` are recognised. `info`, `warning` and the empty string give info. |
| `Logging.LevelRange` | api/logging/logging.go:32-44 | The level is never panic, fatal or trace. |
| `Logging.UnsetEnvironmentLocalButJson` | api/logging/logging.go:22 | With `ENVIRONMENT` unset, the application counts itself local, yet logs JSON. |
| `Logging.FormatterFollowsSetEnvironment` | api/logging/logging.go:22-30 | Whenever `ENVIRONMENT` is set, text output and being local coincide. |
| `CiEnvironment.AnySet` | internal/environment/environment.go:17-22 | The scan is true exactly when some listed variable is non-empty. |
| `CiEnvironment.IsRunningInCI` | internal/environment/environment.go:16-23 | In CI exactly when one of `CI`, `GITHUB_ACTIONS`, `GITLAB_CI`, `NODE_NAME` is non-empty. |
| `CiEnvironment.RunningInCIExactly` | internal/environment/environment.go:6-23 | The four variables spelled out. |
| `CiEnvironment.AnyValueCounts` | internal/environment/environment.go:18 | Any non-empty value of one of the four is enough, `false` included. |
| `CiEnvironment.EmptyCountsAsUnset` | internal/environment/environment.go:18 | An empty variable reads as an unset one. |
| `CiEnvironment.OnlyCiVariablesMatter` | internal/environment/environment.go:16-23 | Other variables never change the answer. |
| `CiEnvironment.NotInCIWithoutVariables` | internal/environment/environment.go:16-23 | With none of the four set, the answer is false. |
| `BuildInfo.GetVersion` | internal/buildinfo/buildinfo.go:8-19 | A decode error gives `undefined` with that error. A missing or empty version gives `undefined` with no error. Otherwise the version. |
| `BuildInfo.VersionNeverEmpty` | internal/buildinfo/buildinfo.go:8-19 | The reported version is never empty. An error comes exactly from a failed decode. |
| `BuildInfo.UndefinedExactly` | internal/buildinfo/buildinfo.go:12-17 | `undefined` exactly when decoding failed, found no version, or found `undefined` itself. |
| `Cobra.Name` | cli/core/registry.go:25 | A command's name is its `Use` up to the first space. |
| `Cobra.FirstWord` | cli/core/registry.go:25 | The text before the first space: a prefix with no space, followed by a space or the end. |
| `Cobra.LessAsymmetric` | internal/doc/doc.go:94 | Go's string order is asymmetric. |
| `Cobra.LessSplits` | internal/doc/doc.go:94 | Go's string order: not-less is transitive. |
| `Cobra.SortBy` | internal/doc/doc.go:94 | Sorting yields an ordered permutation. |
| `Cobra.Commands` | internal/doc/doc.go:94 | `Commands()` lists exactly the subcommands, in name order. |
| `Cobra.VisitOrder` | internal/doc/doc.go:79 | `VisitAll` walks exactly the flag set, in name order. |
| `Cobra.AddCommands` | cli/core/registry.go:79-81 | `AddCommand` appends after the existing subcommands and changes nothing else. |
| `Registry.NewCommandRegistry` | cli/core/registry.go:21-71 | The root has `Use` = name, `Version` and `Short` = description. It carries one persistent flag, `--verbose`/`-v`, and no subcommands. The recorded verbosity is 0. |
| `Registry.VerbosityLevel` | cli/core/registry.go:31-40 | One, two and three `-v` select info, debug and trace. Any other count selects warn. |
| `Registry.VerbosityRaisesDetail` | cli/core/registry.go:31-40 | Up to three, each extra `-v` makes the output chattier. |
| `Registry.PersistentPreRun` | cli/core/registry.go:28-47 | The hook picks the level from the count. A working-directory error is returned; otherwise the context holds the level and directory. |
| `Registry.GetMain` | cli/core/registry.go:73-75 | The root command. |
| `Registry.RegisterCommands` | cli/core/registry.go:78-82 | The commands are appended to the root's subcommands in order. Nothing else changes. |
| `Registry.RegisterTwice` | cli/core/registry.go:78-82 | Registering in two calls is registering once with both lists. |
| `Registry.RegisteredAreListed` | cli/core/registry.go:78-82 | Every registered command is listed by `Commands()`. |
| `Doc.GenerateMarkdown` | internal/doc/doc.go:12-46 | The error is always nil, and the document starts with `# <name> CLI Documentation`. |
| `Doc.Header` | internal/doc/doc.go:15-22 | Title, version, description and usage block. `Doc.DocumentLayout` places it first. |
| `Doc.GlobalFlags` | internal/doc/doc.go:24-39 | The root's persistent flags as a table in name order. `Doc.GlobalFlagsShownExactly` states when it is empty. |
| `Doc.Sections` | internal/doc/doc.go:49-91 | One section per listed command. |
| `Doc.Section` | internal/doc/doc.go:51-91 | One command's heading, descriptions, usage block and flags table. `Doc.SectionHeading`, `Doc.LongShownExactly` and `Doc.FlagsShownExactly` state its parts. |
| `Doc.WriteCommands` | internal/doc/doc.go:49-101 | The recursive writer. `Doc.WriteIsVisibleSections` states its output. |
| `Doc.WriteIsVisibleSections` | internal/doc/doc.go:49-101 | The recursive writer produces exactly the sections of the visible commands, depth first in name order, skipping the root's own section. |
| `Doc.ChildrenAreVisibleSections` | internal/doc/doc.go:94-100 | The subcommand loop produces exactly the visible subtrees' sections. |
| `Doc.DocumentLayout` | internal/doc/doc.go:12-46 | The document is: header, global flags, `## Commands`, then the visible commands' sections. |
| `Doc.VisibleShape` | internal/doc/doc.go:49-101 | Every documented command has these properties: (1) it is not hidden; (2) it sits one level below its parent; (3) it is a subcommand of its parent; (4) none of its ancestors below the root is hidden. |
| `Doc.ChildrenShape` | internal/doc/doc.go:94-100 | The same shape holds for the subcommand loop. |
| `Doc.VisibleChildListed` | internal/doc/doc.go:94-100 | Every subcommand that is not hidden gets a section. |
| `Doc.ChildListed` | internal/doc/doc.go:94-100 | The loop lists every subcommand that is not hidden. |
| `Doc.SectionHeading` | internal/doc/doc.go:52-55 | A section opens with `### <name>`, indented two spaces per level. |
| `Doc.LongShownExactly` | internal/doc/doc.go:63-65 | The long description changes the section exactly when it is non-empty and differs from the short one. |
| `Doc.FlagsShownExactly` | internal/doc/doc.go:74-88 | The flags table changes the section exactly when the command has flags. |
| `Doc.GlobalFlagsShownExactly` | internal/doc/doc.go:25-39 | The global flags block is empty exactly when the root has no persistent flags. Otherwise it opens with its heading and table head. |
| `Doc.RegistryDocumentsVerbosity` | internal/doc/doc.go:25-39 | A registry's root documents exactly one global flag, `--verbose`, with shorthand `-v`. |
| `FileUtils.ShouldSkip` | internal/fileutils/copy.go:75-84 | A path is skipped exactly when some skip entry is a string prefix of it. |
| `FileUtils.SkipIsNotComponentAware` | internal/fileutils/copy.go:79 | `vendor` also skips `vendored/file`. |
| `FileUtils.TrailingSlashSparesDirectory` | internal/fileutils/copy_test.go:22-38 | `to-be-ignored/` skips the files below that directory but not the directory itself. |
| `FileUtils.Localize` | internal/fileutils/copy.go:95-98 | A path is refused, with "invalid path", exactly when it is not a valid `fs` path (empty, rooted, a trailing slash, or an empty, `.` or `..` element other than the whole path `.`) or holds NUL. Otherwise it is unchanged. |
| `FileUtils.ParentFirstInvalid` | internal/fileutils/copy.go:95-98 | A path starting with `../` is never a valid `fs` path. |
| `FileUtils.EscapingEntryRejected` | internal/fileutils/copy.go:95-98 | A walk entry starting with `../` that is not skipped stops the copy with "invalid path" and nothing written. |
| `FileUtils.MkdirAll` | internal/fileutils/copy.go:100-102 | A file in the way is `ENOTDIR`. An existing directory is fine. Otherwise the call fails exactly when creating the directory reports an error, and with that error. On success the directory exists; on failure nothing changes. |
| `FileUtils.Visit` | internal/fileutils/copy.go:86-130 | The callback handles one entry as follows: (1) a walk error is returned; (2) a skipped path does nothing; (3) a path that is not a valid `fs` path or holds NUL fails with "invalid path"; (4) a directory is created; (5) links and irregular files are ignored; (6) a regular file whose target exists fails, leaving the tree unchanged. |
| `FileUtils.CopyRegular` | internal/fileutils/copy.go:110-129 | The copy succeeds exactly when the target is new and open, stat, create, copy and close all succeed; the target then holds the source's data. An existing target is an error, with nothing written. A failed create is returned with nothing written. |
| `FileUtils.CopyFS` | internal/fileutils/copy.go:74-131 | An empty walk changes nothing. |
| `FileUtils.CopyDirectory` | internal/fileutils/copy.go:43-53 | An invalid source path fails as `sub <path>: invalid argument` before anything is written. Otherwise the sub-tree's walk is copied. |
| `FileUtils.DirPrefix` | internal/fileutils/copy.go:22 | The prefix of a path up to its last slash, with no slash after it. |
| `FileUtils.PathDir` | internal/fileutils/copy.go:22 | `path.Dir`: a path without a slash has directory `.`. |
| `FileUtils.JoinPath` | internal/fileutils/copy.go:99 | `filepath.Join` of the destination and a walk path: the walk root `.` maps to the destination itself. |
| `FileUtils.CopyFile` | internal/fileutils/copy.go:13-38 | A source open error is returned with nothing written. On success open, create and copy all succeeded, the destination holds the data, and its directory exists. Nothing besides those two paths changes. |
| `FileUtils.CopyFileReplacesExisting` | internal/fileutils/copy.go:13-37 | Unlike the walk, an existing destination file is no obstacle: the copy fails exactly when open, mkdir of a missing directory, create, copy or close reports an error. On success the old contents are replaced. |
| `FileUtils.CopyFileBlockedByFile` | internal/fileutils/copy.go:22-26 | A file where the destination's directory should be stops the copy, with nothing written. |
| `FileUtils.FirstErrorStops` | internal/fileutils/copy.go:86-89 | The walk's result is that of its first error, whatever follows. |
| `FileUtils.SuccessContinues` | internal/fileutils/copy.go:86-130 | Without an error the walk continues from the tree the prefix left. |
| `FileUtils.VisitKeepsFiles` | internal/fileutils/copy.go:119-122 | A successful step never replaces an existing file. |
| `FileUtils.VisitTouchesOnlyTarget` | internal/fileutils/copy.go:99-129 | A successful step changes only its own target. |
| `FileUtils.CopyKeepsFiles` | internal/fileutils/copy.go:62-64 | Files already in the destination survive a successful copy unchanged. |
| `FileUtils.CopiedFilesArrive` | internal/fileutils/copy.go:86-130 | After a successful copy every regular file not skipped is at its target with the source's data. |
| `FileUtils.OnlyCopiedEntriesAppear` | internal/fileutils/copy.go:91-108 | A successful copy creates nothing but the targets of copied entries. |
| `FileUtils.ExistingTargetFails` | internal/fileutils/copy.go:119-122 | An existing file at a regular file's target stops the copy, with nothing written. |
| `FileUtils.AbsoluteSourceRejected` | internal/fileutils/copy_test.go:68-72 | Copying from `/path/does/not/exist` fails with `sub /path/does/not/exist: invalid argument`. |
| `FileUtils.LeadingSlashInvalid` | internal/fileutils/copy.go:44-47 | An absolute source path is never valid for `fs.Sub`. |

## Left out

- Context deadlines and cancellation are not modelled, including the five-second ping timeout in `NewPostgresStorage`; every call is assumed to complete. Signal handling (SIGTERM/SIGINT cancelling the CLI's context) is left out for the same reason.
- PostgreSQL's own behaviour beyond the query and the sequence:
  - `TIMESTAMPTZ` microsecond rounding and JSONB key normalisation;
  - whether a failed INSERT consumes a sequence value (the model lets a failed statement consume none);
  - pool settings;
  - the `CREATE TABLE`/`CREATE INDEX` script, which is an oracle result.
- `Postgres.NewPostgresStorage` does not model the handle being closed on a failed ping or schema step: closing has no observable result in the model.
- Rows with equal timestamps come back from `ORDER BY timestamp DESC` in insertion order in the model. The database leaves their order open.
- JSON encoding and decoding, RFC 3339 parsing and formatting, the gRPC transport and Cobra's `UseLine()` are oracles. `RoundTrips` is only a hypothesis about the codec, and only for instants in years 0000 to 9999: outside that range Go's `RFC3339Nano` formatter writes a year its parser refuses, so no round trip is promised there.
- Error values crossing gRPC are passed through unchanged: status-code wrapping is not modelled.
- `Server.SendLogs`: a nil storage with a non-empty batch dereferences nil in Go; the model excludes that case with a precondition instead of modelling the panic. `Server.QueryLogs` does the same.
- Logging output is not modelled: the server's and the CLI's log lines and the logger's stream.
- `Cobra.SortBy`: the library's sort does not fix the order of commands or flags with equal names; the model keeps insertion order for ties.
- `Doc.GenerateMarkdown`: the model treats its argument as the root (the source compares `cmd != cmd.Root()`); passing a non-root command is not modelled.
- `Doc.GenerateMarkdown` does not restate the whole document; `Doc.DocumentLayout` does.
- `CommandRegistry.Execute` runs the library's command dispatch and is left out.
- File permissions and modes are not modelled (`0666 | mode&0777`, `0755`, `0777`, umask).
- `FileUtils.CopyRegular` and `FileUtils.CopyFile`: after a failed byte copy the target exists with unspecified partial contents. The model records it as an empty file.
- `FileUtils.FileIO`: which creations fail for reasons other than a path conflict (permissions, a read-only or full file system, no free descriptors, over-long names) is an oracle keyed by path. It is not derived from file modes or quotas.
- `FileUtils.MkdirAll` creates only the named directory, not its missing parents, and detects a file only at that path.
- `FileUtils.PathDir` and `FileUtils.JoinPath` assume clean paths; `filepath.Clean` is not modelled.
- `FileUtils.Localize` models the Unix rules only (`fs.ValidPath` and the NUL check); Windows reserved names and separators are not modelled, nor is `fs.ValidPath`'s refusal of invalid UTF-8, since paths are character sequences.
- Times are instants (Unix nanoseconds): a Go `time.Time`'s location and monotonic reading are not modelled. Where a round trip leaves an entry "unchanged" or "the same", its timestamp is the same instant; the Go value may carry a different zone.
- `Base.Add` adds a duration to an instant without Go's 64-bit overflow of `time.Time.Add`: instants are unbounded.
- The walk itself (`fs.WalkDir` order, `fs.Sub` re-rooting) is an input: `CopyDirectory` takes the walk of the sub-directory.
- `FileUtils.CopyFS` states only the empty walk in its own contract. Its behaviour is stated by `FirstErrorStops`, `SuccessContinues`, `CopiedFilesArrive`, `OnlyCopiedEntriesAppear` and `CopyKeepsFiles`.
- `BuildInfo.GetVersion` takes the JSON decoding result rather than the bytes. In particular, Go's case-insensitive matching of the `version` key happens in the decoder.
- `strings.ToLower` is modelled for ASCII letters only. Level names are ASCII.
- `ConnInfo` models `lib/pq`'s whitespace (Go's `unicode.IsSpace`) on the Latin-1 range only: tab, newline, vertical tab, form feed, carriage return, space, U+0085 and U+00A0. The other Unicode spaces are not modelled: U+1680, U+2000 to U+200A, U+2028, U+2029, U+202F, U+205F and U+3000.

## Findings

| source | as written | input that shows it | evidently intended | confidence | as-written member | corrected member |
|---|---|---|---|---|---|---|
| service/worker/storage/factory.go:26-35 | The connection string is `host=%s port=%s user=%s password=%s dbname=%s sslmode=%s`, with values unquoted. | `POSTGRES_PASSWORD` unset or empty (for example, an empty environment). The string is then `... password= dbname=logs sslmode=disable`. Under section 34.1.1.1 of the PostgreSQL 16 manual, spaces around `=` are optional, so this reads as `password` = `dbname=logs` and no database is named. | Every setting reaches the driver as configured, including an empty password: quote and escape each value. | not executed | `Factory.EmptyPasswordSwallowsDbname` (with `Factory.NewStorageFromEnv`, `Factory.ConnString` and `Factory.EmptyEnvironmentOpensWithoutDatabase`) | `Factory.NewStorageFromEnvQuoted` (with `Factory.QuotedConnString` and `Factory.QuotedConnStringReadsBack`) |

=== FILE: app_env.dfy ===
/** The gateway's deployment environment (api/environment/environment.go). */
module AppEnvironment {
  import opened Base
  import Factory

  const Local := "local"
  const Dev := "dev"
  const Stage := "stage"
  const Prod := "prod"

  const EnvironmentKey := "ENVIRONMENT"
  const VersionKey := "APP_VERSION"
  const LogLevelKey := "LOG_LEVEL"

  /** `GetEnvWithDefault`: the value whenever the variable is present, even
      when that value is empty; the default only when it is absent. */
  function GetEnvWithDefault(env: Env, key: string, default: string): (v: string)
    ensures key in env ==> v == env[key]
    ensures key !in env ==> v == default
  {
    match LookupEnv(env, key)
    case Some(value) => value
    case None => default
  }

  /** `GetApplicationEnv`: `ENVIRONMENT`, or `local` when it is unset. */
  function GetApplicationEnv(env: Env): (v: string)
    ensures EnvironmentKey !in env ==> v == Local
    ensures EnvironmentKey in env ==> v == env[EnvironmentKey]
  {
    GetEnvWithDefault(env, EnvironmentKey, Local)
  }

  /** `IsLocalEnvironment`. */
  function IsLocalEnvironment(env: Env): (b: bool)
    ensures b <==> EnvironmentKey !in env || env[EnvironmentKey] == Local
  {
    GetApplicationEnv(env) == Local
  }

  /** Setting `ENVIRONMENT` to the empty string does not mean local, while
      leaving it unset does. */
  lemma EmptyEnvironmentIsNotLocal(env: Env)
    ensures !IsLocalEnvironment(env[EnvironmentKey := ""])
    ensures IsLocalEnvironment(env - {EnvironmentKey})
  {
  }

  /** Where a present-but-empty variable parts the two lookups: the
      storage factory's reads it as unset and falls back to the default,
      this one returns the empty value. */
  lemma PresentButEmptyDiffers(env: Env, key: string, default: string)
    requires default != ""
    ensures GetEnvWithDefault(env[key := ""], key, default) == ""
    ensures Factory.GetEnvOrDefault(env[key := ""], key, default) == default
  {
  }

  /** On any variable that is absent or non-empty the two lookups agree. */
  lemma LookupsAgreeOtherwise(env: Env, key: string, default: string)
    requires key !in env || env[key] != ""
    ensures GetEnvWithDefault(env, key, default) == Factory.GetEnvOrDefault(env, key, default)
  {
  }
}

=== FILE: base.dfy ===
/** Shared vocabulary of the model: optional values, results that may carry
    an error, the shape of Go errors, raw bytes, instants and durations. */
module Base {

  /** A value that may be absent (a Go nil pointer, an unset variable). */
  datatype Option<+T> = None | Some(value: T)

  /** Go's `(value, error)` pair with exactly one side meaningful. */
  datatype Result<+T> = Ok(value: T) | Err(error: Error)

  /** The errors the model distinguishes.  `Cause` stands for an error
      produced by a collaborator the model does not look inside (the
      database driver, the RPC transport, the file system, the JSON codec);
      `Wrapped` is `fmt.Errorf("<context>: %w", inner)`; `PathError` is Go's
      `*fs.PathError`; `Invalid` and `Exist` are `fs.ErrInvalid` and
      `fs.ErrExist`. */
  datatype Error =
    | Cause(name: string)
    | Wrapped(context: string, inner: Error)
    | PathError(op: string, path: string, inner: Error)
    | Invalid
    | Exist

  newtype byte = x: int | 0 <= x < 256

  type Bytes = seq<byte>

  /** An instant, as nanoseconds since the Unix epoch in UTC. */
  datatype Time = Time(nanos: int)

  /** A Go `time.Duration`: a signed 64-bit count of nanoseconds. */
  type Duration = d: int | -0x8000_0000_0000_0000 <= d < 0x8000_0000_0000_0000

  /** The most negative duration, the one whose negation wraps. */
  const MinDuration: Duration := -0x8000_0000_0000_0000

  /** Go's `-d` on a duration: two's-complement negation, so every duration
      but the most negative one is negated and that one is its own
      negation. */
  function Negate(d: Duration): (r: Duration)
    ensures (r + d) % 0x1_0000_0000_0000_0000 == 0
    ensures d != MinDuration ==> r == -d
  {
    if d == MinDuration then d else -d
  }

  /** Go's zero `time.Time`: 0001-01-01 00:00:00 UTC. */
  const ZeroTime: Time := Time(-62135596800 * 1000000000)

  /** `t.Add(d)`, without Go's 64-bit overflow. */
  function Add(t: Time, d: Duration): (r: Time)
    ensures r.nanos - t.nanos == d
  {
    Time(t.nanos + d)
  }

  /** The `time.RFC3339Nano` layout as the code uses it: `parse` may fail,
      `format` never does.  Neither is interpreted by the model, and no
      round trip between them is assumed. */
  datatype TimeCodec = TimeCodec(parse: string -> Option<Time>, format: Time -> string)

  /** A process environment: variables that are present map to their value,
      which may be the empty string. */
  type Env = map<string, string>

  /** `os.Getenv`: an unset variable reads as the empty string. */
  function Getenv(env: Env, key: string): (v: string)
    ensures key !in env ==> v == ""
    ensures key in env ==> v == env[key]
  {
    if key in env then env[key] else ""
  }

  /** `os.LookupEnv`: tells an unset variable from one set to "". */
  function LookupEnv(env: Env, key: string): (v: Option<string>)
    ensures v.None? <==> key !in env
    ensures v.Some? ==> v.value == env[key]
  {
    if key in env then Some(env[key]) else None
  }
}

=== FILE: buildinfo.dfy ===
/** The CLI's version lookup (internal/buildinfo/buildinfo.go). */
module BuildInfo {
  import opened Base

  /** What decoding a JSON definition into a struct with one string field
      `Version` yields: the decoder's error, or the field's value (empty
      when the document has no such key). */
  datatype Decoded = DecodeError(err: Error) | Decoded(version: string)

  const Undefined := "undefined"

  /** `GetVersion`, over the decoding result.  The empty version takes the
      second branch of the source, whose `err` is the named result that
      nothing has assigned, so no error is reported. */
  function GetVersion(d: Decoded): (out: (string, Option<Error>))
    ensures d.DecodeError? ==> out == (Undefined, Some(d.err))
    ensures d.Decoded? && d.version == "" ==> out == (Undefined, None)
    ensures d.Decoded? && d.version != "" ==> out == (d.version, None)
  {
    match d
    case DecodeError(err) => (Undefined, Some(err))
    case Decoded(v) => if v == "" then (Undefined, None) else (v, None)
  }

  /** The version reported is never empty, and an error comes only from
      the decoder. */
  lemma VersionNeverEmpty(d: Decoded)
    ensures GetVersion(d).0 != ""
    ensures GetVersion(d).1.Some? <==> d.DecodeError?
  {
  }

  /** `undefined` is reported exactly when decoding failed or found no
      version -- or when the definition itself says `undefined`. */
  lemma UndefinedExactly(d: Decoded)
    ensures GetVersion(d).0 == Undefined <==>
              d.DecodeError? || d.version == "" || d.version == Undefined
  {
  }
}

=== FILE: ci_env.dfy ===
/** CI detection (internal/environment/environment.go): a process runs in
    CI when any of the variables known CI providers set is non-empty. */
module CiEnvironment {
  import opened Base

  /** The variables consulted, in the order they are consulted. */
  const CiVariables: seq<string> := ["CI", "GITHUB_ACTIONS", "GITLAB_CI", "NODE_NAME"]

  /** The scan over `vars`: true at the first variable with a non-empty
      value, false when there is none. */
  function AnySet(env: Env, vars: seq<string>): (b: bool)
    ensures b <==> exists i :: 0 <= i < |vars| && Getenv(env, vars[i]) != ""
  {
    if |vars| == 0 then false
    else if Getenv(env, vars[0]) != "" then true
    else
      var rest := AnySet(env, vars[1..]);
      assert forall i :: 1 <= i < |vars| ==> vars[i] == vars[1..][i - 1];
      rest
  }

  /** `IsRunningInCI`. */
  function IsRunningInCI(env: Env): (b: bool)
    ensures b <==> exists v :: v in CiVariables && Getenv(env, v) != ""
  {
    AnySet(env, CiVariables)
  }

  /** True exactly when one of the four variables is non-empty; what the
      value says (`false`, `0`, `off`, blanks) does not matter. */
  lemma RunningInCIExactly(env: Env)
    ensures IsRunningInCI(env) <==>
              Getenv(env, "CI") != "" || Getenv(env, "GITHUB_ACTIONS") != "" ||
              Getenv(env, "GITLAB_CI") != "" || Getenv(env, "NODE_NAME") != ""
  {
    if IsRunningInCI(env) {
      var v :| v in CiVariables && Getenv(env, v) != "";
    } else {
      assert CiVariables[0] == "CI" && CiVariables[1] == "GITHUB_ACTIONS";
      assert CiVariables[2] == "GITLAB_CI" && CiVariables[3] == "NODE_NAME";
    }
  }

  /** Any non-empty value of one of the four variables is enough on its
      own, whatever else the environment holds. */
  lemma AnyValueCounts(env: Env, v: string, value: string)
    requires v in CiVariables && value != ""
    ensures IsRunningInCI(env[v := value])
  {
    assert Getenv(env[v := value], v) != "";
  }

  /** A variable set to the empty string is read exactly as an unset one. */
  lemma EmptyCountsAsUnset(env: Env, v: string)
    ensures IsRunningInCI(env[v := ""]) == IsRunningInCI(env - {v})
  {
    forall w ensures Getenv(env[v := ""], w) == Getenv(env - {v}, w) {
    }
  }

  /** Variables other than the four never change the answer. */
  lemma OnlyCiVariablesMatter(env1: Env, env2: Env)
    requires forall v :: v in CiVariables ==> Getenv(env1, v) == Getenv(env2, v)
    ensures IsRunningInCI(env1) == IsRunningInCI(env2)
  {
  }

  /** With none of the four variables set, the answer is false. */
  lemma NotInCIWithoutVariables(env: Env)
    requires forall v :: v in CiVariables ==> v !in env
    ensures !IsRunningInCI(env)
  {
  }
}

=== FILE: client.dfy ===
/** The HTTP gateway's client of the worker (api/router/v0/client.go):
    gateway entries go out as wire events and come back from wire events,
    over a remote call the model treats as an oracle. */
module Client {
  import opened Base
  import opened StorageTypes
  import opened Server

  /** The gateway's `events.Entry`: an event as the HTTP API sees it. */
  datatype Entry = Entry(
    timestamp: Time,
    service: string,
    level: string,
    message: string,
    fields: Fields)

  /** The generated gRPC stub: each remote call yields the server's
      response or an error from the transport or the server. */
  datatype LogAggregatorClient = LogAggregatorClient(
    sendLogs: LogBatch -> Result<SendLogsResponse>,
    queryLogs: QueryRequest -> Result<LogBatch>)

  /** A client connection: its target and what closing it reports. */
  datatype Connection = Connection(target: string, closeErr: Option<Error>)

  /** `GRPCLogClient`: the connection (None for a nil one), the stub over
      it, and the RFC 3339 codec. */
  datatype GrpcLogClient = GrpcLogClient(
    conn: Option<Connection>,
    client: LogAggregatorClient,
    codec: TimeCodec)

  /** `NewGRPCLogClient`: dial the address (without transport security)
      and wrap the connection in a stub; a dial error is returned as it is. */
  function NewGrpcLogClient(dial: string -> Result<Connection>, stub: Connection -> LogAggregatorClient,
                            codec: TimeCodec, address: string): (res: Result<GrpcLogClient>)
    ensures dial(address).Err? ==> res == Err(dial(address).error)
    ensures dial(address).Ok? ==>
              && res.Ok?
              && res.value.conn == Some(dial(address).value)
              && res.value.client == stub(dial(address).value)
  {
    match dial(address)
    case Err(err) => Err(err)
    case Ok(conn) => Ok(GrpcLogClient(Some(conn), stub(conn), codec))
  }

  /** Every gateway entry's timestamp lies in the range RFC 3339 can write. */
  predicate EntriesInRange(batch: seq<Entry>) {
    forall i :: 0 <= i < |batch| ==> InRfc3339Range(batch[i].timestamp)
  }

  /** A gateway entry as the wire event `ForwardLogs` sends. */
  function EntryToEvent(codec: TimeCodec, e: Entry): (ev: LogEvent)
    ensures RoundTrips(codec) && InRfc3339Range(e.timestamp) ==> EventToEntry(codec, ev) == e
  {
    LogEvent(codec.format(e.timestamp), e.service, e.level, e.message, e.fields)
  }

  /** A wire event as the gateway entry `FetchLogs` returns: a timestamp
      that does not parse becomes the zero time. */
  function EventToEntry(codec: TimeCodec, e: LogEvent): (x: Entry)
    ensures codec.parse(e.timestamp).Some? ==> x.timestamp == codec.parse(e.timestamp).value
    ensures codec.parse(e.timestamp).None? ==> x.timestamp == ZeroTime
  {
    var t := match codec.parse(e.timestamp) case Some(t) => t case None => ZeroTime;
    Entry(t, e.service, e.level, e.message, e.fields)
  }

  /** The batch `ForwardLogs` sends: one event per entry, in order. */
  function OutgoingBatch(codec: TimeCodec, batch: seq<Entry>): (b: LogBatch)
    ensures |b.events| == |batch|
    ensures forall i :: 0 <= i < |batch| ==> b.events[i] == EntryToEvent(codec, batch[i])
  {
    if |batch| == 0 then LogBatch([])
    else LogBatch([EntryToEvent(codec, batch[0])] + OutgoingBatch(codec, batch[1..]).events)
  }

  /** The entries `FetchLogs` builds: one per event, in order. */
  function IncomingEntries(codec: TimeCodec, events: seq<LogEvent>): (es: seq<Entry>)
    ensures |es| == |events|
    ensures forall i :: 0 <= i < |events| ==> es[i] == EventToEntry(codec, events[i])
  {
    if |events| == 0 then []
    else [EventToEntry(codec, events[0])] + IncomingEntries(codec, events[1..])
  }

  /** `ForwardLogs`: send the whole batch in one call -- an empty one
      included -- and report only the call's error; the response's `ok`
      flag is not looked at. */
  function ForwardLogs(c: GrpcLogClient, batch: seq<Entry>): (err: Option<Error>)
    ensures c.client.sendLogs(OutgoingBatch(c.codec, batch)).Err? ==>
              err == Some(c.client.sendLogs(OutgoingBatch(c.codec, batch)).error)
    ensures c.client.sendLogs(OutgoingBatch(c.codec, batch)).Ok? ==> err.None?
  {
    match c.client.sendLogs(OutgoingBatch(c.codec, batch))
    case Err(e) => Some(e)
    case Ok(_) => None
  }

  /** A negative acknowledgement that arrives without an error is not
      reported: `ForwardLogs` then succeeds. */
  lemma ForwardIgnoresAcknowledgement(c: GrpcLogClient, batch: seq<Entry>)
    requires c.client.sendLogs(OutgoingBatch(c.codec, batch)) == Ok(SendLogsResponse(false))
    ensures ForwardLogs(c, batch) == None
  {
  }

  /** `FetchLogs`: ask for exactly the given service and level; an error
      comes back alone, otherwise one entry per event in order. */
  function FetchLogs(c: GrpcLogClient, service: string, level: string): (res: Result<seq<Entry>>)
    ensures c.client.queryLogs(QueryRequest(service, level)).Err? ==>
              res == Err(c.client.queryLogs(QueryRequest(service, level)).error)
    ensures c.client.queryLogs(QueryRequest(service, level)).Ok? ==>
              var events := c.client.queryLogs(QueryRequest(service, level)).value.events;
              && res.Ok? && |res.value| == |events|
              && forall i :: 0 <= i < |events| ==>
                   && res.value[i].service == events[i].service
                   && res.value[i].level == events[i].level
                   && res.value[i].message == events[i].message
                   && res.value[i].fields == events[i].fields
  {
    match c.client.queryLogs(QueryRequest(service, level))
    case Err(err) => Err(err)
    case Ok(resp) => Ok(IncomingEntries(c.codec, resp.events))
  }

  /** `Close`: the connection's close result, or no error without one. */
  function Close(c: GrpcLogClient): (err: Option<Error>)
    ensures c.conn.None? ==> err.None?
    ensures c.conn.Some? ==> err == c.conn.value.closeErr
  {
    if c.conn.Some? then c.conn.value.closeErr else None
  }

  /** Gateway entries survive the trip out and back whenever the codec
      reads back its own output. */
  lemma EntriesRoundTrip(codec: TimeCodec, batch: seq<Entry>)
    requires RoundTrips(codec) && EntriesInRange(batch)
    ensures IncomingEntries(codec, OutgoingBatch(codec, batch).events) == batch
  {
    var back := IncomingEntries(codec, OutgoingBatch(codec, batch).events);
    forall i | 0 <= i < |batch| ensures back[i] == batch[i] {
      assert codec.parse(codec.format(batch[i].timestamp)) == Some(batch[i].timestamp);
    }
  }

  // ---- The client wired straight to a server ----

  /** A stub that hands each call to `srv` in process: a server error
      reaches the client as that error, the response is then dropped. */
  function Loopback<S>(srv: LogAggregatorServer<S>, clock: Clock, storeNow: Time): LogAggregatorClient
    requires srv.storage.Some?
  {
    LogAggregatorClient(
      (b: LogBatch) =>
        var out := SendLogs(srv, clock, storeNow, b);
        if out.err.Some? then Err(out.err.value) else Ok(out.response),
      (req: QueryRequest) => Server.QueryLogs(srv, req))
  }

  /** What a forwarded batch becomes in storage: the entries the server
      hands to `InsertLogs` carry each gateway entry's own timestamp (not
      the server's clock) and contents, in order, whenever the codec reads
      back its own output. */
  lemma ForwardedEntriesReachStorage(codec: TimeCodec, clock: Clock, batch: seq<Entry>)
    requires RoundTrips(codec) && EntriesInRange(batch)
    ensures var es := ToEntries(codec, clock, OutgoingBatch(codec, batch).events);
      && |es| == |batch|
      && forall i :: 0 <= i < |batch| ==>
           es[i] == NewEntry(batch[i].timestamp, batch[i].service, batch[i].level, batch[i].message, batch[i].fields)
  {
    var es := ToEntries(codec, clock, OutgoingBatch(codec, batch).events);
    forall i | 0 <= i < |batch|
      ensures es[i] == NewEntry(batch[i].timestamp, batch[i].service, batch[i].level, batch[i].message, batch[i].fields)
    {
      assert codec.parse(codec.format(batch[i].timestamp)) == Some(batch[i].timestamp);
    }
  }

  /** Forwarding a non-empty batch to a server fails exactly when storage
      refuses the converted entries, and with storage's own error. */
  lemma ForwardThroughServer<S>(srv: LogAggregatorServer<S>, clock: Clock, storeNow: Time, batch: seq<Entry>)
    requires srv.storage.Some? && |batch| > 0
    ensures var c := GrpcLogClient(None, Loopback(srv, clock, storeNow), srv.codec);
      ForwardLogs(c, batch) ==
        srv.storage.value.insertLogs(srv.backend, storeNow, ToEntries(srv.codec, clock, OutgoingBatch(srv.codec, batch).events)).err
  {
  }

  /** Stored entries served as wire events come back to the gateway with
      their own timestamps and contents, in order. */
  lemma FetchedEntries(codec: TimeCodec, es: seq<LogEntry>)
    requires RoundTrips(codec) && TimestampsInRange(es)
    ensures IncomingEntries(codec, ToEvents(codec, es)) ==
              seq(|es|, i requires 0 <= i < |es| =>
                    Entry(es[i].timestamp, es[i].service, es[i].level, es[i].message, es[i].fields))
  {
    var got := IncomingEntries(codec, ToEvents(codec, es));
    forall i | 0 <= i < |es|
      ensures got[i] == Entry(es[i].timestamp, es[i].service, es[i].level, es[i].message, es[i].fields)
    {
      assert codec.parse(codec.format(es[i].timestamp)) == Some(es[i].timestamp);
    }
  }

  /** Fetching through a server returns storage's answer to the request's
      filter, entry for entry, when the codec reads back its own output;
      a storage error comes back unchanged. */
  lemma FetchThroughServer<S>(srv: LogAggregatorServer<S>, clock: Clock, storeNow: Time, service: string, level: string)
    requires srv.storage.Some? && RoundTrips(srv.codec)
    ensures var c := GrpcLogClient(None, Loopback(srv, clock, storeNow), srv.codec);
      var answer := srv.storage.value.queryLogs(srv.backend, RequestFilter(QueryRequest(service, level)));
      && (answer.Err? ==> FetchLogs(c, service, level) == Err(answer.error))
      && (answer.Ok? && TimestampsInRange(answer.value) ==>
            FetchLogs(c, service, level) ==
              Ok(seq(|answer.value|, i requires 0 <= i < |answer.value| =>
                       Entry(answer.value[i].timestamp, answer.value[i].service, answer.value[i].level,
                             answer.value[i].message, answer.value[i].fields))))
  {
    var answer := srv.storage.value.queryLogs(srv.backend, RequestFilter(QueryRequest(service, level)));
    if answer.Ok? && TimestampsInRange(answer.value) {
      assert Server.QueryLogs(srv, QueryRequest(service, level)) == Ok(LogBatch(ToEvents(srv.codec, answer.value)));
      FetchedEntries(srv.codec, answer.value);
    }
  }
}

=== FILE: cobra.dfy ===
/** The parts of the command-line library's `Command` and `Flag` that the
    CLI's registry and documentation generator read. */
module Cobra {

  /** A flag as `VisitAll` reports it: long name, one-letter shorthand
      (empty when there is none), value type name and usage text. */
  datatype Flag = Flag(name: string, shorthand: string, typeName: string, usage: string)

  /** A command: `Use` (whose first word is the name), `Version`, `Short`,
      `Long`, `Hidden`, the flag sets `Flags()` and `PersistentFlags()`
      hold, and the subcommands in the order they were added. */
  datatype Command = Command(
    use: string,
    version: string,
    short: string,
    long: string,
    hidden: bool,
    flags: seq<Flag>,
    persistentFlags: seq<Flag>,
    children: seq<Command>)

  /** `Name()`: `Use` up to its first space. */
  function Name(c: Command): (n: string)
    ensures |n| <= |c.use| && n == c.use[..|n|]
    ensures ' ' !in n
    ensures |n| < |c.use| ==> c.use[|n|] == ' '
  {
    FirstWord(c.use)
  }

  function FirstWord(s: string): (w: string)
    ensures |w| <= |s| && w == s[..|w|]
    ensures ' ' !in w
    ensures |w| < |s| ==> s[|w|] == ' '
  {
    if |s| == 0 || s[0] == ' ' then ""
    else [s[0]] + FirstWord(s[1..])
  }

  // ---- Go's string order and the name-sorted listings ----

  /** Go's `<` on strings: lexicographic by character. */
  predicate Less(a: string, b: string)
    decreases |a|
  {
    |b| > 0 && (|a| == 0 || a[0] < b[0] || (a[0] == b[0] && Less(a[1..], b[1..])))
  }

  lemma {:induction false} LessAsymmetric(a: string, b: string)
    ensures !(Less(a, b) && Less(b, a))
    decreases |a|
  {
    if |a| > 0 && |b| > 0 && a[0] == b[0] {
      LessAsymmetric(a[1..], b[1..]);
    }
  }

  /** Not-less is transitive: if `c < a` then `c < b` or `b < a`. */
  lemma {:induction false} LessSplits(a: string, b: string, c: string)
    requires Less(c, a)
    ensures Less(c, b) || Less(b, a)
    decreases |a|
  {
    if |b| > 0 && |c| > 0 && |a| > 0 && c[0] == a[0] && b[0] == a[0] {
      LessSplits(a[1..], b[1..], c[1..]);
    }
  }

  /** `xs` is in non-decreasing order of `key`. */
  ghost predicate SortedBy<T>(xs: seq<T>, key: T -> string) {
    forall i, j :: 0 <= i < j < |xs| ==> !Less(key(xs[j]), key(xs[i]))
  }

  function InsertBy<T>(x: T, xs: seq<T>, key: T -> string): (s: seq<T>)
    requires SortedBy(xs, key)
    ensures SortedBy(s, key)
    ensures multiset(s) == multiset(xs) + multiset{x}
    ensures |s| == |xs| + 1
  {
    if |xs| == 0 || !Less(key(xs[0]), key(x)) then
      FirstIsLeast(x, xs, key);
      [x] + xs
    else
      var rest := InsertBy(x, xs[1..], key);
      assert xs == [xs[0]] + xs[1..];
      HeadIsLeast(xs[0], xs[1..], x, rest, key);
      [xs[0]] + rest
  }

  lemma FirstIsLeast<T>(x: T, xs: seq<T>, key: T -> string)
    requires SortedBy(xs, key)
    requires |xs| == 0 || !Less(key(xs[0]), key(x))
    ensures SortedBy([x] + xs, key)
  {
    var s := [x] + xs;
    forall i, j | 0 <= i < j < |s| ensures !Less(key(s[j]), key(s[i])) {
      if i == 0 {
        if Less(key(s[j]), key(x)) {
          LessSplits(key(x), key(xs[0]), key(s[j]));
        }
      }
    }
  }

  lemma HeadIsLeast<T>(h: T, tail: seq<T>, x: T, rest: seq<T>, key: T -> string)
    requires SortedBy([h] + tail, key) && SortedBy(rest, key)
    requires Less(key(h), key(x))
    requires multiset(rest) == multiset(tail) + multiset{x}
    ensures SortedBy([h] + rest, key)
  {
    var s := [h] + rest;
    forall j | 0 < j < |s| ensures !Less(key(s[j]), key(h)) {
      assert s[j] == rest[j - 1];
      assert rest[j - 1] in multiset(rest);
      if rest[j - 1] == x {
        LessAsymmetric(key(h), key(x));
      } else {
        assert rest[j - 1] in multiset(tail);
        var k :| 0 <= k < |tail| && tail[k] == rest[j - 1];
        assert ([h] + tail)[k + 1] == tail[k] && ([h] + tail)[0] == h;
      }
    }
  }

  /** The elements of `xs` rearranged in order of `key`.  The library's
      sort does not fix the order of equal keys; this one keeps the
      earlier element first. */
  function SortBy<T>(xs: seq<T>, key: T -> string): (s: seq<T>)
    ensures SortedBy(s, key)
    ensures multiset(s) == multiset(xs)
    ensures |s| == |xs|
  {
    if |xs| == 0 then []
    else
      assert xs == [xs[0]] + xs[1..];
      InsertBy(xs[0], SortBy(xs[1..], key), key)
  }

  function FlagName(f: Flag): string { f.name }

  /** `Commands()`: the subcommands sorted by name, as the library lists
      them by default. */
  function Commands(c: Command): (cs: seq<Command>)
    ensures multiset(cs) == multiset(c.children)
    ensures forall x :: x in cs ==> x in c.children
    ensures SortedBy(cs, Name)
  {
    var cs := SortBy(c.children, Name);
    assert forall x :: x in cs ==> x in multiset(cs);
    cs
  }

  /** The order `VisitAll` walks a flag set in: sorted by name. */
  function VisitOrder(fs: seq<Flag>): (vs: seq<Flag>)
    ensures multiset(vs) == multiset(fs)
    ensures SortedBy(vs, FlagName)
  {
    SortBy(fs, FlagName)
  }

  /** `AddCommand`: the new subcommands go after the existing ones. */
  function AddCommands(c: Command, cmds: seq<Command>): (r: Command)
    ensures |r.children| == |c.children| + |cmds|
    ensures r.children[..|c.children|] == c.children
    ensures r.children[|c.children|..] == cmds
    ensures r.(children := c.children) == c
  {
    c.(children := c.children + cmds)
  }
}

=== FILE: conninfo.dfy ===
/** PostgreSQL's keyword/value connection strings (section 34.1.1.1 of the
    PostgreSQL 16 manual, "Keyword/Value Connection Strings"), as the
    `lib/pq` driver reads them: settings `keyword = value` separated by
    whitespace, with spaces around `=` optional; a value is either a run
    of non-space characters or a single-quoted string, and inside either a
    backslash makes the next character literal.  This is the reader of the
    strings the storage factory assembles. */
module ConnInfo {
  import opened Base
  import opened Text

  /** Go's `unicode.IsSpace` on the Latin-1 range. */
  predicate IsSpace(c: char) {
    c == ' ' || c == '\t' || c == '\n' || c == '\r' || c == '\U{000B}' || c == '\U{000C}'
    || c == '\U{0085}' || c == '\U{00A0}'
  }

  predicate AllSpaces(s: string) {
    forall i :: 0 <= i < |s| ==> IsSpace(s[i])
  }

  /** `s` without its leading whitespace. */
  function SkipSpaces(s: string): (r: string)
    ensures |r| <= |s|
  {
    if |s| > 0 && IsSpace(s[0]) then SkipSpaces(s[1..]) else s
  }

  /** The keyword: the longest prefix free of whitespace and `=`. */
  function ScanKey(s: string): (r: (string, string))
    ensures |r.1| <= |s|
  {
    if |s| == 0 || IsSpace(s[0]) || s[0] == '=' then ("", s)
    else
      var (k, rest) := ScanKey(s[1..]);
      ([s[0]] + k, rest)
  }

  /** A quoted value, starting after the opening quote: up to the next
      unescaped quote, which is consumed.  `None` when the quote is never
      closed or a backslash ends the string. */
  function ScanQuoted(s: string): (r: Option<(string, string)>)
    ensures r.Some? ==> |r.value.1| < |s|
  {
    if |s| == 0 then None
    else if s[0] == '\'' then Some(("", s[1..]))
    else if s[0] == '\\' then
      if |s| < 2 then None
      else match ScanQuoted(s[2..])
        case None => None
        case Some((v, rest)) => Some(([s[1]] + v, rest))
    else match ScanQuoted(s[1..])
      case None => None
      case Some((v, rest)) => Some(([s[0]] + v, rest))
  }

  /** An unquoted value: up to the next whitespace, which is left in
      place.  `None` when a backslash ends the string. */
  function ScanBare(s: string): (r: Option<(string, string)>)
    ensures r.Some? ==> |r.value.1| <= |s|
  {
    if |s| == 0 || IsSpace(s[0]) then Some(("", s))
    else if s[0] == '\\' then
      if |s| < 2 then None
      else match ScanBare(s[2..])
        case None => None
        case Some((v, rest)) => Some(([s[1]] + v, rest))
    else match ScanBare(s[1..])
      case None => None
      case Some((v, rest)) => Some(([s[0]] + v, rest))
  }

  function Prepend(p: (string, string), r: Option<seq<(string, string)>>): Option<seq<(string, string)>> {
    if r.Some? then Some([p] + r.value) else None
  }

  /** The first setting of a string that starts with a keyword, and what
      follows it; `None` when it is malformed (a keyword without `=`, an
      unterminated quote, a trailing backslash).  A keyword with nothing
      after its `=` gets the empty value. */
  function NextSetting(s: string): (r: Option<((string, string), string)>)
    requires |s| > 0
    ensures r.Some? ==> |r.value.1| < |s|
  {
    var (key, s2) := ScanKey(s);
    var s3 := SkipSpaces(s2);
    if |s3| == 0 || s3[0] != '=' then None
    else
      var s4 := SkipSpaces(s3[1..]);
      if |s4| == 0 then Some(((key, ""), ""))
      else
        var v := if s4[0] == '\'' then ScanQuoted(s4[1..]) else ScanBare(s4);
        if v.None? then None else Some(((key, v.value.0), v.value.1))
  }

  /** The settings of a connection string, in the order written, or `None`
      when any of them is malformed. */
  function Parse(s: string): Option<seq<(string, string)>>
    decreases |s|
  {
    var s1 := SkipSpaces(s);
    if |s1| == 0 then Some([])
    else
      match NextSetting(s1)
      case None => None
      case Some((p, rest)) => Prepend(p, Parse(rest))
  }

  /** The value a setting ends up with: the last one written wins. */
  function Lookup(settings: seq<(string, string)>, key: string): Option<string> {
    if |settings| == 0 then None
    else
      var later := Lookup(settings[1..], key);
      if later.Some? then later
      else if settings[0].0 == key then Some(settings[0].1)
      else None
  }

  // ---- Writing settings ----

  /** A keyword the reader takes back whole. */
  predicate SimpleKey(k: string) {
    |k| > 0 && forall i :: 0 <= i < |k| ==> !IsSpace(k[i]) && k[i] != '='
  }

  /** A value that reads back unquoted: non-empty, no whitespace, no
      backslash, not starting with a quote. */
  predicate BareValue(v: string) {
    && |v| > 0 && v[0] != '\''
    && forall i :: 0 <= i < |v| ==> !IsSpace(v[i]) && v[i] != '\\'
  }

  /** Backslash before every quote and backslash. */
  function Escape(v: string): (r: string)
    ensures |r| >= |v|
  {
    if |v| == 0 then ""
    else if v[0] == '\'' || v[0] == '\\' then ['\\', v[0]] + Escape(v[1..])
    else [v[0]] + Escape(v[1..])
  }

  function Quote(v: string): string {
    "'" + Escape(v) + "'"
  }

  /** `keyword=value` with the value written as is. */
  function BareItem(p: (string, string)): string {
    p.0 + "=" + p.1
  }

  /** `keyword='value'` with the value quoted and escaped. */
  function QuotedItem(p: (string, string)): string {
    p.0 + "=" + Quote(p.1)
  }

  // ---- Reading back what was written ----

  lemma {:induction false} SkipNoSpace(s: string)
    requires |s| > 0 && !IsSpace(s[0])
    ensures SkipSpaces(s) == s
  {
  }

  lemma {:induction false} SkipSpacesPrefix(sp: string, s: string)
    requires AllSpaces(sp)
    ensures SkipSpaces(sp + s) == SkipSpaces(s)
    decreases |sp|
  {
    if |sp| > 0 {
      assert (sp + s)[1..] == sp[1..] + s;
      SkipSpacesPrefix(sp[1..], s);
    } else {
      assert sp + s == s;
    }
  }

  /** Leading whitespace does not change what a string says. */
  lemma ParseSkipsLeadingSpace(sp: string, s: string)
    requires AllSpaces(sp)
    ensures Parse(sp + s) == Parse(s)
  {
    SkipSpacesPrefix(sp, s);
    SkipSpacesPrefix("", s);
    assert "" + s == s;
  }

  /** A string that starts with a setting says that setting, then what the
      rest says. */
  lemma ParseFirst(s: string, p: (string, string), rest: string)
    requires |s| > 0 && !IsSpace(s[0]) && NextSetting(s) == Some((p, rest))
    ensures Parse(s) == Prepend(p, Parse(rest))
  {
    SkipNoSpace(s);
  }

  lemma {:induction false} ScanKeyOf(k: string, t: string)
    requires forall i :: 0 <= i < |k| ==> !IsSpace(k[i]) && k[i] != '='
    requires |t| > 0 && t[0] == '='
    ensures ScanKey(k + t) == (k, t)
    decreases |k|
  {
    if |k| == 0 {
      assert k + t == t;
    } else {
      assert (k + t)[0] == k[0];
      assert (k + t)[1..] == k[1..] + t;
      ScanKeyOf(k[1..], t);
      assert [k[0]] + k[1..] == k;
    }
  }

  lemma {:induction false} ScanBareOf(v: string, tail: string)
    requires forall i :: 0 <= i < |v| ==> !IsSpace(v[i]) && v[i] != '\\'
    requires |tail| == 0 || IsSpace(tail[0])
    ensures ScanBare(v + tail) == Some((v, tail))
    decreases |v|
  {
    if |v| == 0 {
      assert v + tail == tail;
    } else {
      assert (v + tail)[0] == v[0];
      assert (v + tail)[1..] == v[1..] + tail;
      ScanBareOf(v[1..], tail);
      assert [v[0]] + v[1..] == v;
    }
  }

  /** Escaping is undone by the quoted-value reader, whatever the value. */
  lemma {:induction false} ScanQuotedOf(v: string, tail: string)
    ensures ScanQuoted(Escape(v) + "'" + tail) == Some((v, tail))
    decreases |v|
  {
    var s := Escape(v) + "'" + tail;
    if |v| == 0 {
      assert s == "'" + tail;
    } else if v[0] == '\'' || v[0] == '\\' {
      assert s == ['\\', v[0]] + (Escape(v[1..]) + "'" + tail);
      assert s[2..] == Escape(v[1..]) + "'" + tail;
      ScanQuotedOf(v[1..], tail);
      assert [v[0]] + v[1..] == v;
    } else {
      assert s == [v[0]] + (Escape(v[1..]) + "'" + tail);
      assert s[1..] == Escape(v[1..]) + "'" + tail;
      ScanQuotedOf(v[1..], tail);
      assert [v[0]] + v[1..] == v;
    }
  }

  /** One bare setting, possibly with spaces after its `=`, followed by a
      separator or the end. */
  lemma NextBare(k: string, sp: string, v: string, tail: string)
    requires SimpleKey(k) && AllSpaces(sp) && BareValue(v)
    requires |tail| == 0 || IsSpace(tail[0])
    ensures NextSetting(k + "=" + sp + v + tail) == Some(((k, v), tail))
  {
    var t := "=" + sp + v + tail;
    assert k + "=" + sp + v + tail == k + t;
    ScanKeyOf(k, t);
    SkipNoSpace(t);
    assert t[1..] == sp + (v + tail);
    SkipSpacesPrefix(sp, v + tail);
    SkipNoSpace(v + tail);
    ScanBareOf(v, tail);
  }

  lemma ParseBareStep(k: string, sp: string, v: string, tail: string)
    requires SimpleKey(k) && AllSpaces(sp) && BareValue(v)
    requires |tail| == 0 || IsSpace(tail[0])
    ensures Parse(k + "=" + sp + v + tail) == Prepend((k, v), Parse(tail))
  {
    NextBare(k, sp, v, tail);
    ParseFirst(k + "=" + sp + v + tail, (k, v), tail);
  }

  /** One quoted setting followed by a separator or the end. */
  lemma NextQuoted(k: string, v: string, tail: string)
    requires SimpleKey(k)
    requires |tail| == 0 || IsSpace(tail[0])
    ensures NextSetting(QuotedItem((k, v)) + tail) == Some(((k, v), tail))
  {
    var t := "=" + Quote(v) + tail;
    assert QuotedItem((k, v)) + tail == k + t;
    ScanKeyOf(k, t);
    SkipNoSpace(t);
    var u := t[1..];
    assert u == "'" + (Escape(v) + "'" + tail);
    SkipNoSpace(u);
    assert u[1..] == Escape(v) + "'" + tail;
    ScanQuotedOf(v, tail);
  }

  lemma ParseQuotedStep(k: string, v: string, tail: string)
    requires SimpleKey(k)
    requires |tail| == 0 || IsSpace(tail[0])
    ensures Parse(QuotedItem((k, v)) + tail) == Prepend((k, v), Parse(tail))
  {
    NextQuoted(k, v, tail);
    ParseFirst(QuotedItem((k, v)) + tail, (k, v), tail);
  }

  function BareItems(ps: seq<(string, string)>): (items: seq<string>)
    ensures |items| == |ps|
  {
    seq(|ps|, i requires 0 <= i < |ps| => BareItem(ps[i]))
  }

  function QuotedItems(ps: seq<(string, string)>): (items: seq<string>)
    ensures |items| == |ps|
  {
    seq(|ps|, i requires 0 <= i < |ps| => QuotedItem(ps[i]))
  }

  /** Settings written `keyword='value'` and joined by spaces read back as
      exactly those settings, for every value. */
  lemma {:induction false} QuotedRoundTrip(ps: seq<(string, string)>)
    requires forall i :: 0 <= i < |ps| ==> SimpleKey(ps[i].0)
    ensures Parse(Join(QuotedItems(ps), ' ')) == Some(ps)
  {
    var items := QuotedItems(ps);
    if |ps| == 0 {
      assert Parse("") == Some([]);
    } else if |ps| == 1 {
      ParseQuotedStep(ps[0].0, ps[0].1, "");
      assert Parse(QuotedItem((ps[0].0, ps[0].1)) + "") == Prepend((ps[0].0, ps[0].1), Parse(""));
      assert items[0] == QuotedItem((ps[0].0, ps[0].1));
      assert items[0] + "" == items[0] == Join(items, ' ');
      assert Parse("") == Some([]);
      assert ps == [(ps[0].0, ps[0].1)] + [];
    } else {
      assert QuotedItems(ps[1..]) == items[1..];
      QuotedRoundTrip(ps[1..]);
      var rest := Join(items[1..], ' ');
      ParseSkipsLeadingSpace([' '], rest);
      ParseQuotedStep(ps[0].0, ps[0].1, [' '] + rest);
      assert Join(items, ' ') == items[0] + ([' '] + rest);
      assert [ps[0]] + ps[1..] == ps;
    }
  }

  /** Settings written `keyword=value` read back as themselves when every
      value is bare-safe. */
  lemma {:induction false} BareRoundTrip(ps: seq<(string, string)>)
    requires forall i :: 0 <= i < |ps| ==> SimpleKey(ps[i].0) && BareValue(ps[i].1)
    ensures Parse(Join(BareItems(ps), ' ')) == Some(ps)
  {
    if |ps| == 0 {
      assert Parse("") == Some([]);
    } else if |ps| == 1 {
      BareRoundTripOne(ps);
    } else {
      BareRoundTrip(ps[1..]);
      BareRoundTripCons(ps);
    }
  }

  lemma BareRoundTripOne(ps: seq<(string, string)>)
    requires |ps| == 1 && SimpleKey(ps[0].0) && BareValue(ps[0].1)
    ensures Parse(Join(BareItems(ps), ' ')) == Some(ps)
  {
    var items := BareItems(ps);
    ParseBareStep(ps[0].0, "", ps[0].1, "");
    assert items[0] == BareItem((ps[0].0, ps[0].1));
    assert items[0] == ps[0].0 + "=" + "" + ps[0].1 + "" == Join(items, ' ');
    assert Parse("") == Some([]);
    assert ps == [(ps[0].0, ps[0].1)] + [];
  }

  lemma BareRoundTripCons(ps: seq<(string, string)>)
    requires |ps| >= 2 && SimpleKey(ps[0].0) && BareValue(ps[0].1)
    requires Parse(Join(BareItems(ps[1..]), ' ')) == Some(ps[1..])
    ensures Parse(Join(BareItems(ps), ' ')) == Some(ps)
  {
    var items := BareItems(ps);
    assert BareItems(ps[1..]) == items[1..];
    var rest := Join(items[1..], ' ');
    ParseSkipsLeadingSpace([' '], rest);
    ParseBareStep(ps[0].0, "", ps[0].1, [' '] + rest);
    JoinUncons(items, ' ');
    assert items[0] == BareItem(ps[0]);
    BareItemText(ps[0], [' '] + rest);
    assert [ps[0]] + ps[1..] == ps;
  }

  function PrependAll(a: seq<(string, string)>, r: Option<seq<(string, string)>>): Option<seq<(string, string)>> {
    if r.Some? then Some(a + r.value) else None
  }

  lemma JoinHead(xs: seq<string>, sep: char)
    requires |xs| >= 1 && |xs[0]| > 0
    ensures |Join(xs, sep)| > 0 && Join(xs, sep)[0] == xs[0][0]
  {
  }

  /** A bare item followed by a space and more settings. */
  lemma ParseBareThen(k: string, sp: string, v: string, rest: string)
    requires SimpleKey(k) && AllSpaces(sp) && BareValue(v) && |rest| > 0 && !IsSpace(rest[0])
    ensures Parse(k + "=" + sp + v + ([' '] + rest)) == Prepend((k, v), Parse(rest))
  {
    ParseBareStep(k, sp, v, [' '] + rest);
    ParseSkipsLeadingSpace([' '], rest);
  }

  /** One bare item followed by a space and more settings. */
  lemma ParseItemThen(p: (string, string), rest: string)
    requires SimpleKey(p.0) && BareValue(p.1) && |rest| > 0 && !IsSpace(rest[0])
    ensures Parse(BareItem(p) + ([' '] + rest)) == Prepend(p, Parse(rest))
  {
    BareItemText(p, [' '] + rest);
    ParseBareThen(p.0, "", p.1, rest);
  }

  lemma BareItemText(p: (string, string), x: string)
    ensures BareItem(p) + x == p.0 + "=" + "" + p.1 + x
  {
  }

  lemma JoinUncons(items: seq<string>, sep: char)
    requires |items| >= 2
    ensures Join(items, sep) == items[0] + ([sep] + Join(items[1..], sep))
  {
  }

  /** Bare-safe settings in front of other text are read one by one, then
      the text. */
  lemma {:induction false} ParseBarePrefix(a: seq<(string, string)>, tail: seq<string>)
    requires forall i :: 0 <= i < |a| ==> SimpleKey(a[i].0) && BareValue(a[i].1)
    requires |tail| >= 1 && |tail[0]| > 0 && !IsSpace(tail[0][0])
    ensures Parse(Join(BareItems(a) + tail, ' ')) == PrependAll(a, Parse(Join(tail, ' ')))
    decreases |a|
  {
    var items := BareItems(a) + tail;
    if |a| == 0 {
      assert items == tail;
      var after := Parse(Join(tail, ' '));
      assert after.Some? ==> [] + after.value == after.value;
    } else {
      assert items[1..] == BareItems(a[1..]) + tail;
      ParseBarePrefix(a[1..], tail);
      if |a| > 1 {
        assert items[1..][0] == BareItem(a[1]);
        JoinHead(items[1..], ' ');
      } else {
        JoinHead(tail, ' ');
      }
      var rest := Join(items[1..], ' ');
      JoinUncons(items, ' ');
      assert items[0] == BareItem(a[0]);
      PrefixStep(a, rest, Parse(Join(tail, ' ')));
    }
  }

  lemma PrefixStep(a: seq<(string, string)>, rest: string, after: Option<seq<(string, string)>>)
    requires |a| >= 1 && SimpleKey(a[0].0) && BareValue(a[0].1)
    requires |rest| > 0 && !IsSpace(rest[0])
    requires Parse(rest) == PrependAll(a[1..], after)
    ensures Parse(BareItem(a[0]) + ([' '] + rest)) == PrependAll(a, after)
  {
    ParseItemThen(a[0], rest);
    PrependAllCons(a, after);
  }

  lemma PrependAllCons(a: seq<(string, string)>, after: Option<seq<(string, string)>>)
    requires |a| >= 1
    ensures Prepend(a[0], PrependAll(a[1..], after)) == PrependAll(a, after)
  {
    if after.Some? {
      assert [a[0]] + (a[1..] + after.value) == a + after.value;
    }
  }

  lemma SwallowLayout(k: string, v: string, items: seq<string>)
    requires |items| >= 2 && items[0] == k + "=" && items[1] == v
    ensures |items| == 2 ==> Join(items, ' ') == k + "=" + " " + v + ""
    ensures |items| > 2 ==> Join(items, ' ') == k + "=" + " " + v + ([' '] + Join(items[2..], ' '))
  {
    JoinUncons(items, ' ');
    if |items| > 2 {
      JoinUncons(items[1..], ' ');
      assert items[1..][1..] == items[2..];
    }
  }

  /** A setting written with an empty bare value swallows the next item:
      the reader skips the separating space and takes the whole next
      `keyword=value` as the value, so the next keyword is lost. */
  lemma EmptyValueSwallowsNext(ps: seq<(string, string)>, i: nat)
    requires i + 1 < |ps|
    requires forall j :: 0 <= j < |ps| ==> SimpleKey(ps[j].0)
    requires forall j :: 0 <= j < |ps| && j != i && j != i + 1 ==> BareValue(ps[j].1)
    requires ps[i].1 == "" && BareValue(BareItem(ps[i + 1]))
    ensures Parse(Join(BareItems(ps), ' ')) ==
              Some(ps[..i] + [(ps[i].0, BareItem(ps[i + 1]))] + ps[i + 2..])
  {
    var items := BareItems(ps);
    var k := ps[i].0;
    var v := BareItem(ps[i + 1]);
    var later := ps[i + 2..];
    var t := Join(items[i..], ' ');
    SwallowTail(ps, i);
    assert items == BareItems(ps[..i]) + items[i..];
    ParseBarePrefix(ps[..i], items[i..]);
    assert ps[..i] + ([(k, v)] + later) == ps[..i] + [(k, v)] + later;
  }

  lemma SwallowTail(ps: seq<(string, string)>, i: nat)
    requires i + 1 < |ps|
    requires forall j :: 0 <= j < |ps| ==> SimpleKey(ps[j].0)
    requires forall j :: i + 1 < j < |ps| ==> BareValue(ps[j].1)
    requires ps[i].1 == "" && BareValue(BareItem(ps[i + 1]))
    ensures |BareItems(ps)[i..][0]| > 0 && !IsSpace(BareItems(ps)[i..][0][0])
    ensures Parse(Join(BareItems(ps)[i..], ' ')) == Some([(ps[i].0, BareItem(ps[i + 1]))] + ps[i + 2..])
  {
    var items := BareItems(ps)[i..];
    var k := ps[i].0;
    var v := BareItem(ps[i + 1]);
    var later := ps[i + 2..];
    assert items[0] == k + "=" + "";
    assert items[1] == v;
    SwallowLayout(k, v, items);
    if i + 2 < |ps| {
      assert items[2..] == BareItems(later);
      BareRoundTrip(later);
      assert items[2..][0] == BareItem(ps[i + 2]);
      JoinHead(items[2..], ' ');
      ParseBareThen(k, " ", v, Join(items[2..], ' '));
    } else {
      assert later == [];
      ParseBareStep(k, " ", v, "");
      assert Parse("") == Some([]);
      assert [(k, v)] + later == [(k, v)] + [];
    }
  }

  /** With distinct keywords, each keyword looks up its own value. */
  lemma {:induction false} LookupDistinct(ps: seq<(string, string)>, i: int)
    requires 0 <= i < |ps|
    requires forall j, l :: 0 <= j < l < |ps| ==> ps[j].0 != ps[l].0
    ensures Lookup(ps, ps[i].0) == Some(ps[i].1)
  {
    if i > 0 {
      LookupDistinct(ps[1..], i - 1);
    } else {
      LookupAbsent(ps[1..], ps[0].0);
    }
  }

  /** A keyword that is not written has no value. */
  lemma {:induction false} LookupAbsent(ps: seq<(string, string)>, key: string)
    requires forall j :: 0 <= j < |ps| ==> ps[j].0 != key
    ensures Lookup(ps, key).None?
  {
    if |ps| > 0 {
      LookupAbsent(ps[1..], key);
    }
  }
}

=== FILE: copy.dfy ===
/** Directory copying (internal/fileutils/copy.go): the per-entry decisions
    of the walk that copies a source tree into a destination directory. */
module FileUtils {
  import opened Base
  import opened Text

  /** What the walk reports an entry as. */
  datatype Kind = Directory | RegularFile | Symlink | Irregular

  /** One visit of the walk callback, in walk order: the slash-separated
      path relative to the walked root, its kind, the error the walker
      passes in (reading a directory can fail), and a regular file's data. */
  datatype WalkEntry = WalkEntry(path: string, kind: Kind, walkErr: Option<Error>, data: Bytes)

  /** What reading a source file and writing its copy can report: opening
      and stat-ing the source, creating a directory or file in the
      destination, copying the bytes, closing the copy.  Opening, stat-ing
      and copying are keyed by the source path; creating and closing by the
      destination path.  These are the failures the destination tree alone
      does not decide (permissions, a read-only or full file system, no
      free descriptors); the contents themselves are not interpreted. */
  datatype FileIO = FileIO(
    open: string -> Option<Error>,
    stat: string -> Option<Error>,
    mkdir: string -> Option<Error>,
    create: string -> Option<Error>,
    copy: string -> Option<Error>,
    close: string -> Option<Error>)

  /** The destination tree: each created path is a directory or a file. */
  datatype Node = DirNode | FileNode(data: Bytes)

  type Tree = map<string, Node>

  /** `shouldSkip`: some skip string is a plain string prefix of the path. */
  function ShouldSkip(path: string, skip: seq<string>): (b: bool)
    ensures b <==> exists i :: 0 <= i < |skip| && HasPrefix(path, skip[i])
  {
    if |skip| == 0 then false
    else if HasPrefix(path, skip[0]) then true
    else
      var rest := ShouldSkip(path, skip[1..]);
      assert forall i :: 1 <= i < |skip| ==> skip[i] == skip[1..][i - 1];
      rest
  }

  /** The test is on characters, not on path elements: a skip entry
      `vendor` also skips `vendored/file`. */
  lemma SkipIsNotComponentAware()
    ensures ShouldSkip("vendored/file", ["vendor"])
  {
    assert HasPrefix("vendored/file", "vendor");
  }

  /** A skip entry ending in a slash does not match the directory itself,
      only what is below it. */
  lemma TrailingSlashSparesDirectory()
    ensures !ShouldSkip("to-be-ignored", ["to-be-ignored/"])
    ensures ShouldSkip("to-be-ignored/ignore.txt", ["to-be-ignored/"])
  {
    assert HasPrefix("to-be-ignored/ignore.txt", "to-be-ignored/");
  }

  /** `filepath.Localize` on a Unix system: a path that is not a valid
      `io/fs` path (an empty, `.` or `..` element, a leading or trailing
      slash) or that holds a NUL byte is refused; any other path is already
      local. */
  function Localize(path: string): (r: Result<string>)
    ensures r.Ok? <==> ValidPath(path) && '\0' !in path
    ensures r.Err? ==> r.error == Cause("invalid path")
    ensures r.Ok? ==> r.value == path
  {
    if !ValidPath(path) || '\0' in path then Err(Cause("invalid path")) else Ok(path)
  }

  /** `filepath.Join(dir, p)` for a clean `dir` and a clean relative `p`. */
  function JoinPath(dir: string, p: string): string {
    if p == "." then dir else dir + "/" + p
  }

  /** `os.MkdirAll`: fine when a directory is already there, `ENOTDIR` when
      a file is in the way, and otherwise whatever creating the directory
      reports. */
  function MkdirAll(io: FileIO, t: Tree, p: string): (r: (Tree, Option<Error>))
    ensures r.1.Some? <==> (p in t && t[p].FileNode?) || (p !in t && io.mkdir(p).Some?)
    ensures p in t && t[p].FileNode? ==> r.1 == Some(PathError("mkdir", p, Cause("not a directory")))
    ensures p !in t && io.mkdir(p).Some? ==> r.1 == io.mkdir(p)
    ensures r.1.None? ==> r.0 == t[p := DirNode]
    ensures r.1.Some? ==> r.0 == t
  {
    if p in t && t[p].FileNode? then (t, Some(PathError("mkdir", p, Cause("not a directory"))))
    else if p in t then (t, None)
    else if io.mkdir(p).Some? then (t, io.mkdir(p))
    else (t[p := DirNode], None)
  }

  /** The result of handling one entry: the tree afterwards, and the error
      that stops the walk. */
  datatype Step = Step(tree: Tree, err: Option<Error>)

  /** The walk callback for one entry. */
  function Visit(dir: string, e: WalkEntry, skip: seq<string>, io: FileIO, t: Tree): (s: Step)
    ensures e.walkErr.Some? ==> s == Step(t, e.walkErr)
    ensures e.walkErr.None? && ShouldSkip(e.path, skip) ==> s == Step(t, None)
    ensures e.walkErr.None? && !ShouldSkip(e.path, skip) && !(ValidPath(e.path) && '\0' !in e.path) ==>
              s == Step(t, Some(Cause("invalid path")))
    ensures e.walkErr.None? && !ShouldSkip(e.path, skip) && ValidPath(e.path) && '\0' !in e.path ==>
              var target := JoinPath(dir, e.path);
              && (e.kind.Directory? ==> s == Step(MkdirAll(io, t, target).0, MkdirAll(io, t, target).1))
              && (e.kind.Symlink? || e.kind.Irregular? ==> s == Step(t, None))
              && (e.kind.RegularFile? && target in t ==> s.err.Some? && s.tree == t)
  {
    if e.walkErr.Some? then Step(t, e.walkErr)
    else if ShouldSkip(e.path, skip) then Step(t, None)
    else
      match Localize(e.path)
      case Err(err) => Step(t, Some(err))
      case Ok(local) =>
        var target := JoinPath(dir, local);
        match e.kind
        case Directory =>
          var (t', err) := MkdirAll(io, t, target);
          Step(t', err)
        case Symlink => Step(t, None)
        case Irregular => Step(t, None)
        case RegularFile => CopyRegular(e, target, io, t)
  }

  /** A regular file: open and stat the source, create the copy exclusively
      (an existing path is an error), copy, close. */
  function CopyRegular(e: WalkEntry, target: string, io: FileIO, t: Tree): (s: Step)
    ensures s.err.None? <==>
              && io.open(e.path).None? && io.stat(e.path).None? && target !in t
              && io.create(target).None? && io.copy(e.path).None? && io.close(target).None?
    ensures s.err.None? ==> s.tree == t[target := FileNode(e.data)]
    ensures target in t ==> s.err.Some? && s.tree == t
    ensures io.open(e.path).None? && io.stat(e.path).None? && target !in t && io.create(target).Some? ==>
              s == Step(t, io.create(target))
  {
    if io.open(e.path).Some? then Step(t, io.open(e.path))
    else if io.stat(e.path).Some? then Step(t, io.stat(e.path))
    else if target in t then Step(t, Some(PathError("open", target, Exist)))
    else if io.create(target).Some? then Step(t, io.create(target))
    else if io.copy(e.path).Some? then
      Step(t[target := FileNode([])],
           Some(Wrapped("unable to copy content from " + e.path + " to new path " + target, io.copy(e.path).value)))
    else if io.close(target).Some? then Step(t[target := FileNode(e.data)], io.close(target))
    else Step(t[target := FileNode(e.data)], None)
  }

  /** `copyFS`: the callback over the walk, in order, stopping at and
      returning the first error. */
  function CopyFS(dir: string, walk: seq<WalkEntry>, skip: seq<string>, io: FileIO, t: Tree): (s: Step)
    ensures |walk| == 0 ==> s == Step(t, None)
  {
    if |walk| == 0 then Step(t, None)
    else
      var first := Visit(dir, walk[0], skip, io, t);
      if first.err.Some? then first
      else CopyFS(dir, walk[1..], skip, io, first.tree)
  }

  /** `fs.ValidPath`: `.` or non-empty slash-separated elements, none of
      them `.` or `..`. */
  predicate ValidPath(name: string) {
    name == "." || forall e :: e in Split(name, '/') ==> e != "" && e != "." && e != ".."
  }

  /** `CopyDirectory`: the source sub-directory must be a valid path (else
      `fs.Sub` fails before anything is copied), then its walk is copied
      into `dstDir`.  `subWalk` is the walk of that sub-directory. */
  function CopyDirectory(srcDir: string, subWalk: seq<WalkEntry>, dstDir: string, skip: seq<string>,
                         io: FileIO, t: Tree): (s: Step)
    ensures !ValidPath(srcDir) ==> s == Step(t, Some(PathError("sub", srcDir, Invalid)))
    ensures ValidPath(srcDir) ==> s == CopyFS(dstDir, subWalk, skip, io, t)
  {
    if !ValidPath(srcDir) then Step(t, Some(PathError("sub", srcDir, Invalid)))
    else CopyFS(dstDir, subWalk, skip, io, t)
  }

  // ---- Copying a single file ----

  /** `p` up to and including its last slash, or empty when it has none. */
  function DirPrefix(p: string): (pre: string)
    ensures |pre| <= |p| && pre == p[..|pre|]
    ensures '/' !in p[|pre|..]
    ensures |pre| > 0 ==> pre[|pre| - 1] == '/'
  {
    if |p| == 0 then ""
    else if p[|p| - 1] == '/' then p
    else
      var pre := DirPrefix(p[..|p| - 1]);
      assert p[|pre|..] == p[..|p| - 1][|pre|..] + [p[|p| - 1]];
      pre
  }

  /** `path.Dir` of a clean path: everything before the last slash, `.`
      without a slash, `/` for a top-level name. */
  function PathDir(p: string): (d: string)
    ensures '/' !in p ==> d == "."
  {
    var pre := DirPrefix(p);
    if pre == "" then
      assert p[0..] == p;
      "."
    else if pre == "/" then "/"
    else pre[..|pre| - 1]
  }

  /** `CopyFile`: open the source, create the destination's directory,
      create (or truncate) the destination, copy, close.  `data` is the
      source file's contents. */
  function CopyFile(srcRelPath: string, data: Bytes, dstPath: string, io: FileIO, t: Tree): (s: Step)
    ensures io.open(srcRelPath).Some? ==> s == Step(t, io.open(srcRelPath))
    ensures s.err.None? ==> io.open(srcRelPath).None? && io.create(dstPath).None? && io.copy(srcRelPath).None?
    ensures s.err.None? ==>
              && dstPath in s.tree && s.tree[dstPath] == FileNode(data)
              && PathDir(dstPath) in s.tree && s.tree[PathDir(dstPath)] == DirNode
    ensures forall p :: p != dstPath && p != PathDir(dstPath) ==>
              (p in s.tree <==> p in t) && (p in t ==> s.tree[p] == t[p])
  {
    if io.open(srcRelPath).Some? then Step(t, io.open(srcRelPath))
    else
      var (t1, mkErr) := MkdirAll(io, t, PathDir(dstPath));
      if mkErr.Some? then Step(t1, mkErr)
      else if dstPath in t1 && t1[dstPath].DirNode? then
        Step(t1, Some(PathError("open", dstPath, Cause("is a directory"))))
      else if io.create(dstPath).Some? then Step(t1, io.create(dstPath))
      else if io.copy(srcRelPath).Some? then Step(t1[dstPath := FileNode([])], io.copy(srcRelPath))
      else Step(t1[dstPath := FileNode(data)], io.close(dstPath))
  }

  /** Unlike the walk, `CopyFile` does not refuse a file already at the
      destination: the copy fails exactly when one of its steps reports an
      error, and otherwise the old contents are gone. */
  lemma CopyFileReplacesExisting(srcRelPath: string, data: Bytes, dstPath: string, io: FileIO, t: Tree)
    requires dstPath in t && t[dstPath].FileNode?
    requires PathDir(dstPath) !in t || t[PathDir(dstPath)].DirNode?
    requires PathDir(dstPath) != dstPath
    ensures var s := CopyFile(srcRelPath, data, dstPath, io, t);
      s.err.None? <==>
        && io.open(srcRelPath).None?
        && (PathDir(dstPath) in t || io.mkdir(PathDir(dstPath)).None?)
        && io.create(dstPath).None? && io.copy(srcRelPath).None? && io.close(dstPath).None?
    ensures CopyFile(srcRelPath, data, dstPath, io, t).err.None? ==>
              CopyFile(srcRelPath, data, dstPath, io, t).tree[dstPath] == FileNode(data)
  {
  }

  /** A copy into a file name whose directory is a file fails and leaves the
      tree as it was. */
  lemma CopyFileBlockedByFile(srcRelPath: string, data: Bytes, dstPath: string, io: FileIO, t: Tree)
    requires io.open(srcRelPath).None?
    requires PathDir(dstPath) in t && t[PathDir(dstPath)].FileNode?
    ensures CopyFile(srcRelPath, data, dstPath, io, t) ==
            Step(t, Some(PathError("mkdir", PathDir(dstPath), Cause("not a directory"))))
  {
  }

  /** `path.Dir` on a nested, a top-level and a slash-free name. */
  lemma PathDirExamples()
    ensures PathDir("a/b/c.txt") == "a/b"
    ensures PathDir("/c.txt") == "/"
    ensures PathDir("c.txt") == "."
  {
  }

  // ---- Properties of the walk ----

  /** The walk stops at the first error: an error in a prefix of the walk
      is the result of the whole walk, whatever follows. */
  lemma {:induction false} FirstErrorStops(dir: string, w1: seq<WalkEntry>, w2: seq<WalkEntry>,
                                           skip: seq<string>, io: FileIO, t: Tree)
    requires CopyFS(dir, w1, skip, io, t).err.Some?
    ensures CopyFS(dir, w1 + w2, skip, io, t) == CopyFS(dir, w1, skip, io, t)
  {
    assert (w1 + w2)[0] == w1[0];
    var first := Visit(dir, w1[0], skip, io, t);
    if first.err.None? {
      assert (w1 + w2)[1..] == w1[1..] + w2;
      FirstErrorStops(dir, w1[1..], w2, skip, io, first.tree);
    }
  }

  /** Without an error the walk runs on: a walk that succeeds on a prefix
      continues from the tree that prefix left. */
  lemma {:induction false} SuccessContinues(dir: string, w1: seq<WalkEntry>, w2: seq<WalkEntry>,
                                            skip: seq<string>, io: FileIO, t: Tree)
    requires CopyFS(dir, w1, skip, io, t).err.None?
    ensures CopyFS(dir, w1 + w2, skip, io, t) == CopyFS(dir, w2, skip, io, CopyFS(dir, w1, skip, io, t).tree)
  {
    if |w1| == 0 {
      assert w1 + w2 == w2;
    } else {
      assert (w1 + w2)[0] == w1[0];
      assert (w1 + w2)[1..] == w1[1..] + w2;
      var first := Visit(dir, w1[0], skip, io, t);
      SuccessContinues(dir, w1[1..], w2, skip, io, first.tree);
    }
  }

  /** A successful step never replaces a file that is already there. */
  lemma VisitKeepsFiles(dir: string, e: WalkEntry, skip: seq<string>, io: FileIO, t: Tree, p: string)
    requires p in t && t[p].FileNode?
    requires Visit(dir, e, skip, io, t).err.None?
    ensures p in Visit(dir, e, skip, io, t).tree && Visit(dir, e, skip, io, t).tree[p] == t[p]
  {
  }

  /** A successful step adds at most its own target and changes nothing
      else. */
  lemma VisitTouchesOnlyTarget(dir: string, e: WalkEntry, skip: seq<string>, io: FileIO, t: Tree, p: string)
    requires Visit(dir, e, skip, io, t).err.None?
    requires p != JoinPath(dir, e.path)
    ensures p in Visit(dir, e, skip, io, t).tree <==> p in t
    ensures p in t ==> Visit(dir, e, skip, io, t).tree[p] == t[p]
  {
  }

  /** Files already in the destination survive a successful copy as they
      were: no entry overwrites one. */
  lemma {:induction false} CopyKeepsFiles(dir: string, walk: seq<WalkEntry>, skip: seq<string>, io: FileIO, t: Tree, p: string)
    requires p in t && t[p].FileNode?
    requires CopyFS(dir, walk, skip, io, t).err.None?
    ensures p in CopyFS(dir, walk, skip, io, t).tree && CopyFS(dir, walk, skip, io, t).tree[p] == t[p]
  {
    if |walk| > 0 {
      var first := Visit(dir, walk[0], skip, io, t);
      VisitKeepsFiles(dir, walk[0], skip, io, t, p);
      CopyKeepsFiles(dir, walk[1..], skip, io, first.tree, p);
    }
  }

  /** The entries a copy writes: those not skipped that are directories or
      regular files. */
  predicate Copied(e: WalkEntry, skip: seq<string>) {
    !ShouldSkip(e.path, skip) && (e.kind.Directory? || e.kind.RegularFile?)
  }

  /** After a successful copy every regular file that was not skipped is
      at its place in the destination with the source's data. */
  lemma {:induction false} CopiedFilesArrive(dir: string, walk: seq<WalkEntry>, skip: seq<string>, io: FileIO, t: Tree)
    requires CopyFS(dir, walk, skip, io, t).err.None?
    ensures forall i :: 0 <= i < |walk| && walk[i].kind.RegularFile? && !ShouldSkip(walk[i].path, skip) ==>
              var out := CopyFS(dir, walk, skip, io, t).tree;
              JoinPath(dir, walk[i].path) in out && out[JoinPath(dir, walk[i].path)] == FileNode(walk[i].data)
  {
    if |walk| > 0 {
      var first := Visit(dir, walk[0], skip, io, t);
      var out := CopyFS(dir, walk, skip, io, t).tree;
      CopiedFilesArrive(dir, walk[1..], skip, io, first.tree);
      forall i | 0 <= i < |walk| && walk[i].kind.RegularFile? && !ShouldSkip(walk[i].path, skip)
        ensures JoinPath(dir, walk[i].path) in out && out[JoinPath(dir, walk[i].path)] == FileNode(walk[i].data)
      {
        if i == 0 {
          CopyKeepsFiles(dir, walk[1..], skip, io, first.tree, JoinPath(dir, walk[0].path));
        } else {
          assert walk[i] == walk[1..][i - 1];
        }
      }
    }
  }

  /** A successful copy creates nothing but the targets of the entries it
      copies: skipped paths, links and irregular files leave no trace. */
  lemma {:induction false} OnlyCopiedEntriesAppear(dir: string, walk: seq<WalkEntry>, skip: seq<string>, io: FileIO,
                                                   t: Tree, p: string)
    requires CopyFS(dir, walk, skip, io, t).err.None?
    requires p !in t
    requires forall i :: 0 <= i < |walk| && Copied(walk[i], skip) ==> JoinPath(dir, walk[i].path) != p
    ensures p !in CopyFS(dir, walk, skip, io, t).tree
  {
    if |walk| > 0 {
      var first := Visit(dir, walk[0], skip, io, t);
      if Copied(walk[0], skip) {
        VisitTouchesOnlyTarget(dir, walk[0], skip, io, t, p);
      }
      assert p !in first.tree;
      forall i | 0 <= i < |walk[1..]| && Copied(walk[1..][i], skip)
        ensures JoinPath(dir, walk[1..][i].path) != p
      {
        assert walk[1..][i] == walk[i + 1];
      }
      OnlyCopiedEntriesAppear(dir, walk[1..], skip, io, first.tree, p);
    }
  }

  /** An existing file at a regular file's target stops the copy with an
      error, because the copy is created exclusively. */
  lemma ExistingTargetFails(dir: string, e: WalkEntry, skip: seq<string>, io: FileIO, t: Tree)
    requires e.kind.RegularFile? && e.walkErr.None? && !ShouldSkip(e.path, skip)
    requires JoinPath(dir, e.path) in t
    ensures CopyFS(dir, [e], skip, io, t).err.Some?
    ensures CopyFS(dir, [e], skip, io, t).tree == t
  {
  }

  /** A source directory that is not a valid path fails before anything is
      written, like `/path/does/not/exist`. */
  lemma AbsoluteSourceRejected(subWalk: seq<WalkEntry>, dstDir: string, skip: seq<string>, io: FileIO, t: Tree)
    ensures CopyDirectory("/path/does/not/exist", subWalk, dstDir, skip, io, t) ==
            Step(t, Some(PathError("sub", "/path/does/not/exist", Invalid)))
  {
    LeadingSlashInvalid("/path/does/not/exist");
  }

  /** An absolute path is never valid: its first element is empty. */
  lemma LeadingSlashInvalid(name: string)
    requires |name| > 0 && name[0] == '/'
    ensures !ValidPath(name)
  {
    assert Split(name, '/') == [""] + Split(name[1..], '/');
    assert "" in Split(name, '/');
  }

  /** A path whose first element is `..` is never valid. */
  lemma ParentFirstInvalid(name: string)
    requires |name| >= 3 && name[0] == '.' && name[1] == '.' && name[2] == '/'
    ensures !ValidPath(name)
  {
    assert name[1..][1..] == name[2..] && name[2..][1..] == name[3..];
    assert Split(name[2..], '/')[0] == "";
    assert Split(name[1..], '/')[0] == ".";
    assert Split(name, '/')[0] == "..";
    assert ".." in Split(name, '/');
    assert name != ".";
  }

  /** An entry that would climb out of the destination stops the copy
      with the invalid-path error before anything is written. */
  lemma EscapingEntryRejected(dir: string, e: WalkEntry, skip: seq<string>, io: FileIO, t: Tree)
    requires e.walkErr.None? && !ShouldSkip(e.path, skip)
    requires |e.path| >= 3 && e.path[..3] == "../"
    ensures CopyFS(dir, [e], skip, io, t) == Step(t, Some(Cause("invalid path")))
  {
    ParentFirstInvalid(e.path);
  }
}

=== FILE: doc.dfy ===
/** The CLI's Markdown reference (internal/doc/doc.go): a header, the
    root's global flags, then one section per visible command below the
    root, depth-first in listing order. */
module Doc {
  import opened Base
  import opened Text
  import opened Cobra
  import Registry

  /** The library's `UseLine()` for a command, given its ancestors from the
      root down: it is not reimplemented here. */
  type UseLine = (seq<Command>, Command) -> string

  function Indent(level: nat): string {
    Repeat("  ", level)
  }

  const TableHead := "| Flag | Short | Type | Description |\n"
  const TableRule := "|------|-------|------|-------------|\n"

  function ShortCell(f: Flag): string {
    if f.shorthand != "" then "-" + f.shorthand else ""
  }

  function FlagRow(indent: string, f: Flag): string {
    indent + "| --" + f.name + " | " + ShortCell(f) + " | " + f.typeName + " | " + f.usage + " |\n"
  }

  function FlagRows(indent: string, fs: seq<Flag>): string {
    if |fs| == 0 then "" else FlagRow(indent, fs[0]) + FlagRows(indent, fs[1..])
  }

  /** Title, version, description and the usage block. */
  function Header(root: Command): string {
    Title(root) + HeaderBody(root)
  }

  function Title(root: Command): string {
    "# " + Name(root) + " CLI Documentation\n\n"
  }

  function HeaderBody(root: Command): string {
    "**Version:** " + root.version + "\n\n"
    + "**Description:** " + root.short + "\n\n"
    + "## Usage\n\n"
    + "```bash\n" + Name(root) + " [command] [flags] [arguments]\n```\n\n"
  }

  /** The root's persistent flags as a table, or nothing without any. */
  function GlobalFlags(root: Command): string {
    if |root.persistentFlags| > 0 then
      "## Global Flags\n\n" + TableHead + TableRule + FlagRows("", VisitOrder(root.persistentFlags)) + "\n"
    else ""
  }

  /** The section of one command `level` deep below the root: heading,
      short and long descriptions, usage block, flags table. */
  function Section(c: Command, level: nat, useLine: string): string {
    var ind := Indent(level);
    ind + "### " + Name(c) + "\n\n"
    + DescriptionPart(ind, c) + LongPart(ind, c)
    + UsagePart(ind, useLine)
    + FlagsPart(ind, c)
    + "\n"
  }

  function DescriptionPart(ind: string, c: Command): string {
    if c.short != "" then ind + "**Description:** " + c.short + "\n\n" else ""
  }

  function LongPart(ind: string, c: Command): string {
    if c.long != "" && c.long != c.short then ind + c.long + "\n\n" else ""
  }

  function UsagePart(ind: string, useLine: string): string {
    ind + "**Usage:**\n" + ind + "```bash\n" + ind + useLine + "\n" + ind + "```\n\n"
  }

  function FlagsPart(ind: string, c: Command): string {
    if |c.flags| > 0 then
      ind + "**Flags:**\n\n" + ind + TableHead + ind + TableRule + FlagRows(ind, VisitOrder(c.flags)) + "\n"
    else ""
  }

  /** `writeCommandsToDocs`: the command's own section unless it is the
      root, then each listed subcommand that is not hidden, one level
      deeper, with its whole subtree. */
  function WriteCommands(ancestors: seq<Command>, c: Command, level: nat, isRoot: bool, useLine: UseLine): string
    decreases c, 1
  {
    (if isRoot then "" else Section(c, level, useLine(ancestors, c)))
    + WriteChildren(ancestors + [c], c, Commands(c), level + 1, useLine)
  }

  function WriteChildren(ancestors: seq<Command>, parent: Command, cs: seq<Command>, level: nat, useLine: UseLine): string
    requires forall x :: x in cs ==> x in parent.children
    decreases parent, 0, |cs|
  {
    if |cs| == 0 then ""
    else
      assert cs[0] in parent.children;
      (if cs[0].hidden then "" else WriteCommands(ancestors, cs[0], level, false, useLine))
      + WriteChildren(ancestors, parent, cs[1..], level, useLine)
  }

  /** `GenerateMarkdown`: the document, and an error that is always nil. */
  function GenerateMarkdown(root: Command, useLine: UseLine): (out: (string, Option<Error>))
    ensures out.1 == None
    ensures HasPrefix(out.0, "# " + Name(root) + " CLI Documentation\n\n")
  {
    var doc := Header(root) + GlobalFlags(root) + "## Commands\n\n" + WriteCommands([], root, 0, true, useLine);
    PrefixConcat(Title(root), HeaderBody(root));
    PrefixExtends(Header(root), GlobalFlags(root), Title(root));
    PrefixExtends(Header(root) + GlobalFlags(root), "## Commands\n\n", Title(root));
    PrefixExtends(Header(root) + GlobalFlags(root) + "## Commands\n\n", WriteCommands([], root, 0, true, useLine), Title(root));
    (doc, None)
  }

  lemma PrefixConcat(a: string, b: string)
    ensures HasPrefix(a + b, a)
  {
    assert (a + b)[..|a|] == a;
  }

  lemma PrefixExtends(x: string, y: string, a: string)
    requires HasPrefix(x, a)
    ensures HasPrefix(x + y, a)
  {
    assert (x + y)[..|a|] == x[..|a|];
  }

  // ---- The reference: which sections appear, in which order ----

  /** One section of the document: the command, its ancestors from the
      root down, and its depth. */
  datatype Listed = Listed(ancestors: seq<Command>, cmd: Command, level: nat)

  /** The visible descendants of `c`, depth-first in listing order: a
      hidden subcommand is left out together with everything below it. */
  function Visible(ancestors: seq<Command>, c: Command, level: nat): seq<Listed>
    decreases c, 1
  {
    VisibleChildren(ancestors + [c], c, Commands(c), level + 1)
  }

  function VisibleChildren(ancestors: seq<Command>, parent: Command, cs: seq<Command>, level: nat): seq<Listed>
    requires forall x :: x in cs ==> x in parent.children
    decreases parent, 0, |cs|
  {
    if |cs| == 0 then []
    else
      assert cs[0] in parent.children;
      (if cs[0].hidden then [] else [Listed(ancestors, cs[0], level)] + Visible(ancestors, cs[0], level))
      + VisibleChildren(ancestors, parent, cs[1..], level)
  }

  /** The sections of the listed commands, in order. */
  function Sections(es: seq<Listed>, useLine: UseLine): (ss: seq<string>)
    ensures |ss| == |es|
  {
    seq(|es|, i requires 0 <= i < |es| => Section(es[i].cmd, es[i].level, useLine(es[i].ancestors, es[i].cmd)))
  }

  function RenderAll(es: seq<Listed>, useLine: UseLine): string {
    Flatten(Sections(es, useLine))
  }

  lemma RenderAllAppend(a: seq<Listed>, b: seq<Listed>, useLine: UseLine)
    ensures RenderAll(a + b, useLine) == RenderAll(a, useLine) + RenderAll(b, useLine)
  {
    assert Sections(a + b, useLine) == Sections(a, useLine) + Sections(b, useLine);
    FlattenAppend(Sections(a, useLine), Sections(b, useLine));
  }

  lemma RenderOne(e: Listed, useLine: UseLine)
    ensures RenderAll([e], useLine) == Section(e.cmd, e.level, useLine(e.ancestors, e.cmd))
  {
    var x := Section(e.cmd, e.level, useLine(e.ancestors, e.cmd));
    assert Sections([e], useLine) == [x];
    assert [x][1..] == [];
    assert Flatten([x]) == x + Flatten([]);
  }

  /** Below the root, the document is exactly the sections of the visible
      descendants, in order. */
  lemma {:induction false} WriteIsVisibleSections(ancestors: seq<Command>, c: Command, level: nat, useLine: UseLine)
    ensures WriteCommands(ancestors, c, level, true, useLine) == RenderAll(Visible(ancestors, c, level), useLine)
    ensures WriteCommands(ancestors, c, level, false, useLine) ==
            RenderAll([Listed(ancestors, c, level)] + Visible(ancestors, c, level), useLine)
    decreases c, 1
  {
    ChildrenAreVisibleSections(ancestors + [c], c, Commands(c), level + 1, useLine);
    RenderAllAppend([Listed(ancestors, c, level)], Visible(ancestors, c, level), useLine);
    RenderOne(Listed(ancestors, c, level), useLine);
  }

  lemma {:induction false} ChildrenAreVisibleSections(ancestors: seq<Command>, parent: Command, cs: seq<Command>,
                                                      level: nat, useLine: UseLine)
    requires forall x :: x in cs ==> x in parent.children
    ensures WriteChildren(ancestors, parent, cs, level, useLine) ==
            RenderAll(VisibleChildren(ancestors, parent, cs, level), useLine)
    decreases parent, 0, |cs|
  {
    if |cs| > 0 {
      ChildrenAreVisibleSections(ancestors, parent, cs[1..], level, useLine);
      var first := if cs[0].hidden then [] else [Listed(ancestors, cs[0], level)] + Visible(ancestors, cs[0], level);
      RenderAllAppend(first, VisibleChildren(ancestors, parent, cs[1..], level), useLine);
      if !cs[0].hidden {
        assert cs[0] in parent.children;
        WriteIsVisibleSections(ancestors, cs[0], level, useLine);
      }
    }
  }

  /** The whole document: header, global flags, the commands heading, then
      the visible commands' sections. */
  lemma DocumentLayout(root: Command, useLine: UseLine)
    ensures GenerateMarkdown(root, useLine).0 ==
            Header(root) + GlobalFlags(root) + "## Commands\n\n" + RenderAll(Visible([], root, 0), useLine)
  {
    WriteIsVisibleSections([], root, 0, useLine);
  }

  /** Every listed section is for a visible command whose ancestors below
      the starting one are visible too, `level` deep below the root, and a
      subcommand of its parent. */
  lemma {:induction false} VisibleShape(ancestors: seq<Command>, c: Command, level: nat)
    requires level == |ancestors|
    ensures forall e :: e in Visible(ancestors, c, level) ==>
              && !e.cmd.hidden
              && e.level == |e.ancestors| >= level + 1
              && e.ancestors[..|ancestors| + 1] == ancestors + [c]
              && e.cmd in e.ancestors[|e.ancestors| - 1].children
              && forall k :: |ancestors| < k < |e.ancestors| ==> !e.ancestors[k].hidden
    decreases c, 1
  {
    ChildrenShape(ancestors + [c], c, Commands(c), level + 1);
  }

  lemma {:induction false} ChildrenShape(ancestors: seq<Command>, parent: Command, cs: seq<Command>, level: nat)
    requires forall x :: x in cs ==> x in parent.children
    requires level == |ancestors| && level >= 1 && ancestors[level - 1] == parent
    ensures forall e :: e in VisibleChildren(ancestors, parent, cs, level) ==>
              && !e.cmd.hidden
              && e.level == |e.ancestors| >= level
              && e.ancestors[..|ancestors|] == ancestors
              && e.cmd in e.ancestors[|e.ancestors| - 1].children
              && forall k :: |ancestors| <= k < |e.ancestors| ==> !e.ancestors[k].hidden
    decreases parent, 0, |cs|
  {
    if |cs| > 0 {
      ChildrenShape(ancestors, parent, cs[1..], level);
      if !cs[0].hidden {
        assert cs[0] in parent.children;
        SubtreeShape(ancestors, parent, cs[0], level);
      }
    }
  }

  /** The shape of one visible subcommand's own entry and its subtree. */
  lemma SubtreeShape(ancestors: seq<Command>, parent: Command, c: Command, level: nat)
    requires c in parent.children && !c.hidden
    requires level == |ancestors| && level >= 1 && ancestors[level - 1] == parent
    ensures forall e :: e in [Listed(ancestors, c, level)] + Visible(ancestors, c, level) ==>
              && !e.cmd.hidden
              && e.level == |e.ancestors| >= level
              && e.ancestors[..|ancestors|] == ancestors
              && e.cmd in e.ancestors[|e.ancestors| - 1].children
              && forall k :: |ancestors| <= k < |e.ancestors| ==> !e.ancestors[k].hidden
    decreases c, 2
  {
    VisibleShape(ancestors, c, level);
    var sub := Visible(ancestors, c, level);
    forall e | e in sub
      ensures e.ancestors[..|ancestors|] == ancestors
      ensures forall k :: |ancestors| <= k < |e.ancestors| ==> !e.ancestors[k].hidden
    {
      AncestorsBelow(ancestors, c, e.ancestors);
    }
  }

  /** Ancestors that extend `ancestors + [c]` extend `ancestors`, with `c`
      visible in the first position past it. */
  lemma AncestorsBelow(ancestors: seq<Command>, c: Command, path: seq<Command>)
    requires |path| >= |ancestors| + 1 && path[..|ancestors| + 1] == ancestors + [c] && !c.hidden
    requires forall k :: |ancestors| < k < |path| ==> !path[k].hidden
    ensures path[..|ancestors|] == ancestors
    ensures forall k :: |ancestors| <= k < |path| ==> !path[k].hidden
  {
    assert path[..|ancestors|] == (ancestors + [c])[..|ancestors|];
    assert path[|ancestors|] == (ancestors + [c])[|ancestors|];
  }

  /** Every visible subcommand of a command gets its own section. */
  lemma VisibleChildListed(ancestors: seq<Command>, c: Command, level: nat, x: Command)
    requires x in c.children && !x.hidden
    ensures Listed(ancestors + [c], x, level + 1) in Visible(ancestors, c, level)
  {
    assert x in multiset(Commands(c));
    ChildListed(ancestors + [c], c, Commands(c), level + 1, x);
  }

  lemma {:induction false} ChildListed(ancestors: seq<Command>, parent: Command, cs: seq<Command>, level: nat, x: Command)
    requires forall y :: y in cs ==> y in parent.children
    requires x in cs && !x.hidden
    ensures Listed(ancestors, x, level) in VisibleChildren(ancestors, parent, cs, level)
    decreases |cs|
  {
    if cs[0] != x {
      ChildListed(ancestors, parent, cs[1..], level, x);
    }
  }

  /** Each section opens with its heading, indented two spaces per level. */
  lemma SectionHeading(c: Command, level: nat, useLine: string)
    ensures HasPrefix(Section(c, level, useLine), Indent(level) + "### " + Name(c) + "\n\n")
  {
    var s := Section(c, level, useLine);
    var h := Indent(level) + "### " + Name(c) + "\n\n";
    assert s == h + s[|h|..];
  }

  /** The long description shows in a section exactly when it is
      non-empty and differs from the short one. */
  lemma LongShownExactly(c: Command, level: nat, useLine: string)
    ensures Section(c, level, useLine) != Section(c.(long := ""), level, useLine)
            <==> c.long != "" && c.long != c.short
  {
    var a := Section(c, level, useLine);
    var b := Section(c.(long := ""), level, useLine);
    var ind := Indent(level);
    assert LongPart(ind, c.(long := "")) == "";
    assert DescriptionPart(ind, c.(long := "")) == DescriptionPart(ind, c);
    assert FlagsPart(ind, c.(long := "")) == FlagsPart(ind, c);
    if c.long != "" && c.long != c.short {
      assert |a| == |b| + |LongPart(ind, c)|;
    }
  }

  /** A section has a flags table exactly when the command has flags. */
  lemma FlagsShownExactly(c: Command, level: nat, useLine: string)
    ensures Section(c, level, useLine) != Section(c.(flags := []), level, useLine)
            <==> |c.flags| > 0
  {
    var a := Section(c, level, useLine);
    var b := Section(c.(flags := []), level, useLine);
    var ind := Indent(level);
    assert FlagsPart(ind, c.(flags := [])) == "";
    assert DescriptionPart(ind, c.(flags := [])) == DescriptionPart(ind, c);
    assert LongPart(ind, c.(flags := [])) == LongPart(ind, c);
    if |c.flags| > 0 {
      assert |a| == |b| + |FlagsPart(ind, c)|;
    }
  }

  /** The global flags block, which the document places between the usage
      block and the commands heading, is a table headed `## Global Flags`
      when the root has persistent flags and is empty otherwise. */
  lemma GlobalFlagsShownExactly(root: Command)
    ensures GlobalFlags(root) == "" <==> |root.persistentFlags| == 0
    ensures |root.persistentFlags| > 0 ==> HasPrefix(GlobalFlags(root), "## Global Flags\n\n" + TableHead + TableRule)
  {
    if |root.persistentFlags| > 0 {
      var g := GlobalFlags(root);
      var h := "## Global Flags\n\n" + TableHead + TableRule;
      assert g == h + g[|h|..];
    }
  }

  /** A registry's root always documents the verbosity flag as its one
      global flag. */
  lemma RegistryDocumentsVerbosity(name: string, description: string, version: string)
    ensures GlobalFlags(Registry.NewCommandRegistry(name, description, version).root) ==
            "## Global Flags\n\n" + TableHead + TableRule + FlagRow("", Registry.VerboseFlag) + "\n"
    ensures ShortCell(Registry.VerboseFlag) == "-v"
  {
    var f := Registry.VerboseFlag;
    var root := Registry.NewCommandRegistry(name, description, version).root;
    assert root.persistentFlags == [f];
    assert [f][1..] == [];
    assert SortBy([f], FlagName) == InsertBy(f, SortBy([], FlagName), FlagName) == [f];
    assert FlagRows("", [f]) == FlagRow("", f) + FlagRows("", []);
    assert ShortCell(f) == "-v";
  }
}

=== FILE: factory.dfy ===
/** Storage construction (service/worker/storage/factory.go): the
    configuration record, `NewStorage`, and the connection string
    `NewStorageFromEnv` assembles from the process environment. */
module Factory {
  import opened Base
  import opened Text
  import opened ConnInfo
  import opened Postgres

  /** `Config`: the only setting is the connection string. */
  datatype Config = Config(connString: string)

  /** `NewStorage`: the PostgreSQL backend opened with the configured
      connection string, untouched; a failed open, ping or schema step
      comes back as that step's error. */
  function NewStorage(o: Opener, c: Config): (res: Result<Db>)
    ensures res.Ok? ==> o.open(c.connString).Ok? && res.value == o.open(c.connString).value
    ensures OpensAs(o, c.connString, res)
  {
    NewPostgresStorage(o, c.connString)
  }

  /** `getEnvOrDefault`: the variable's value unless it is unset or empty. */
  function GetEnvOrDefault(env: Env, key: string, default: string): (v: string)
    ensures key in env && env[key] != "" ==> v == env[key]
    ensures key !in env || env[key] == "" ==> v == default
  {
    var value := Getenv(env, key);
    if value != "" then value else default
  }

  /** An empty variable is read exactly like an unset one. */
  lemma EmptyCountsAsUnset(env: Env, key: string, default: string)
    ensures GetEnvOrDefault(env[key := ""], key, default) == GetEnvOrDefault(env - {key}, key, default)
  {
  }

  /** The six settings, in the order they are written: host, port, user,
      password, database name and SSL mode, each from its `POSTGRES_*`
      variable.  Every one but the password has a default. */
  function Settings(env: Env): (ps: seq<(string, string)>)
    ensures |ps| == 6
    ensures ps[0].0 == "host" && ps[1].0 == "port" && ps[2].0 == "user"
    ensures ps[3].0 == "password" && ps[4].0 == "dbname" && ps[5].0 == "sslmode"
    ensures ps[0].1 == GetEnvOrDefault(env, "POSTGRES_HOST", "localhost")
    ensures ps[1].1 == GetEnvOrDefault(env, "POSTGRES_PORT", "5432")
    ensures ps[2].1 == GetEnvOrDefault(env, "POSTGRES_USER", "postgres")
    ensures ps[3].1 == Getenv(env, "POSTGRES_PASSWORD")
    ensures ps[4].1 == GetEnvOrDefault(env, "POSTGRES_DB", "logs")
    ensures ps[5].1 == GetEnvOrDefault(env, "POSTGRES_SSLMODE", "disable")
  {
    [ ("host", GetEnvOrDefault(env, "POSTGRES_HOST", "localhost")),
      ("port", GetEnvOrDefault(env, "POSTGRES_PORT", "5432")),
      ("user", GetEnvOrDefault(env, "POSTGRES_USER", "postgres")),
      ("password", Getenv(env, "POSTGRES_PASSWORD")),
      ("dbname", GetEnvOrDefault(env, "POSTGRES_DB", "logs")),
      ("sslmode", GetEnvOrDefault(env, "POSTGRES_SSLMODE", "disable")) ]
  }

  /** With nothing set, the settings are the documented defaults and an
      empty password. */
  lemma SettingsDefaults()
    ensures Settings(map[]) ==
      [("host", "localhost"), ("port", "5432"), ("user", "postgres"),
       ("password", ""), ("dbname", "logs"), ("sslmode", "disable")]
  {
  }

  /** The connection string as the code builds it: `DATABASE_URL` when it
      is non-empty, otherwise `host=%s port=%s user=%s password=%s
      dbname=%s sslmode=%s` over the settings, values written as they are. */
  function ConnString(env: Env): (s: string)
    ensures Getenv(env, "DATABASE_URL") != "" ==> s == env["DATABASE_URL"]
  {
    var url := Getenv(env, "DATABASE_URL");
    if url != "" then url else Join(BareItems(Settings(env)), ' ')
  }

  lemma JoinSix(items: seq<string>)
    requires |items| == 6
    ensures Join(items, ' ') ==
      items[0] + (" " + (items[1] + (" " + (items[2] + (" " + (items[3] + (" " + (items[4] + (" " + items[5])))))))))
  {
    var t1, t2, t3, t4, t5 := items[1..], items[2..], items[3..], items[4..], items[5..];
    assert t1[1..] == t2 && t2[1..] == t3 && t3[1..] == t4 && t4[1..] == t5;
    assert Join(t5, ' ') == items[5];
    JoinUncons(t4, ' ');
    JoinUncons(t3, ' ');
    JoinUncons(t2, ' ');
    JoinUncons(t1, ' ');
    JoinUncons(items, ' ');
  }

  /** Without `DATABASE_URL` the string is `host=.. port=.. user=..
      password=.. dbname=.. sslmode=..`: the six `keyword=value` items in
      that order, separated by single spaces. */
  lemma ConnStringLayout(env: Env)
    requires Getenv(env, "DATABASE_URL") == ""
    ensures var ps := Settings(env);
      ConnString(env) ==
        BareItem(ps[0]) + (" " + (BareItem(ps[1]) + (" " + (BareItem(ps[2]) + (" " +
        (BareItem(ps[3]) + (" " + (BareItem(ps[4]) + (" " + BareItem(ps[5]))))))))))
  {
    JoinSix(BareItems(Settings(env)));
  }

  /** When no value holds a space, splitting the string at spaces gives
      back the six items in order. */
  lemma ConnStringSplits(env: Env)
    requires Getenv(env, "DATABASE_URL") == ""
    requires forall i :: 0 <= i < 6 ==> ' ' !in Settings(env)[i].1
    ensures Split(ConnString(env), ' ') == BareItems(Settings(env))
  {
    var ps := Settings(env);
    var items := BareItems(ps);
    forall i | 0 <= i < |items| ensures ' ' !in items[i] {
      assert items[i] == ps[i].0 + "=" + ps[i].1;
    }
    SplitJoin(items, ' ');
  }

  predicate AllBare(ps: seq<(string, string)>) {
    forall i :: 0 <= i < |ps| ==> BareValue(ps[i].1)
  }

  lemma SettingsKeysSimple(env: Env)
    ensures forall i :: 0 <= i < 6 ==> SimpleKey(Settings(env)[i].0)
  {
  }

  /** When every value is non-empty and free of whitespace, backslashes and
      a leading quote, the string reads back as exactly the six settings. */
  lemma ConnStringReadsBack(env: Env)
    requires Getenv(env, "DATABASE_URL") == "" && AllBare(Settings(env))
    ensures Parse(ConnString(env)) == Some(Settings(env))
  {
    SettingsKeysSimple(env);
    BareRoundTrip(Settings(env));
  }

  lemma DbnameItemIsBare(db: string)
    requires BareValue(db)
    ensures BareValue(BareItem(("dbname", db)))
  {
    var v := BareItem(("dbname", db));
    assert v == "dbname=" + db;
    forall i | 0 <= i < |v| ensures !IsSpace(v[i]) && v[i] != '\\' {
      if i >= 7 {
        assert v[i] == db[i - 7];
      }
    }
  }

  /** As written, an empty password swallows the next setting: the reader
      skips the space after `password=` and takes `dbname=<name>` as the
      password, so the string names no database at all. */
  lemma EmptyPasswordSwallowsDbname(env: Env)
    requires Getenv(env, "DATABASE_URL") == "" && Getenv(env, "POSTGRES_PASSWORD") == ""
    requires var ps := Settings(env);
      BareValue(ps[0].1) && BareValue(ps[1].1) && BareValue(ps[2].1) && BareValue(ps[4].1) && BareValue(ps[5].1)
    ensures var ps := Settings(env);
      Parse(ConnString(env)) ==
        Some([ps[0], ps[1], ps[2], ("password", BareItem(ps[4])), ps[5]])
    ensures Lookup(Parse(ConnString(env)).value, "dbname").None?
  {
    var ps := Settings(env);
    SettingsKeysSimple(env);
    DbnameItemIsBare(ps[4].1);
    assert ps[4] == ("dbname", ps[4].1);
    EmptyValueSwallowsNext(ps, 3);
    var got := ps[..3] + [(ps[3].0, BareItem(ps[4]))] + ps[5..];
    assert got == [ps[0], ps[1], ps[2], ("password", BareItem(ps[4])), ps[5]];
    LookupAbsent(got, "dbname");
  }

  lemma DefaultsAreBare()
    ensures BareValue("localhost") && BareValue("5432") && BareValue("postgres")
    ensures BareValue("logs") && BareValue("disable")
  {
  }

  /** With the whole environment empty, the default string reads as having
      password `dbname=logs` and no database name. */
  lemma DefaultConnStringNamesNoDatabase()
    ensures Parse(ConnString(map[])) ==
      Some([("host", "localhost"), ("port", "5432"), ("user", "postgres"),
            ("password", "dbname=logs"), ("sslmode", "disable")])
    ensures Lookup(Parse(ConnString(map[])).value, "dbname") == None
  {
    var env: Env := map[];
    SettingsDefaults();
    DefaultsAreBare();
    EmptyPasswordSwallowsDbname(env);
    assert BareItem(("dbname", "logs")) == "dbname=logs";
  }

  /** The connection string with every value quoted and escaped, as the
      keyword/value syntax asks for empty values and values with spaces,
      quotes or backslashes. */
  function QuotedConnString(env: Env): (s: string)
    ensures Getenv(env, "DATABASE_URL") != "" ==> s == env["DATABASE_URL"]
  {
    var url := Getenv(env, "DATABASE_URL");
    if url != "" then url else Join(QuotedItems(Settings(env)), ' ')
  }

  /** The quoted string reads back as exactly the six settings, whatever
      the environment holds -- the empty password included. */
  lemma QuotedConnStringReadsBack(env: Env)
    requires Getenv(env, "DATABASE_URL") == ""
    ensures Parse(QuotedConnString(env)) == Some(Settings(env))
    ensures Lookup(Parse(QuotedConnString(env)).value, "dbname") == Some(Settings(env)[4].1)
  {
    SettingsKeysSimple(env);
    QuotedRoundTrip(Settings(env));
    SettingsKeysDistinct(env);
    LookupDistinct(Settings(env), 4);
  }

  lemma SettingsKeysDistinct(env: Env)
    ensures forall j, l :: 0 <= j < l < 6 ==> Settings(env)[j].0 != Settings(env)[l].0
  {
    var ps := Settings(env);
    assert ps[0].0[0] == 'h' && ps[1].0[0] == 'p' && ps[2].0[0] == 'u';
    assert ps[3].0[0] == 'p' && ps[4].0[0] == 'd' && ps[5].0[0] == 's';
    assert ps[1].0[1] == 'o' && ps[3].0[1] == 'a';
  }

  /** `NewStorageFromEnv`: storage opened with the connection string the
      code builds from the environment, its values unquoted. */
  function NewStorageFromEnv(o: Opener, env: Env): (res: Result<Db>)
    ensures res.Ok? ==> o.open(ConnString(env)).Ok? && res.value == o.open(ConnString(env)).value
    ensures OpensAs(o, ConnString(env), res)
    ensures Getenv(env, "DATABASE_URL") != "" ==> res == NewStorage(o, Config(env["DATABASE_URL"]))
  {
    NewStorage(o, Config(ConnString(env)))
  }

  /** As written, storage from an empty environment is opened with a
      string that reads as password `dbname=logs` and names no database. */
  lemma EmptyEnvironmentOpensWithoutDatabase(o: Opener)
    ensures OpensAs(o, ConnString(map[]), NewStorageFromEnv(o, map[]))
    ensures Parse(ConnString(map[])).Some?
    ensures Lookup(Parse(ConnString(map[])).value, "password") == Some("dbname=logs")
    ensures Lookup(Parse(ConnString(map[])).value, "dbname") == None
  {
    DefaultConnStringNamesNoDatabase();
    var got := Parse(ConnString(map[])).value;
    assert got[3] == ("password", "dbname=logs");
  }

  /** `NewStorageFromEnv` corrected: the same settings, written with quoted
      values, so every one reaches the driver as configured. */
  function NewStorageFromEnvQuoted(o: Opener, env: Env): (res: Result<Db>)
    ensures OpensAs(o, QuotedConnString(env), res)
    ensures Getenv(env, "DATABASE_URL") != "" ==> res == NewStorageFromEnv(o, env)
    ensures Getenv(env, "DATABASE_URL") == "" ==>
              && Parse(QuotedConnString(env)).Some?
              && Lookup(Parse(QuotedConnString(env)).value, "dbname") == Some(GetEnvOrDefault(env, "POSTGRES_DB", "logs"))
  {
    var res := NewStorage(o, Config(QuotedConnString(env)));
    if Getenv(env, "DATABASE_URL") == "" then
      QuotedConnStringReadsBack(env);
      res
    else res
  }
}

=== FILE: logging_config.dfy ===
/** The gateway's logger set-up (api/logging/logging.go): output format
    and level chosen from the environment. */
module Logging {
  import opened Base
  import opened Text
  import AppEnvironment

  /** The logging library's levels, most severe first. */
  datatype Level = Panic | Fatal | Error | Warn | Info | Debug | Trace

  /** Both formatters stamp records with Go's `time.DateTime` layout. */
  datatype Formatter = TextFormatter | JsonFormatter

  const TimestampLayout := "2006-01-02 15:04:05"

  datatype LoggerConfig = LoggerConfig(formatter: Formatter, timestampFormat: string, level: Level)

  /** Human-readable text exactly when `ENVIRONMENT` is `local`; an unset
      variable reads as empty here and so selects JSON. */
  function SelectFormatter(env: Env): (f: Formatter)
    ensures f == TextFormatter <==> EnvironmentKeyIs(env, AppEnvironment.Local)
  {
    if Getenv(env, AppEnvironment.EnvironmentKey) == AppEnvironment.Local then TextFormatter else JsonFormatter
  }

  predicate EnvironmentKeyIs(env: Env, value: string) {
    AppEnvironment.EnvironmentKey in env && env[AppEnvironment.EnvironmentKey] == value
  }

  /** The level named by `LOG_LEVEL`, compared after ASCII lower-casing:
      `debug`, `info`, `warn` and `error` select their level, anything
      else (unset, `warning`, `trace`, ...) selects Info. */
  function ParseLevel(name: string): (l: Level)
    ensures l == Debug <==> ToLower(name) == "debug"
    ensures l == Warn <==> ToLower(name) == "warn"
    ensures l == Error <==> ToLower(name) == "error"
    ensures l == Info <==> ToLower(name) !in {"debug", "warn", "error"}
  {
    match ToLower(name)
    case "debug" => Debug
    case "info" => Info
    case "warn" => Warn
    case "error" => Error
    case _ => Info
  }

  /** `configureLoggerFromEnv`, without the output stream. */
  function ConfigureLoggerFromEnv(env: Env): (c: LoggerConfig)
    ensures c.timestampFormat == TimestampLayout
    ensures c.formatter == SelectFormatter(env)
    ensures c.level == ParseLevel(Getenv(env, AppEnvironment.LogLevelKey))
  {
    LoggerConfig(SelectFormatter(env), TimestampLayout, ParseLevel(Getenv(env, AppEnvironment.LogLevelKey)))
  }

  lemma ToLowerIdempotent(s: string)
    ensures ToLower(ToLower(s)) == ToLower(s)
  {
  }

  /** Matching ignores ASCII case: a name and its lower-case spelling
      select the same level. */
  lemma LevelIgnoresCase(name: string)
    ensures ParseLevel(name) == ParseLevel(ToLower(name))
  {
    ToLowerIdempotent(name);
  }

  /** The names the code spells out, in upper case too, and two that fall
      through to Info. */
  lemma LevelExamples()
    ensures ParseLevel("DEBUG") == Debug && ParseLevel("Warn") == Warn && ParseLevel("ERROR") == Error
    ensures ParseLevel("info") == Info && ParseLevel("warning") == Info && ParseLevel("") == Info
  {
    assert ToLower("DEBUG") == "debug";
    assert ToLower("Warn") == "warn";
    assert ToLower("ERROR") == "error";
    assert ToLower("warning") == "warning" && |"warning"| == 7;
    assert ToLower("info") == "info" && ToLower("") == "";
  }

  /** The level is never Panic, Fatal or Trace. */
  lemma LevelRange(name: string)
    ensures ParseLevel(name) in {Error, Warn, Info, Debug}
  {
  }

  /** With `ENVIRONMENT` unset the application counts itself local, yet the
      logger writes JSON: the formatter does not use the same default. */
  lemma UnsetEnvironmentLocalButJson(env: Env)
    requires AppEnvironment.EnvironmentKey !in env
    ensures AppEnvironment.IsLocalEnvironment(env)
    ensures ConfigureLoggerFromEnv(env).formatter == JsonFormatter
  {
  }

  /** Whenever `ENVIRONMENT` is set, the formatter is text exactly when the
      application counts itself local. */
  lemma FormatterFollowsSetEnvironment(env: Env)
    requires AppEnvironment.EnvironmentKey in env
    ensures ConfigureLoggerFromEnv(env).formatter == TextFormatter <==> AppEnvironment.IsLocalEnvironment(env)
  {
  }
}

=== FILE: postgres.dfy ===
/** The PostgreSQL backend of the storage package
    (service/worker/storage/postgres.go), over an abstract `logs` table.

    The database driver, `encoding/json` and the server's own failures are
    not interpreted: every call that can fail in Go is an oracle field of a
    `Driver` that says, for the table as it stands, whether that call fails
    and with which error.  Everything the Go code decides itself -- the
    order of the calls, the early returns, the error context strings, the
    transaction's all-or-nothing effect, the query it builds and the rows it
    decodes -- is modelled exactly. */
module Postgres {
  import opened Base
  import opened StorageTypes
  import opened QueryBuilder
  import opened QuerySemantics

  /** The `logs` table: its rows in insertion order and the next value of
      the `id` BIGSERIAL sequence. */
  datatype Table = Table(rows: seq<Row>, nextId: int)

  /** The collaborators the Go code calls and whose outcome it only
      inspects for an error. */
  datatype Driver = Driver(
    marshal: Fields -> Result<Bytes>,          // json.Marshal(entry.Fields)
    unmarshal: Bytes -> Result<Fields>,        // json.Unmarshal into a fresh map
    exec: (Table, Row) -> Option<Error>,       // one INSERT, seeing the table as it stands
    begin: Table -> Option<Error>,             // db.BeginTx
    prepare: Table -> Option<Error>,           // tx.PrepareContext
    commit: Table -> Option<Error>,            // tx.Commit, given the transaction's table
    query: (Table, Query) -> Option<Error>,    // db.QueryContext
    scan: Row -> Option<Error>,                // rows.Scan of one row
    iterate: Table -> Option<Cut>,             // a driver error that ends rows.Next() early
    deleteExec: Table -> Option<Error>,        // the DELETE's ExecContext
    rowsAffected: Table -> Option<Error>,      // result.RowsAffected
    closeDb: Table -> Option<Error>,           // db.Close
    ping: Table -> Option<Error>)              // db.PingContext

  /** A result set cut short by the driver: `rows.Next()` delivers only
      the first `delivered` rows and then reports no more, and `rows.Err()`
      returns `err`. */
  datatype Cut = Cut(delivered: nat, err: Error)

  /** An open database handle: the driver's behaviour and the table. */
  datatype Db = Db(driver: Driver, table: Table)

  /** Ids are positive, strictly increasing in table order, and below the
      sequence's next value, so a fresh id never collides with a stored one. */
  predicate WellFormed(t: Table) {
    && t.nextId >= 1
    && (forall i :: 0 <= i < |t.rows| ==> 1 <= t.rows[i].id < t.nextId)
    && IncreasingIds(t.rows)
  }

  predicate IncreasingIds(rows: seq<Row>) {
    forall i, j :: 0 <= i < j < |rows| ==> rows[i].id < rows[j].id
  }

  /** The row an INSERT of `e` writes: the sequence supplies `id`, the
      column default `CURRENT_TIMESTAMP` (the transaction's start) supplies
      `created_at`; the entry's own `ID` and `CreatedAt` are not sent. */
  function RowOf(id: int, e: LogEntry, json: Bytes, now: Time): Row {
    Row(id, e.timestamp, e.service, e.level, e.message, json, now)
  }

  /** `r` is the row written for `e`, given the JSON the entry's fields were
      marshalled to. */
  predicate Stores(d: Driver, e: LogEntry, now: Time, r: Row) {
    && d.marshal(e.fields).Ok?
    && r.fieldsJson == d.marshal(e.fields).value
    && r.timestamp == e.timestamp && r.service == e.service
    && r.level == e.level && r.message == e.message
    && r.createdAt == now
  }

  /** `s` is `t` with one row appended per entry, in batch order, with
      consecutive ids taken from the sequence; earlier rows are untouched. */
  predicate Appended(d: Driver, t: Table, now: Time, entries: seq<LogEntry>, s: Table) {
    && |s.rows| == |t.rows| + |entries|
    && s.rows[..|t.rows|] == t.rows
    && s.nextId == t.nextId + |entries|
    && forall i :: |t.rows| <= i < |s.rows| ==>
         s.rows[i].id == t.nextId + (i - |t.rows|) && Stores(d, entries[i - |t.rows|], now, s.rows[i])
  }

  /** An INSERT that succeeded: the row joins the table and the sequence
      advances. */
  function Append(t: Table, r: Row): Table {
    Table(t.rows + [r], t.nextId + 1)
  }

  // ---- InsertLog ----

  /** `InsertLog`: marshal the fields, then one autocommitted INSERT. */
  function InsertLog(d: Driver, t: Table, now: Time, e: LogEntry): (w: Written<Table>)
    ensures d.marshal(e.fields).Err? ==>
              w == Written(t, Some(Wrapped("failed to marshal fields", d.marshal(e.fields).error)))
    ensures w.err.None? ==>
              && |w.state.rows| == |t.rows| + 1
              && w.state.rows[..|t.rows|] == t.rows
              && w.state.rows[|t.rows|].id == t.nextId
              && Stores(d, e, now, w.state.rows[|t.rows|])
    ensures w.err.Some? ==> w.state == t
  {
    match d.marshal(e.fields)
    case Err(err) => Written(t, Some(Wrapped("failed to marshal fields", err)))
    case Ok(json) =>
      var r := RowOf(t.nextId, e, json, now);
      match d.exec(t, r)
      case Some(err) => Written(t, Some(Wrapped("failed to insert log", err)))
      case None =>
        assert (t.rows + [r])[..|t.rows|] == t.rows;
        Written(Append(t, r), None)
  }

  // ---- InsertLogs ----

  /** How the statement loop inside the transaction ended, with the
      transaction's view of the table at that point. */
  datatype Batch = Done(tx: Table) | Failed(tx: Table, err: Error)

  /** The loop over the entries: marshal, then execute the prepared INSERT;
      the first failure ends the loop. */
  function RunBatch(d: Driver, tx: Table, now: Time, entries: seq<LogEntry>): (b: Batch)
    ensures |b.tx.rows| >= |tx.rows| && b.tx.rows[..|tx.rows|] == tx.rows
    ensures b.tx.nextId >= tx.nextId
    decreases |entries|
  {
    if |entries| == 0 then Done(tx)
    else
      match d.marshal(entries[0].fields)
      case Err(err) => Failed(tx, Wrapped("failed to marshal fields", err))
      case Ok(json) =>
        var r := RowOf(tx.nextId, entries[0], json, now);
        match d.exec(tx, r)
        case Some(err) => Failed(tx, Wrapped("failed to insert log", err))
        case None => RunBatch(d, Append(tx, r), now, entries[1..])
  }

  /** The table after the deferred rollback: the rows as before the
      transaction, the sequence where the transaction left it (PostgreSQL
      does not roll sequences back). */
  function Rollback(t: Table, tx: Table): Table {
    Table(t.rows, tx.nextId)
  }

  /** `InsertLogs`: nothing to do for an empty batch; otherwise one
      transaction whose rows become visible only if every entry was
      inserted and the commit succeeded. */
  function InsertLogs(d: Driver, t: Table, now: Time, entries: seq<LogEntry>): (w: Written<Table>)
    ensures |entries| == 0 ==> w.err.None? && w.state == t
    ensures w.err.Some? ==> w.state.rows == t.rows
    ensures w.state.nextId >= t.nextId
  {
    if |entries| == 0 then Written(t, None)
    else if d.begin(t).Some? then
      Written(t, Some(Wrapped("failed to begin transaction", d.begin(t).value)))
    else if d.prepare(t).Some? then
      Written(t, Some(Wrapped("failed to prepare statement", d.prepare(t).value)))
    else
      match RunBatch(d, t, now, entries)
      case Failed(tx, err) => Written(Rollback(t, tx), Some(err))
      case Done(tx) =>
        if d.commit(tx).Some? then
          Written(Rollback(t, tx), Some(Wrapped("failed to commit transaction", d.commit(tx).value)))
        else Written(tx, None)
  }

  /** What a finished loop did: the transaction's table is the starting
      table plus one row per entry, in batch order, with consecutive ids. */
  lemma {:induction false} RunBatchDone(d: Driver, tx: Table, now: Time, entries: seq<LogEntry>)
    requires RunBatch(d, tx, now, entries).Done?
    ensures Appended(d, tx, now, entries, RunBatch(d, tx, now, entries).tx)
    decreases |entries|
  {
    if |entries| > 0 {
      var json := d.marshal(entries[0].fields).value;
      var r := RowOf(tx.nextId, entries[0], json, now);
      var tx' := Append(tx, r);
      RunBatchDone(d, tx', now, entries[1..]);
      var out := RunBatch(d, tx', now, entries[1..]).tx;
      assert out.rows[..|tx'.rows|] == tx.rows + [r];
      assert out.rows[..|tx.rows|] == (out.rows[..|tx'.rows|])[..|tx.rows|];
      forall i | |tx.rows| <= i < |out.rows|
        ensures out.rows[i].id == tx.nextId + (i - |tx.rows|)
        ensures Stores(d, entries[i - |tx.rows|], now, out.rows[i])
      {
        if i == |tx.rows| {
          assert out.rows[i] == (out.rows[..|tx'.rows|])[|tx.rows|];
        } else {
          assert entries[i - |tx.rows|] == entries[1..][i - |tx'.rows|];
        }
      }
    }
  }

  /** A loop that stopped early only ever moves the sequence forward. */
  lemma {:induction false} RunBatchFailed(d: Driver, tx: Table, now: Time, entries: seq<LogEntry>)
    requires RunBatch(d, tx, now, entries).Failed?
    ensures tx.nextId <= RunBatch(d, tx, now, entries).tx.nextId <= tx.nextId + |entries|
    decreases |entries|
  {
    if |entries| > 0 && d.marshal(entries[0].fields).Ok? {
      var r := RowOf(tx.nextId, entries[0], d.marshal(entries[0].fields).value, now);
      if d.exec(tx, r).None? {
        RunBatchFailed(d, Append(tx, r), now, entries[1..]);
      }
    }
  }

  /** The batch is all-or-nothing.  On success the table grows by exactly
      one row per entry, in batch order, after the untouched earlier rows;
      on any error the rows are those from before the call.  Either way the
      sequence never moves backwards. */
  lemma InsertLogsAtomic(d: Driver, t: Table, now: Time, entries: seq<LogEntry>)
    ensures var w := InsertLogs(d, t, now, entries);
      && (w.err.Some? ==> w.state.rows == t.rows)
      && w.state.nextId >= t.nextId
      && (w.err.None? ==> Appended(d, t, now, entries, w.state))
  {
    if |entries| > 0 && d.begin(t).None? && d.prepare(t).None? {
      var b := RunBatch(d, t, now, entries);
      if b.Done? {
        RunBatchDone(d, t, now, entries);
      } else {
        RunBatchFailed(d, t, now, entries);
      }
    }
  }

  /** An empty batch succeeds without opening a transaction: no driver
      call is made and the table, sequence included, is unchanged. */
  lemma InsertLogsEmpty(d: Driver, t: Table, now: Time)
    ensures InsertLogs(d, t, now, []) == Written(t, None)
  {
  }

  /** A one-entry batch whose transaction opens and commits behaves like
      `InsertLog` of that entry. */
  lemma SingletonBatchIsInsertLog(d: Driver, t: Table, now: Time, e: LogEntry)
    requires d.begin(t).None? && d.prepare(t).None?
    requires RunBatch(d, t, now, [e]).Done? ==> d.commit(RunBatch(d, t, now, [e]).tx).None?
    ensures InsertLogs(d, t, now, [e]).err.None? <==> InsertLog(d, t, now, e).err.None?
    ensures InsertLogs(d, t, now, [e]).state.rows == InsertLog(d, t, now, e).state.rows
    ensures InsertLogs(d, t, now, [e]).err == InsertLog(d, t, now, e).err
  {
    assert [e][1..] == [];
    if d.marshal(e.fields).Ok? {
      var r := RowOf(t.nextId, e, d.marshal(e.fields).value, now);
      assert RunBatch(d, Append(t, r), now, []) == Done(Append(t, r));
    }
  }

  /** The entry's own `ID` and `CreatedAt` never reach the table: entries
      that differ only there are stored identically. */
  lemma InsertIgnoresBackendFields(d: Driver, t: Table, now: Time, e1: LogEntry, e2: LogEntry)
    requires e1.(id := e2.id, createdAt := e2.createdAt) == e2
    ensures InsertLog(d, t, now, e1) == InsertLog(d, t, now, e2)
  {
    assert RowOf(t.nextId, e1, [], now).(fieldsJson := []) == RowOf(t.nextId, e2, [], now).(fieldsJson := []);
  }

  /** Inserting keeps ids unique and increasing. */
  lemma InsertLogKeepsWellFormed(d: Driver, t: Table, now: Time, e: LogEntry)
    requires WellFormed(t)
    ensures WellFormed(InsertLog(d, t, now, e).state)
  {
  }

  lemma InsertLogsKeepsWellFormed(d: Driver, t: Table, now: Time, entries: seq<LogEntry>)
    requires WellFormed(t)
    ensures WellFormed(InsertLogs(d, t, now, entries).state)
  {
    InsertLogsAtomic(d, t, now, entries);
    var w := InsertLogs(d, t, now, entries);
    if w.err.None? {
      var s := w.state;
      forall i | 0 <= i < |s.rows| ensures 1 <= s.rows[i].id < s.nextId {
        if i < |t.rows| {
          assert s.rows[i] == s.rows[..|t.rows|][i];
        }
      }
      forall i, j | 0 <= i < j < |s.rows| ensures s.rows[i].id < s.rows[j].id {
        if j < |t.rows| {
          assert s.rows[i] == s.rows[..|t.rows|][i] && s.rows[j] == s.rows[..|t.rows|][j];
        } else if i < |t.rows| {
          assert s.rows[i] == s.rows[..|t.rows|][i];
        }
      }
    }
  }

  // ---- QueryLogs ----

  /** `e` is what scanning `r` produces: the columns copied, and the fields
      empty when the column held no JSON, otherwise the unmarshalled map. */
  predicate Decodes(d: Driver, r: Row, e: LogEntry) {
    && e.id == r.id && e.timestamp == r.timestamp && e.service == r.service
    && e.level == r.level && e.message == r.message && e.createdAt == r.createdAt
    && (|r.fieldsJson| == 0 ==> e.fields == map[])
    && (|r.fieldsJson| > 0 ==> d.unmarshal(r.fieldsJson) == Ok(e.fields))
  }

  /** One iteration of the `rows.Next()` loop. */
  function DecodeRow(d: Driver, r: Row): (res: Result<LogEntry>)
    ensures res.Ok? ==> Decodes(d, r, res.value)
    ensures res.Ok? <==> d.scan(r).None? && (|r.fieldsJson| > 0 ==> d.unmarshal(r.fieldsJson).Ok?)
  {
    if d.scan(r).Some? then Err(Wrapped("failed to scan row", d.scan(r).value))
    else if |r.fieldsJson| == 0 then
      Ok(LogEntry(r.id, r.timestamp, r.service, r.level, r.message, map[], r.createdAt))
    else
      match d.unmarshal(r.fieldsJson)
      case Err(err) => Err(Wrapped("failed to unmarshal fields", err))
      case Ok(fs) => Ok(LogEntry(r.id, r.timestamp, r.service, r.level, r.message, fs, r.createdAt))
  }

  /** The whole loop: every row decoded in order, or the first row's error. */
  function DecodeRows(d: Driver, rows: seq<Row>): (res: Result<seq<LogEntry>>)
    ensures res.Ok? <==> forall i :: 0 <= i < |rows| ==> DecodeRow(d, rows[i]).Ok?
    ensures res.Ok? ==>
              && |res.value| == |rows|
              && forall i :: 0 <= i < |rows| ==> DecodeRow(d, rows[i]) == Ok(res.value[i])
    ensures res.Err? ==>
              exists i :: && 0 <= i < |rows| && DecodeRow(d, rows[i]) == Err(res.error)
                          && forall j :: 0 <= j < i ==> DecodeRow(d, rows[j]).Ok?
  {
    if |rows| == 0 then Ok([])
    else
      match DecodeRow(d, rows[0])
      case Err(err) => Err(err)
      case Ok(e) =>
        match DecodeRows(d, rows[1..])
        case Err(err) =>
          assert forall i :: 1 <= i < |rows| ==> rows[i] == rows[1..][i - 1];
          Err(err)
        case Ok(es) =>
          assert forall i :: 1 <= i < |rows| ==> rows[i] == rows[1..][i - 1];
          Ok([e] + es)
  }

  /** The rows `rows.Next()` delivers: all of them, or the prefix before
      the driver's error. */
  function Delivered(d: Driver, t: Table, rows: seq<Row>): (seen: seq<Row>)
    ensures d.iterate(t).None? ==> seen == rows
    ensures d.iterate(t).Some? ==> seen == rows[..Min(d.iterate(t).value.delivered, |rows|)]
  {
    if d.iterate(t).Some? && d.iterate(t).value.delivered < |rows| then rows[..d.iterate(t).value.delivered]
    else rows
  }

  function Min(a: int, b: int): int {
    if a < b then a else b
  }

  /** `QueryLogs`: build the query, run it, decode the rows the driver
      delivers, then check the iteration error. */
  function QueryLogs(d: Driver, t: Table, f: QueryFilter): (res: Result<seq<LogEntry>>)
    ensures d.query(t, BuildQuery(f)).Some? ==>
              res == Err(Wrapped("failed to query logs", d.query(t, BuildQuery(f)).value))
    ensures d.iterate(t).Some? ==> res.Err?
    ensures res.Ok? ==>
              && |res.value| == |Reference(f, t.rows)|
              && forall i :: 0 <= i < |res.value| ==> Decodes(d, Reference(f, t.rows)[i], res.value[i])
  {
    var q := BuildQuery(f);
    if d.query(t, q).Some? then Err(Wrapped("failed to query logs", d.query(t, q).value))
    else
      BuiltQueryMeansFilter(f, t.rows);
      var rows := Eval(q, t.rows).value;
      match DecodeRows(d, Delivered(d, t, rows))
      case Err(err) => Err(err)
      case Ok(es) =>
        if d.iterate(t).Some? then Err(Wrapped("error iterating rows", d.iterate(t).value.err))
        else Ok(es)
  }

  /** A driver error ends the loop early: when the rows delivered before it
      all decode, the answer is the iteration error, whatever the rows the
      loop never reached hold. */
  lemma IterationErrorStopsEarly(d: Driver, t: Table, f: QueryFilter)
    requires d.query(t, BuildQuery(f)).None? && d.iterate(t).Some?
    requires forall i :: 0 <= i < d.iterate(t).value.delivered && i < |Reference(f, t.rows)| ==>
               DecodeRow(d, Reference(f, t.rows)[i]).Ok?
    ensures QueryLogs(d, t, f) == Err(Wrapped("error iterating rows", d.iterate(t).value.err))
  {
    BuiltQueryMeansFilter(f, t.rows);
    var seen := Delivered(d, t, Reference(f, t.rows));
    assert forall i :: 0 <= i < |seen| ==> seen[i] == Reference(f, t.rows)[i];
  }

  /** Entries decoded one-to-one from newest-first, matching, stored rows
      are newest first too. */
  lemma DecodedAnswer(d: Driver, f: QueryFilter, rows: seq<Row>, ref: seq<Row>, es: seq<LogEntry>)
    requires SortedDesc(ref)
    requires |es| == |ref| && forall i :: 0 <= i < |es| ==> Decodes(d, ref[i], es[i])
    ensures forall i, j :: 0 <= i < j < |es| ==> es[i].timestamp.nanos >= es[j].timestamp.nanos
  {
    forall i, j | 0 <= i < j < |es| ensures es[i].timestamp.nanos >= es[j].timestamp.nanos {
      assert Decodes(d, ref[i], es[i]) && Decodes(d, ref[j], es[j]);
    }
  }

  /** The answer to a query: entries newest first, each decoded from a
      stored row that matches the filter (so its service, level and
      timestamp satisfy the filter), and no more than a positive limit
      asks for. */
  lemma QueryLogsAnswer(d: Driver, t: Table, f: QueryFilter)
    ensures QueryLogs(d, t, f).Ok? ==>
      var es := QueryLogs(d, t, f).value;
      && (forall i, j :: 0 <= i < j < |es| ==> es[i].timestamp.nanos >= es[j].timestamp.nanos)
      && (forall i :: 0 <= i < |es| ==>
            (f.service == "" || es[i].service == f.service) &&
            (f.level == "" || es[i].level == f.level) &&
            (f.startTime.None? || es[i].timestamp.nanos >= f.startTime.value.nanos) &&
            (f.endTime.None? || es[i].timestamp.nanos <= f.endTime.value.nanos) &&
            exists k :: 0 <= k < |t.rows| && t.rows[k].id == es[i].id)
      && (f.limit > 0 ==> |es| <= f.limit)
  {
    if QueryLogs(d, t, f).Ok? {
      QueryLogsAnswerOk(d, t, f);
    }
  }

  lemma QueryLogsAnswerOk(d: Driver, t: Table, f: QueryFilter)
    requires QueryLogs(d, t, f).Ok?
    ensures var es := QueryLogs(d, t, f).value;
      && (forall i, j :: 0 <= i < j < |es| ==> es[i].timestamp.nanos >= es[j].timestamp.nanos)
      && (forall i :: 0 <= i < |es| ==>
            (f.service == "" || es[i].service == f.service) &&
            (f.level == "" || es[i].level == f.level) &&
            (f.startTime.None? || es[i].timestamp.nanos >= f.startTime.value.nanos) &&
            (f.endTime.None? || es[i].timestamp.nanos <= f.endTime.value.nanos) &&
            exists k :: 0 <= k < |t.rows| && t.rows[k].id == es[i].id)
      && (f.limit > 0 ==> |es| <= f.limit)
  {
    var es := QueryLogs(d, t, f).value;
    var ref := Reference(f, t.rows);
    ReferenceProperties(f, t.rows);
    DecodedAnswer(d, f, t.rows, ref, es);
    forall i | 0 <= i < |es|
      ensures (f.service == "" || es[i].service == f.service) && (f.level == "" || es[i].level == f.level)
      ensures (f.startTime.None? || es[i].timestamp.nanos >= f.startTime.value.nanos)
      ensures (f.endTime.None? || es[i].timestamp.nanos <= f.endTime.value.nanos)
      ensures exists k :: 0 <= k < |t.rows| && t.rows[k].id == es[i].id
    {
      assert ref[i] in ref;
      assert Decodes(d, ref[i], es[i]) && Matches(f, ref[i]);
      var k :| 0 <= k < |t.rows| && t.rows[k] == ref[i];
    }
  }

  /** When every stored row decodes and the driver reports no error, the
      query succeeds and its answer is the reference answer, row by row. */
  lemma QueryLogsSucceeds(d: Driver, t: Table, f: QueryFilter)
    requires d.query(t, BuildQuery(f)).None? && d.iterate(t).None?
    requires forall r :: r in t.rows ==> DecodeRow(d, r).Ok?
    ensures QueryLogs(d, t, f).Ok?
  {
    ReferenceProperties(f, t.rows);
    BuiltQueryMeansFilter(f, t.rows);
    var ref := Reference(f, t.rows);
    forall i | 0 <= i < |ref| ensures DecodeRow(d, ref[i]).Ok? {
      assert ref[i] in ref;
    }
  }

  // ---- DeleteOldLogs ----

  /** The rows the DELETE keeps: those created at or after the cutoff, in
      table order. */
  function Surviving(rows: seq<Row>, cutoff: Time): (kept: seq<Row>)
    ensures forall r :: r in kept <==> r in rows && r.createdAt.nanos >= cutoff.nanos
    ensures |kept| <= |rows|
  {
    if |rows| == 0 then []
    else
      assert rows == [rows[0]] + rows[1..];
      var rest := Surviving(rows[1..], cutoff);
      if rows[0].createdAt.nanos >= cutoff.nanos then [rows[0]] + rest else rest
  }

  /** The rows the DELETE removes. */
  function Expired(rows: seq<Row>, cutoff: Time): (gone: seq<Row>)
    ensures forall r :: r in gone <==> r in rows && r.createdAt.nanos < cutoff.nanos
  {
    if |rows| == 0 then []
    else
      assert rows == [rows[0]] + rows[1..];
      var rest := Expired(rows[1..], cutoff);
      if rows[0].createdAt.nanos < cutoff.nanos then [rows[0]] + rest else rest
  }

  /** `DeleteOldLogs`: `DELETE FROM logs WHERE created_at < now - olderThan`,
      then the affected-row count.  A failed count comes after the DELETE
      has run, so the rows are gone although 0 is reported. */
  function DeleteOldLogs(d: Driver, t: Table, now: Time, olderThan: Duration): (res: Deleted<Table>)
    ensures res.err.None? ==> res.count == |t.rows| - |res.state.rows|
    ensures res.err.Some? ==> res.count == 0
    ensures d.deleteExec(t).Some? <==>
              && res.state == t && res.err.Some? && res.err.value.Wrapped?
              && res.err.value.context == "failed to delete old logs"
  {
    var cutoff := Add(now, Negate(olderThan));
    if d.deleteExec(t).Some? then
      Deleted(t, 0, Some(Wrapped("failed to delete old logs", d.deleteExec(t).value)))
    else
      var after := Table(Surviving(t.rows, cutoff), t.nextId);
      if d.rowsAffected(after).Some? then
        Deleted(after, 0, Some(Wrapped("failed to get rows affected", d.rowsAffected(after).value)))
      else
        Deleted(after, |t.rows| - |after.rows|, None)
  }

  /** The DELETE splits the table: every row either survives (created at
      or after `now - olderThan`) or is counted as removed, never both, and
      the count is the number of expired rows. */
  lemma {:induction false} DeletePartitions(rows: seq<Row>, cutoff: Time)
    ensures multiset(Surviving(rows, cutoff)) + multiset(Expired(rows, cutoff)) == multiset(rows)
    ensures |rows| - |Surviving(rows, cutoff)| == |Expired(rows, cutoff)|
  {
    if |rows| > 0 {
      DeletePartitions(rows[1..], cutoff);
      assert rows == [rows[0]] + rows[1..];
    }
  }

  /** What `DeleteOldLogs` did when the driver reported no error: the rows
      left are exactly those not older than the cutoff, in table order, and
      the count is how many were older. */
  lemma DeleteOldLogsRemovesExactly(d: Driver, t: Table, now: Time, olderThan: Duration)
    requires d.deleteExec(t).None?
    ensures var res := DeleteOldLogs(d, t, now, olderThan);
      var cutoff := if olderThan == MinDuration then now.nanos + olderThan else now.nanos - olderThan;
      && (forall r :: r in res.state.rows <==> r in t.rows && r.createdAt.nanos >= cutoff)
      && (res.err.None? ==> res.count == |Expired(t.rows, Time(cutoff))|)
      && res.state.nextId == t.nextId
  {
    DeletePartitions(t.rows, Add(now, Negate(olderThan)));
  }

  /** Deleting again with the same cutoff removes nothing more. */
  lemma {:induction false} SurvivingIdempotent(rows: seq<Row>, cutoff: Time)
    ensures Surviving(Surviving(rows, cutoff), cutoff) == Surviving(rows, cutoff)
  {
    if |rows| > 0 {
      SurvivingIdempotent(rows[1..], cutoff);
    }
  }

  lemma ConsIncreasing(h: Row, rest: seq<Row>)
    requires IncreasingIds(rest) && forall x :: x in rest ==> h.id < x.id
    ensures IncreasingIds([h] + rest)
  {
    var s := [h] + rest;
    forall i, j | 0 <= i < j < |s| ensures s[i].id < s[j].id {
      assert s[j] == rest[j - 1] && rest[j - 1] in rest;
      if i > 0 {
        assert s[i] == rest[i - 1];
      }
    }
  }

  /** Survivors keep their table order, so ids stay increasing. */
  lemma {:induction false} SurvivingKeepsIncreasing(rows: seq<Row>, cutoff: Time)
    requires IncreasingIds(rows)
    ensures IncreasingIds(Surviving(rows, cutoff))
  {
    if |rows| > 0 {
      var tail := rows[1..];
      assert IncreasingIds(tail) by {
        forall i, j | 0 <= i < j < |tail| ensures tail[i].id < tail[j].id {
          assert tail[i] == rows[i + 1] && tail[j] == rows[j + 1];
        }
      }
      SurvivingKeepsIncreasing(tail, cutoff);
      var rest := Surviving(tail, cutoff);
      if rows[0].createdAt.nanos >= cutoff.nanos {
        forall x | x in rest ensures rows[0].id < x.id {
          var m :| 0 <= m < |tail| && tail[m] == x;
          assert tail[m] == rows[m + 1];
        }
        ConsIncreasing(rows[0], rest);
      }
    }
  }

  lemma DeleteOldLogsKeepsWellFormed(d: Driver, t: Table, now: Time, olderThan: Duration)
    requires WellFormed(t)
    ensures WellFormed(DeleteOldLogs(d, t, now, olderThan).state)
  {
    var kept := Surviving(t.rows, Add(now, Negate(olderThan)));
    SurvivingKeepsIncreasing(t.rows, Add(now, Negate(olderThan)));
    forall i | 0 <= i < |kept| ensures 1 <= kept[i].id < t.nextId {
      assert kept[i] in kept;
      var k :| 0 <= k < |t.rows| && t.rows[k] == kept[i];
    }
  }

  /** Rows written at `now` outlive a retention sweep at `now` with any
      non-negative age, and are swept once the age is negative -- except
      the most negative age, whose negation wraps to itself and puts the
      cutoff far in the past. */
  lemma FreshRowsSurvive(d: Driver, t: Table, now: Time, olderThan: Duration, r: Row)
    requires d.deleteExec(t).None? && r in t.rows && r.createdAt == now
    ensures r in DeleteOldLogs(d, t, now, olderThan).state.rows <==> olderThan >= 0 || olderThan == MinDuration
  {
  }

  // ---- Close, HealthCheck, NewPostgresStorage ----

  /** `Close`: closes the handle when there is one, and is a no-op on a
      storage value whose handle is nil. */
  function Close(db: Option<Db>): (err: Option<Error>)
    ensures db.None? ==> err.None?
    ensures db.Some? ==> err == db.value.driver.closeDb(db.value.table)
  {
    if db.Some? then db.value.driver.closeDb(db.value.table) else None
  }

  /** `HealthCheck`: a ping of the handle. */
  function HealthCheck(db: Db): (err: Option<Error>)
    ensures err == db.driver.ping(db.table)
  {
    db.driver.ping(db.table)
  }

  /** What opening a database yields, before the ping and the schema. */
  datatype Opener = Opener(
    open: string -> Result<Db>,       // sql.Open("postgres", connString)
    initSchema: Db -> Option<Error>)  // the CREATE TABLE / CREATE INDEX script

  /** The outcome of opening storage with `connString`: the first of the
      open, the ping and the schema script to fail gives its error wrapped
      with that step's context, and when none fails the opened handle. */
  ghost predicate OpensAs(o: Opener, connString: string, res: Result<Db>) {
    var attempt := o.open(connString);
    && (attempt.Err? ==> res == Err(Wrapped("failed to open database", attempt.error)))
    && (attempt.Ok? ==>
          var db := attempt.value;
          && (db.driver.ping(db.table).Some? ==>
                res == Err(Wrapped("failed to ping database", db.driver.ping(db.table).value)))
          && (db.driver.ping(db.table).None? && o.initSchema(db).Some? ==>
                res == Err(Wrapped("failed to initialize schema", o.initSchema(db).value)))
          && (db.driver.ping(db.table).None? && o.initSchema(db).None? ==> res == Ok(db)))
  }

  /** `NewPostgresStorage`: open, ping, create the schema; each failure is
      wrapped with its step's context, and the handle is returned only when
      all three succeed. */
  function NewPostgresStorage(o: Opener, connString: string): (res: Result<Db>)
    ensures res.Ok? <==>
              && o.open(connString).Ok?
              && o.open(connString).value.driver.ping(o.open(connString).value.table).None?
              && o.initSchema(o.open(connString).value).None?
    ensures res.Ok? ==> res.value == o.open(connString).value
    ensures res.Err? ==>
              && res.error.Wrapped?
              && res.error.context in {"failed to open database", "failed to ping database", "failed to initialize schema"}
    ensures OpensAs(o, connString, res)
  {
    match o.open(connString)
    case Err(err) => Err(Wrapped("failed to open database", err))
    case Ok(db) =>
      if db.driver.ping(db.table).Some? then
        Err(Wrapped("failed to ping database", db.driver.ping(db.table).value))
      else if o.initSchema(db).Some? then
        Err(Wrapped("failed to initialize schema", o.initSchema(db).value))
      else Ok(db)
  }

  /** The PostgreSQL backend as a `Storage`, over an open handle. */
  function PostgresStorage(): Storage<Db> {
    Storage(
      (db: Db, now: Time, e: LogEntry) =>
        var w := InsertLog(db.driver, db.table, now, e); Written(db.(table := w.state), w.err),
      (db: Db, now: Time, es: seq<LogEntry>) =>
        var w := InsertLogs(db.driver, db.table, now, es); Written(db.(table := w.state), w.err),
      (db: Db, f: QueryFilter) => QueryLogs(db.driver, db.table, f),
      (db: Db, now: Time, olderThan: Duration) =>
        var r := DeleteOldLogs(db.driver, db.table, now, olderThan); Deleted(db.(table := r.state), r.count, r.err),
      (db: Db) => Close(Some(db)),
      (db: Db) => HealthCheck(db))
  }
}

=== FILE: query_builder.dfy ===
/** The dynamic SQL builder of `PostgresStorage.QueryLogs`
    (service/worker/storage/postgres.go, lines 150-190): a filter becomes a
    clause list with numbered placeholders plus the argument list bound to
    them.  Caller values only ever reach the argument list. */
module QueryBuilder {
  import opened Base
  import opened Text
  import opened StorageTypes

  /** A value bound to a placeholder. */
  datatype Arg = StrArg(s: string) | TimeArg(t: Time) | IntArg(n: int)

  /** The clauses the builder can append after `WHERE 1=1`; each
      parameterised clause carries the number `p` of its placeholder `$p`. */
  datatype Clause =
    | ServiceEq(p: nat)
    | LevelEq(p: nat)
    | TimeAtLeast(p: nat)
    | TimeAtMost(p: nat)
    | OrderByTimestampDesc
    | Limit(p: nat)
    | Offset(p: nat)

  datatype Query = Query(clauses: seq<Clause>, args: seq<Arg>)

  const SelectAll: string :=
    "SELECT id, timestamp, service, level, message, fields, created_at FROM logs WHERE 1=1"

  /** The SQL fragment of one clause: fixed text and a placeholder number. */
  function ClauseText(c: Clause): string
  {
    match c
    case ServiceEq(p) => " AND service = $" + NatToString(p)
    case LevelEq(p) => " AND level = $" + NatToString(p)
    case TimeAtLeast(p) => " AND timestamp >= $" + NatToString(p)
    case TimeAtMost(p) => " AND timestamp <= $" + NatToString(p)
    case OrderByTimestampDesc => " ORDER BY timestamp DESC"
    case Limit(p) => " LIMIT $" + NatToString(p)
    case Offset(p) => " OFFSET $" + NatToString(p)
  }

  function ClausesText(cs: seq<Clause>): string
  {
    if |cs| == 0 then "" else ClauseText(cs[0]) + ClausesText(cs[1..])
  }

  /** The query text handed to the driver. */
  function Render(q: Query): string
  {
    SelectAll + ClausesText(q.clauses)
  }

  /** The position of each clause kind in the builder's fixed order. */
  function Rank(c: Clause): nat
  {
    match c
    case ServiceEq(_) => 0
    case LevelEq(_) => 1
    case TimeAtLeast(_) => 2
    case TimeAtMost(_) => 3
    case OrderByTimestampDesc => 4
    case Limit(_) => 5
    case Offset(_) => 6
  }

  predicate IsPredicate(c: Clause) {
    c.ServiceEq? || c.LevelEq? || c.TimeAtLeast? || c.TimeAtMost?
  }

  /** The placeholder numbers, in the order they occur in the text. */
  function Params(cs: seq<Clause>): seq<nat>
  {
    if |cs| == 0 then []
    else (if cs[0].OrderByTimestampDesc? then [] else [cs[0].p]) + Params(cs[1..])
  }

  lemma {:induction false} ParamsAppend(cs: seq<Clause>, c: Clause)
    ensures Params(cs + [c]) == Params(cs) + (if c.OrderByTimestampDesc? then [] else [c.p])
  {
    if |cs| == 0 {
      assert cs + [c] == [c];
    } else {
      assert (cs + [c])[1..] == cs[1..] + [c];
      ParamsAppend(cs[1..], c);
    }
  }

  /** Placeholders are exactly `$1, $2, ..., $n` in order, with `n` the
      number of bound arguments. */
  predicate Numbered(q: Query) {
    var ps := Params(q.clauses);
    |ps| == |q.args| && forall i :: 0 <= i < |ps| ==> ps[i] == i + 1
  }

  /** Clause kinds strictly follow the fixed order (so each kind occurs at
      most once). */
  predicate Ordered(cs: seq<Clause>) {
    forall i, j :: 0 <= i < j < |cs| ==> Rank(cs[i]) < Rank(cs[j])
  }

  /** The argument a filter supplies for the clause kind of rank `k`. */
  function ArgFor(f: QueryFilter, k: nat): Arg
  {
    if k == 0 then StrArg(f.service)
    else if k == 1 then StrArg(f.level)
    else if k == 2 then TimeArg(if f.startTime.Some? then f.startTime.value else ZeroTime)
    else if k == 3 then TimeArg(if f.endTime.Some? then f.endTime.value else ZeroTime)
    else if k == 5 then IntArg(f.limit)
    else IntArg(f.offset)
  }

  /** The argument bound to clause `c` is the filter's value for it. */
  predicate BindsFilter(f: QueryFilter, q: Query, c: Clause) {
    c.OrderByTimestampDesc? || (1 <= c.p <= |q.args| && q.args[c.p - 1] == ArgFor(f, Rank(c)))
  }

  /** The clause kinds (by rank) present in a clause list. */
  function Kinds(cs: seq<Clause>): set<nat>
  {
    if |cs| == 0 then {} else {Rank(cs[0])} + Kinds(cs[1..])
  }

  lemma {:induction false} KindsAppend(cs: seq<Clause>, c: Clause)
    ensures Kinds(cs + [c]) == Kinds(cs) + {Rank(c)}
  {
    if |cs| == 0 {
      assert cs + [c] == [c];
    } else {
      assert (cs + [c])[1..] == cs[1..] + [c];
      KindsAppend(cs[1..], c);
    }
  }

  lemma {:induction false} KindsMembers(cs: seq<Clause>, k: nat)
    ensures k in Kinds(cs) <==> exists c :: c in cs && Rank(c) == k
  {
    if |cs| > 0 {
      KindsMembers(cs[1..], k);
      assert forall c :: c in cs <==> c == cs[0] || c in cs[1..];
    }
  }

  /** The builder's working state: clauses so far, arguments so far, and
      the next placeholder number (`argCount` in the Go code). */
  datatype Builder = Builder(clauses: seq<Clause>, args: seq<Arg>, argCount: nat)

  /** What holds between the builder's steps: the counter is one past the
      argument count, placeholders so far are `$1..$n`, clause kinds are in
      the fixed order and all below `bound`, and every clause is bound to
      the filter's value. */
  predicate Inv(f: QueryFilter, b: Builder, bound: nat) {
    && b.argCount == |b.args| + 1
    && Numbered(Query(b.clauses, b.args))
    && Ordered(b.clauses)
    && (forall c :: c in b.clauses ==> Rank(c) < bound)
    && (forall c :: c in b.clauses ==> BindsFilter(f, Query(b.clauses, b.args), c))
  }

  /** The builder after appending `c` and, unless it is the ordering
      clause, binding the filter's value to it. */
  function Append(f: QueryFilter, b: Builder, c: Clause): Builder
  {
    if c.OrderByTimestampDesc? then Builder(b.clauses + [c], b.args, b.argCount)
    else Builder(b.clauses + [c], b.args + [ArgFor(f, Rank(c))], b.argCount + 1)
  }

  /** One step of the builder: when `cond` holds, append `c`; otherwise
      leave the builder alone. */
  function Step(f: QueryFilter, b: Builder, cond: bool, c: Clause): Builder
  {
    if cond then Append(f, b, c) else b
  }

  lemma StepKeepsInv(f: QueryFilter, b: Builder, cond: bool, c: Clause)
    requires Inv(f, b, Rank(c))
    requires !c.OrderByTimestampDesc? ==> c.p == b.argCount
    ensures Inv(f, Step(f, b, cond, c), Rank(c) + 1)
    ensures Rank(c) in Kinds(Step(f, b, cond, c).clauses) <==> cond
    ensures forall k: nat :: k != Rank(c) ==> (k in Kinds(Step(f, b, cond, c).clauses) <==> k in Kinds(b.clauses))
  {
    KindsMembers(b.clauses, Rank(c));
    if cond {
      AppendOrdered(f, b, c);
      AppendBinds(f, b, c);
      AppendNumbered(f, b, c);
      KindsAppend(b.clauses, c);
    }
  }

  lemma AppendOrdered(f: QueryFilter, b: Builder, c: Clause)
    requires Ordered(b.clauses)
    requires forall d :: d in b.clauses ==> Rank(d) < Rank(c)
    ensures Ordered(Append(f, b, c).clauses)
    ensures forall d :: d in Append(f, b, c).clauses ==> Rank(d) < Rank(c) + 1
  {
    var cs := Append(f, b, c).clauses;
    assert cs == b.clauses + [c];
    forall i, j | 0 <= i < j < |cs| ensures Rank(cs[i]) < Rank(cs[j]) {
      assert cs[i] == b.clauses[i] && b.clauses[i] in b.clauses;
      if j < |b.clauses| {
        assert cs[j] == b.clauses[j];
      }
    }
  }

  lemma AppendBinds(f: QueryFilter, b: Builder, c: Clause)
    requires b.argCount == |b.args| + 1
    requires !c.OrderByTimestampDesc? ==> c.p == b.argCount
    requires forall d :: d in b.clauses ==> BindsFilter(f, Query(b.clauses, b.args), d)
    ensures forall d :: d in Append(f, b, c).clauses ==> BindsFilter(f, Query(Append(f, b, c).clauses, Append(f, b, c).args), d)
  {
    var r := Append(f, b, c);
    assert r.args[..|b.args|] == b.args;
    forall d | d in r.clauses ensures BindsFilter(f, Query(r.clauses, r.args), d) {
      if d != c {
        assert d in b.clauses;
        assert BindsFilter(f, Query(b.clauses, b.args), d);
      }
    }
  }

  lemma AppendNumbered(f: QueryFilter, b: Builder, c: Clause)
    requires b.argCount == |b.args| + 1
    requires Numbered(Query(b.clauses, b.args))
    requires !c.OrderByTimestampDesc? ==> c.p == b.argCount
    ensures Append(f, b, c).argCount == |Append(f, b, c).args| + 1
    ensures Numbered(Query(Append(f, b, c).clauses, Append(f, b, c).args))
  {
    ParamsAppend(b.clauses, c);
  }

  /** Whether the filter asks for the clause kind of rank `k`. */
  predicate Wanted(f: QueryFilter, k: nat) {
    if k == 0 then f.service != ""
    else if k == 1 then f.level != ""
    else if k == 2 then f.startTime.Some?
    else if k == 3 then f.endTime.Some?
    else if k == 4 then true
    else if k == 5 then f.limit > 0
    else if k == 6 then f.offset > 0
    else false
  }

  /** The clause of rank `k` numbered with placeholder `p`. */
  function ClauseOf(k: nat, p: nat): (c: Clause)
    requires k < 7
    ensures Rank(c) == k
    ensures !c.OrderByTimestampDesc? ==> c.p == p
  {
    if k == 0 then ServiceEq(p)
    else if k == 1 then LevelEq(p)
    else if k == 2 then TimeAtLeast(p)
    else if k == 3 then TimeAtMost(p)
    else if k == 4 then OrderByTimestampDesc
    else if k == 5 then Limit(p)
    else Offset(p)
  }

  /** The builder's steps from rank `k` on: the Go code's seven `if`
      blocks (the ordering clause unconditional) taken in order. */
  function Steps(f: QueryFilter, b: Builder, k: nat): Builder
    decreases 7 - k
  {
    if k >= 7 then b
    else Steps(f, Step(f, b, Wanted(f, k), ClauseOf(k, b.argCount)), k + 1)
  }

  lemma {:induction false} StepsKeepInv(f: QueryFilter, b: Builder, k: nat)
    requires k <= 7
    requires Inv(f, b, k)
    requires forall j: nat :: j in Kinds(b.clauses) <==> j < k && Wanted(f, j)
    ensures Inv(f, Steps(f, b, k), 7)
    ensures forall j: nat :: j in Kinds(Steps(f, b, k).clauses) <==> j < 7 && Wanted(f, j)
    decreases 7 - k
  {
    if k < 7 {
      var c := ClauseOf(k, b.argCount);
      StepKeepsInv(f, b, Wanted(f, k), c);
      StepsKeepInv(f, Step(f, b, Wanted(f, k), c), k + 1);
    }
  }

  /** Builds the query for a filter, step for step as the Go code does:
      placeholders are `$1..$n` with `n` the number of arguments, clause
      kinds follow the fixed order, every clause is bound to the filter's
      value, and a kind is present exactly when the filter asks for it
      (the ordering clause always). */
  function BuildQuery(f: QueryFilter): (q: Query)
    ensures Numbered(q)
    ensures Ordered(q.clauses)
    ensures forall c :: c in q.clauses ==> BindsFilter(f, q, c)
    ensures forall k: nat :: k in Kinds(q.clauses) <==> k < 7 && Wanted(f, k)
  {
    StepsKeepInv(f, Builder([], [], 1), 0);
    var b := Steps(f, Builder([], [], 1), 0);
    Query(b.clauses, b.args)
  }

  /** The clause list depends only on which kinds the filter asks for. */
  lemma {:induction false} StepsShapeOnly(f1: QueryFilter, f2: QueryFilter, b1: Builder, b2: Builder, k: nat)
    requires b1.clauses == b2.clauses && b1.argCount == b2.argCount
    requires forall j: nat :: Wanted(f1, j) == Wanted(f2, j)
    ensures Steps(f1, b1, k).clauses == Steps(f2, b2, k).clauses
    decreases 7 - k
  {
    if k < 7 {
      var c := ClauseOf(k, b1.argCount);
      assert Step(f1, b1, Wanted(f1, k), c).argCount == Step(f2, b2, Wanted(f2, k), c).argCount;
      StepsShapeOnly(f1, f2, Step(f1, b1, Wanted(f1, k), c), Step(f2, b2, Wanted(f2, k), c), k + 1);
    }
  }

  /** Injection safety: the SQL text is a function of which filter fields
      are set, never of their values, which travel only as arguments. */
  lemma TextIndependentOfValues(f1: QueryFilter, f2: QueryFilter)
    requires (f1.service == "") == (f2.service == "")
    requires (f1.level == "") == (f2.level == "")
    requires f1.startTime.Some? == f2.startTime.Some?
    requires f1.endTime.Some? == f2.endTime.Some?
    requires (f1.limit > 0) == (f2.limit > 0)
    requires (f1.offset > 0) == (f2.offset > 0)
    ensures Render(BuildQuery(f1)) == Render(BuildQuery(f2))
  {
    StepsShapeOnly(f1, f2, Builder([], [], 1), Builder([], [], 1), 0);
  }

  /** An all-zero filter yields a valid, unbounded query with no arguments:
      the bare select with its ordering clause. */
  lemma ZeroFilterQuery(f: QueryFilter)
    requires f.service == "" && f.level == "" && f.startTime.None? && f.endTime.None?
    requires f.limit <= 0 && f.offset <= 0
    ensures BuildQuery(f) == Query([OrderByTimestampDesc], [])
    ensures Render(BuildQuery(f)) == SelectAll + " ORDER BY timestamp DESC"
  {
    ZeroFilterSteps(f);
    assert ClausesText([OrderByTimestampDesc]) == ClauseText(OrderByTimestampDesc) + ClausesText([]);
  }

  /** The builder's steps for an all-zero filter: only the ordering clause. */
  lemma ZeroFilterSteps(f: QueryFilter)
    requires f.service == "" && f.level == "" && f.startTime.None? && f.endTime.None?
    requires f.limit <= 0 && f.offset <= 0
    ensures Steps(f, Builder([], [], 1), 0) == Builder([OrderByTimestampDesc], [], 1)
  {
    var b0 := Builder([], [], 1);
    var b5 := Step(f, b0, true, OrderByTimestampDesc);
    assert Steps(f, b0, 0) == Steps(f, b0, 1);
    assert Steps(f, b0, 1) == Steps(f, b0, 2);
    assert Steps(f, b0, 2) == Steps(f, b0, 3);
    assert Steps(f, b0, 3) == Steps(f, b0, 4);
    assert Steps(f, b0, 4) == Steps(f, b5, 5);
    assert Steps(f, b5, 5) == Steps(f, b5, 6);
    assert Steps(f, b5, 6) == Steps(f, b5, 7);
  }

  /** A filter on service and level with a limit: placeholders `$1..$3`. */
  lemma ServiceLevelLimitQuery(f: QueryFilter)
    requires f.service != "" && f.level != "" && f.startTime.None? && f.endTime.None?
    requires f.limit > 0 && f.offset <= 0
    ensures BuildQuery(f)
         == Query([ServiceEq(1), LevelEq(2), OrderByTimestampDesc, Limit(3)],
                  [StrArg(f.service), StrArg(f.level), IntArg(f.limit)])
  {
    var b0 := Builder([], [], 1);
    var b1 := Step(f, b0, true, ServiceEq(1));
    var b2 := Step(f, b1, true, LevelEq(2));
    var b5 := Step(f, b2, true, OrderByTimestampDesc);
    var b6 := Step(f, b5, true, Limit(3));
    assert Steps(f, b0, 0) == Steps(f, b1, 1) == Steps(f, b2, 2) == Steps(f, b2, 3) == Steps(f, b2, 4);
    assert Steps(f, b2, 4) == Steps(f, b5, 5) == Steps(f, b6, 6) == Steps(f, b6, 7) == b6;
  }
}

=== FILE: query_semantics.dfy ===
/** What a `logs` query returns.  `Reference` is the intended meaning of a
    `QueryFilter` over the stored rows (filter, newest first, then offset
    and limit); `Eval` is what the database does with a built query's
    clauses and bound arguments.  `BuiltQueryMeansFilter` shows the builder
    produces a query whose evaluation is the reference answer. */
module QuerySemantics {
  import opened Base
  import opened StorageTypes
  import opened QueryBuilder

  /** A row of the `logs` table: the entry's columns, with `fields` held as
      the JSON text the driver wrote. */
  datatype Row = Row(
    id: int,
    timestamp: Time,
    service: string,
    level: string,
    message: string,
    fieldsJson: Bytes,
    createdAt: Time)

  /** Whether a row satisfies every set part of the filter (an empty
      service or level and an absent bound do not constrain). */
  predicate Matches(f: QueryFilter, r: Row) {
    && (f.service == "" || r.service == f.service)
    && (f.level == "" || r.level == f.level)
    && (f.startTime.None? || r.timestamp.nanos >= f.startTime.value.nanos)
    && (f.endTime.None? || r.timestamp.nanos <= f.endTime.value.nanos)
  }

  /** The matching rows, in table order. */
  function FilterRows(f: QueryFilter, rows: seq<Row>): (r: seq<Row>)
    ensures |r| <= |rows|
    ensures forall x :: x in r ==> x in rows && Matches(f, x)
    ensures forall x :: x in rows && Matches(f, x) ==> x in r
    ensures multiset(r) <= multiset(rows)
  {
    if |rows| == 0 then []
    else
      var rest := FilterRows(f, rows[1..]);
      assert rows == [rows[0]] + rows[1..];
      if Matches(f, rows[0]) then [rows[0]] + rest else rest
  }

  /** Newest first. */
  predicate SortedDesc(rows: seq<Row>) {
    forall i, j :: 0 <= i < j < |rows| ==> rows[i].timestamp.nanos >= rows[j].timestamp.nanos
  }

  /** Puts `r` in front of the first row that is not newer than it. */
  function InsertDesc(r: Row, rows: seq<Row>): (s: seq<Row>)
    requires SortedDesc(rows)
    ensures SortedDesc(s)
    ensures multiset(s) == multiset(rows) + multiset{r}
  {
    if |rows| == 0 || rows[0].timestamp.nanos <= r.timestamp.nanos then
      [r] + rows
    else
      var rest := InsertDesc(r, rows[1..]);
      assert rows == [rows[0]] + rows[1..];
      HeadDominates(rows[0], rows[1..], r, rest);
      [rows[0]] + rest
  }

  lemma HeadDominates(h: Row, tail: seq<Row>, r: Row, rest: seq<Row>)
    requires SortedDesc([h] + tail) && SortedDesc(rest)
    requires r.timestamp.nanos < h.timestamp.nanos
    requires multiset(rest) == multiset(tail) + multiset{r}
    ensures SortedDesc([h] + rest)
  {
    forall i | 0 <= i < |rest| ensures h.timestamp.nanos >= rest[i].timestamp.nanos {
      assert rest[i] in multiset(rest);
      if rest[i] != r {
        assert rest[i] in multiset(tail);
        var k :| 0 <= k < |tail| && tail[k] == rest[i];
        assert ([h] + tail)[0] == h && ([h] + tail)[k + 1] == tail[k];
      }
    }
    var s := [h] + rest;
    forall i, j | 0 <= i < j < |s| ensures s[i].timestamp.nanos >= s[j].timestamp.nanos {
      if i == 0 {
        assert s[j] == rest[j - 1];
      } else {
        assert s[i] == rest[i - 1] && s[j] == rest[j - 1];
      }
    }
  }

  /** `ORDER BY timestamp DESC`.  The database leaves rows with equal
      timestamps in no particular order; this model keeps them in table
      order. */
  function SortDesc(rows: seq<Row>): (s: seq<Row>)
    ensures SortedDesc(s)
    ensures multiset(s) == multiset(rows)
    ensures |s| == |rows|
  {
    if |rows| == 0 then []
    else
      assert rows == [rows[0]] + rows[1..];
      InsertDesc(rows[0], SortDesc(rows[1..]))
  }

  /** `OFFSET n`: skips the first `n` rows (all of them when fewer). */
  function Drop(rows: seq<Row>, n: nat): (r: seq<Row>)
    ensures |r| == if n <= |rows| then |rows| - n else 0
  {
    if n <= |rows| then rows[n..] else []
  }

  /** `LIMIT n`: keeps at most the first `n` rows. */
  function Take(rows: seq<Row>, n: nat): (r: seq<Row>)
    ensures |r| == if n <= |rows| then n else |rows|
  {
    if n <= |rows| then rows[..n] else rows
  }

  /** The intended answer to a filter: matching rows, newest first, then
      the offset and limit when they are positive. */
  function Reference(f: QueryFilter, rows: seq<Row>): seq<Row>
  {
    var sorted := SortDesc(FilterRows(f, rows));
    var skipped := if f.offset > 0 then Drop(sorted, f.offset) else sorted;
    if f.limit > 0 then Take(skipped, f.limit) else skipped
  }

  // ---- The database's side: evaluating clauses against bound arguments ----

  /** Each placeholder names an existing argument of the clause's type. */
  predicate WellTyped(q: Query) {
    forall c :: c in q.clauses && !c.OrderByTimestampDesc? ==>
      1 <= c.p <= |q.args| &&
      match c
      case ServiceEq(p) => q.args[p - 1].StrArg?
      case LevelEq(p) => q.args[p - 1].StrArg?
      case TimeAtLeast(p) => q.args[p - 1].TimeArg?
      case TimeAtMost(p) => q.args[p - 1].TimeArg?
      case Limit(p) => q.args[p - 1].IntArg?
      case Offset(p) => q.args[p - 1].IntArg?
      case OrderByTimestampDesc => true
  }

  /** Whether a row passes one clause; clauses that are not predicates pass
      every row. */
  predicate Holds(q: Query, c: Clause, r: Row)
    requires WellTyped(q) && c in q.clauses
  {
    match c
    case ServiceEq(p) => r.service == q.args[p - 1].s
    case LevelEq(p) => r.level == q.args[p - 1].s
    case TimeAtLeast(p) => r.timestamp.nanos >= q.args[p - 1].t.nanos
    case TimeAtMost(p) => r.timestamp.nanos <= q.args[p - 1].t.nanos
    case _ => true
  }

  predicate HoldsAll(q: Query, r: Row)
    requires WellTyped(q)
  {
    forall c :: c in q.clauses ==> Holds(q, c, r)
  }

  /** The `WHERE` part: rows passing every clause, in table order. */
  function Where(q: Query, rows: seq<Row>): seq<Row>
    requires WellTyped(q)
  {
    if |rows| == 0 then []
    else if HoldsAll(q, rows[0]) then [rows[0]] + Where(q, rows[1..])
    else Where(q, rows[1..])
  }

  /** The argument of the first `LIMIT` clause, if any. */
  function LimitArg(q: Query, cs: seq<Clause>): Option<int>
    requires WellTyped(q) && forall c :: c in cs ==> c in q.clauses
  {
    if |cs| == 0 then None
    else if cs[0].Limit? then Some(q.args[cs[0].p - 1].n)
    else LimitArg(q, cs[1..])
  }

  /** The argument of the first `OFFSET` clause, if any. */
  function OffsetArg(q: Query, cs: seq<Clause>): Option<int>
    requires WellTyped(q) && forall c :: c in cs ==> c in q.clauses
  {
    if |cs| == 0 then None
    else if cs[0].Offset? then Some(q.args[cs[0].p - 1].n)
    else OffsetArg(q, cs[1..])
  }

  /** The rows the database returns for a query, or `None` when it rejects
      it (a placeholder without a fitting argument, or a negative `LIMIT`
      or `OFFSET`, which PostgreSQL refuses).  `OFFSET` applies before
      `LIMIT` whatever their order in the text. */
  function Eval(q: Query, rows: seq<Row>): Option<seq<Row>>
  {
    if !WellTyped(q) then None
    else
      var sel := Where(q, rows);
      var ordered := if 4 in Kinds(q.clauses) then SortDesc(sel) else sel;
      var off := OffsetArg(q, q.clauses);
      var lim := LimitArg(q, q.clauses);
      if (off.Some? && off.value < 0) || (lim.Some? && lim.value < 0) then None
      else
        var skipped := if off.Some? then Drop(ordered, off.value) else ordered;
        Some(if lim.Some? then Take(skipped, lim.value) else skipped)
  }

  // ---- The builder agrees with the reference meaning ----

  lemma BuiltQueryWellTyped(f: QueryFilter)
    ensures WellTyped(BuildQuery(f))
  {
    var q := BuildQuery(f);
    forall c | c in q.clauses && !c.OrderByTimestampDesc?
      ensures 1 <= c.p <= |q.args|
    {
      assert BindsFilter(f, q, c);
    }
  }

  /** A kind present in the clause list is carried by some clause. */
  lemma KindWitness(cs: seq<Clause>, k: nat) returns (c: Clause)
    requires k in Kinds(cs)
    ensures c in cs && Rank(c) == k
  {
    KindsMembers(cs, k);
    c :| c in cs && Rank(c) == k;
  }

  lemma BuiltClausesMeanMatches(f: QueryFilter, r: Row)
    requires WellTyped(BuildQuery(f))
    ensures HoldsAll(BuildQuery(f), r) <==> Matches(f, r)
  {
    var q := BuildQuery(f);
    if HoldsAll(q, r) {
      if f.service != "" {
        var c := KindWitness(q.clauses, 0);
        assert BindsFilter(f, q, c) && Holds(q, c, r);
      }
      if f.level != "" {
        var c := KindWitness(q.clauses, 1);
        assert BindsFilter(f, q, c) && Holds(q, c, r);
      }
      if f.startTime.Some? {
        var c := KindWitness(q.clauses, 2);
        assert BindsFilter(f, q, c) && Holds(q, c, r);
      }
      if f.endTime.Some? {
        var c := KindWitness(q.clauses, 3);
        assert BindsFilter(f, q, c) && Holds(q, c, r);
      }
    }
    if Matches(f, r) {
      forall c | c in q.clauses ensures Holds(q, c, r) {
        KindsMembers(q.clauses, Rank(c));
        assert Rank(c) in Kinds(q.clauses);
        assert BindsFilter(f, q, c);
      }
    }
  }

  lemma {:induction false} WhereIsFilter(f: QueryFilter, rows: seq<Row>)
    requires WellTyped(BuildQuery(f))
    ensures Where(BuildQuery(f), rows) == FilterRows(f, rows)
  {
    if |rows| > 0 {
      BuiltClausesMeanMatches(f, rows[0]);
      WhereIsFilter(f, rows[1..]);
    }
  }

  lemma {:induction false} LimitArgOfBuilt(f: QueryFilter, cs: seq<Clause>)
    requires WellTyped(BuildQuery(f))
    requires forall c :: c in cs ==> c in BuildQuery(f).clauses
    ensures LimitArg(BuildQuery(f), cs).Some? <==> 5 in Kinds(cs)
    ensures LimitArg(BuildQuery(f), cs).Some? ==> LimitArg(BuildQuery(f), cs).value == f.limit
  {
    if |cs| > 0 {
      assert BindsFilter(f, BuildQuery(f), cs[0]);
      LimitArgOfBuilt(f, cs[1..]);
    }
  }

  lemma {:induction false} OffsetArgOfBuilt(f: QueryFilter, cs: seq<Clause>)
    requires WellTyped(BuildQuery(f))
    requires forall c :: c in cs ==> c in BuildQuery(f).clauses
    ensures OffsetArg(BuildQuery(f), cs).Some? <==> 6 in Kinds(cs)
    ensures OffsetArg(BuildQuery(f), cs).Some? ==> OffsetArg(BuildQuery(f), cs).value == f.offset
  {
    if |cs| > 0 {
      assert BindsFilter(f, BuildQuery(f), cs[0]);
      OffsetArgOfBuilt(f, cs[1..]);
    }
  }

  /** The database's answer to the built query is the reference answer to
      the filter, for every filter and every table: the builder never
      produces a query the database rejects, and the clauses it emits mean
      exactly the filter. */
  lemma BuiltQueryMeansFilter(f: QueryFilter, rows: seq<Row>)
    ensures Eval(BuildQuery(f), rows) == Some(Reference(f, rows))
  {
    var q := BuildQuery(f);
    BuiltQueryWellTyped(f);
    WhereIsFilter(f, rows);
    LimitArgOfBuilt(f, q.clauses);
    OffsetArgOfBuilt(f, q.clauses);
  }

  // ---- Properties of the reference answer ----

  lemma DropTakeSubset(rows: seq<Row>, off: nat, lim: nat)
    ensures forall x :: x in Drop(rows, off) ==> x in rows
    ensures forall x :: x in Take(rows, lim) ==> x in rows
    ensures SortedDesc(rows) ==> SortedDesc(Drop(rows, off)) && SortedDesc(Take(rows, lim))
  {
    if SortedDesc(rows) && off <= |rows| {
      var d := Drop(rows, off);
      forall i, j | 0 <= i < j < |d| ensures d[i].timestamp.nanos >= d[j].timestamp.nanos {
        assert d[i] == rows[off + i] && d[j] == rows[off + j];
      }
    }
  }

  /** Every answer row is a stored row that matches the filter; answers are
      newest first; a positive limit bounds their number; and with neither
      offset nor limit every matching row is returned, each as often as it
      is stored. */
  lemma ReferenceProperties(f: QueryFilter, rows: seq<Row>)
    ensures forall x :: x in Reference(f, rows) ==> x in rows && Matches(f, x)
    ensures SortedDesc(Reference(f, rows))
    ensures f.limit > 0 ==> |Reference(f, rows)| <= f.limit
    ensures f.limit <= 0 && f.offset <= 0 ==> multiset(Reference(f, rows)) == multiset(FilterRows(f, rows))
  {
    var sorted := SortDesc(FilterRows(f, rows));
    assert forall x :: x in sorted ==> x in multiset(FilterRows(f, rows));
    var skipped := if f.offset > 0 then Drop(sorted, f.offset) else sorted;
    DropTakeSubset(sorted, if f.offset > 0 then f.offset else 0, 0);
    DropTakeSubset(skipped, 0, if f.limit > 0 then f.limit else 0);
  }

  /** With no service, level or time constraint every stored row matches. */
  lemma {:induction false} WildcardKeepsAll(f: QueryFilter, rows: seq<Row>)
    requires f.service == "" && f.level == "" && f.startTime.None? && f.endTime.None?
    ensures FilterRows(f, rows) == rows
  {
    if |rows| > 0 {
      WildcardKeepsAll(f, rows[1..]);
      assert rows == [rows[0]] + rows[1..];
    }
  }

  /** No two rows share a timestamp. */
  predicate DistinctTimes(rows: seq<Row>) {
    forall i, j :: 0 <= i < j < |rows| ==> rows[i].timestamp != rows[j].timestamp
  }

  lemma DistinctTimesCountOnce(rows: seq<Row>)
    requires DistinctTimes(rows)
    ensures forall x :: multiset(rows)[x] <= 1
  {
    if |rows| > 0 {
      DistinctTimesCountOnce(rows[1..]);
      assert rows == [rows[0]] + rows[1..];
      assert rows[0] !in rows[1..] by {
        forall k | 0 <= k < |rows[1..]| ensures rows[1..][k] != rows[0] {
          assert rows[1..][k] == rows[k + 1];
        }
      }
    }
  }

  lemma TwoPositionsTwoCopies(s: seq<Row>, a: int, b: int)
    requires 0 <= a < b < |s| && s[a] == s[b]
    ensures multiset(s)[s[a]] >= 2
  {
    assert s == s[..b] + [s[b]] + s[b + 1..];
    assert s[a] in s[..b];
  }

  /** Taking some of the rows (in any order) keeps timestamps distinct. */
  lemma SubMultisetKeepsDistinctTimes(s: seq<Row>, t: seq<Row>)
    requires multiset(s) <= multiset(t) && DistinctTimes(t)
    ensures DistinctTimes(s)
  {
    DistinctTimesCountOnce(t);
    forall i, j | 0 <= i < j < |s| ensures s[i].timestamp != s[j].timestamp {
      assert s[i] in multiset(s) && s[j] in multiset(s);
      assert s[i] in t && s[j] in t;
      if s[i].timestamp == s[j].timestamp {
        var a :| 0 <= a < |t| && t[a] == s[i];
        var b :| 0 <= b < |t| && t[b] == s[j];
        assert a == b;
        TwoPositionsTwoCopies(s, i, j);
        assert false;
      }
    }
  }

  lemma SliceKeepsDistinctTimes(rows: seq<Row>, lo: int, hi: int)
    requires 0 <= lo <= hi <= |rows| && DistinctTimes(rows)
    ensures DistinctTimes(rows[lo..hi])
  {
    var d := rows[lo..hi];
    forall i, j | 0 <= i < j < |d| ensures d[i].timestamp != d[j].timestamp {
      assert d[i] == rows[lo + i] && d[j] == rows[lo + j];
    }
  }

  lemma ReferenceKeepsDistinctTimes(f: QueryFilter, rows: seq<Row>)
    requires DistinctTimes(rows)
    ensures DistinctTimes(Reference(f, rows))
  {
    var sorted := SortDesc(FilterRows(f, rows));
    SubMultisetKeepsDistinctTimes(sorted, rows);
    var skipped := if f.offset > 0 then Drop(sorted, f.offset) else sorted;
    if f.offset > 0 && f.offset <= |sorted| {
      SliceKeepsDistinctTimes(sorted, f.offset, |sorted|);
    }
    assert DistinctTimes(skipped);
    if f.limit > 0 && f.limit <= |skipped| {
      SliceKeepsDistinctTimes(skipped, 0, f.limit);
    }
  }

  /** When stored timestamps are distinct, the answer is strictly newest
      first. */
  lemma StrictlyDescendingWhenDistinct(f: QueryFilter, rows: seq<Row>)
    requires DistinctTimes(rows)
    ensures forall i, j :: 0 <= i < j < |Reference(f, rows)| ==>
              Reference(f, rows)[i].timestamp.nanos > Reference(f, rows)[j].timestamp.nanos
  {
    ReferenceKeepsDistinctTimes(f, rows);
    ReferenceProperties(f, rows);
    var res := Reference(f, rows);
    forall i, j | 0 <= i < j < |res| ensures res[i].timestamp.nanos > res[j].timestamp.nanos {
      assert res[i].timestamp != res[j].timestamp;
    }
  }
}

=== FILE: registry.dfy ===
/** The CLI's command registry (cli/core/registry.go): the root command,
    the verbosity flag and the level it selects. */
module Registry {
  import opened Base
  import opened Cobra
  import opened Logging

  /** `CommandRegistry`: the root command and the verbosity count. */
  datatype CommandRegistry = CommandRegistry(root: Command, verbosity: int)

  /** The persistent `--verbose`/`-v` counter every command inherits. */
  const VerboseFlag := Flag("verbose", "v", "count", "Increase verbosity (-v or -vv)")

  /** `NewCommandRegistry`: a root command named `name` with the given
      version and description, carrying the verbosity flag and no
      subcommands; the stored count starts at zero. */
  function NewCommandRegistry(name: string, description: string, version: string): (r: CommandRegistry)
    ensures r.root.use == name && r.root.version == version && r.root.short == description
    ensures r.root.persistentFlags == [VerboseFlag]
    ensures r.root.children == [] && !r.root.hidden
    ensures r.verbosity == 0
  {
    CommandRegistry(Command(name, version, description, "", false, [], [VerboseFlag], []), 0)
  }

  /** The level a count of `-v` flags selects: one, two and three select
      Info, Debug and Trace; none, and four or more, select Warn. */
  function VerbosityLevel(count: int): (l: Level)
    ensures l == Info <==> count == 1
    ensures l == Debug <==> count == 2
    ensures l == Trace <==> count == 3
    ensures l == Warn <==> count != 1 && count != 2 && count != 3
  {
    match count
    case 1 => Info
    case 2 => Debug
    case 3 => Trace
    case _ => Warn
  }

  /** More `-v` flags never make the output quieter, up to three. */
  lemma VerbosityRaisesDetail(count: int)
    requires 0 <= count < 3
    ensures Detail(VerbosityLevel(count)) < Detail(VerbosityLevel(count + 1))
  {
  }

  /** How much a level lets through: higher is chattier. */
  function Detail(l: Level): (n: nat)
    ensures n <= 6
  {
    match l
    case Panic => 0
    case Fatal => 1
    case Error => 2
    case Warn => 3
    case Info => 4
    case Debug => 5
    case Trace => 6
  }

  /** What the root's pre-run hook sets up: the level, and the working
      directory the command tree reads files under. */
  datatype RunContext = RunContext(level: Level, rootDir: string)

  /** The pre-run hook: pick the level from the count, then read the
      working directory, whose error aborts the command. */
  function PersistentPreRun(count: int, getwd: Result<string>): (res: Result<RunContext>)
    ensures getwd.Err? ==> res == Err(getwd.error)
    ensures getwd.Ok? ==> res == Ok(RunContext(VerbosityLevel(count), getwd.value))
  {
    match getwd
    case Err(err) => Err(err)
    case Ok(cwd) => Ok(RunContext(VerbosityLevel(count), cwd))
  }

  /** `GetMain`. */
  function GetMain(r: CommandRegistry): (c: Command)
    ensures c == r.root
  {
    r.root
  }

  /** `RegisterCommands`: every given command becomes a subcommand of the
      root, after those already there and in the given order. */
  function RegisterCommands(r: CommandRegistry, cmds: seq<Command>): (r': CommandRegistry)
    ensures r'.verbosity == r.verbosity
    ensures |r'.root.children| == |r.root.children| + |cmds|
    ensures r'.root.children[..|r.root.children|] == r.root.children
    ensures r'.root.children[|r.root.children|..] == cmds
    ensures r'.root.(children := r.root.children) == r.root
  {
    r.(root := AddCommands(r.root, cmds))
  }

  /** Registering in two calls is registering once with both lists, in
      call order. */
  lemma RegisterTwice(r: CommandRegistry, a: seq<Command>, b: seq<Command>)
    ensures RegisterCommands(RegisterCommands(r, a), b) == RegisterCommands(r, a + b)
  {
    var two := RegisterCommands(RegisterCommands(r, a), b);
    var one := RegisterCommands(r, a + b);
    assert two.root.children == r.root.children + a + b;
  }

  /** Every registered command is listed among the root's subcommands,
      which the library shows sorted by name. */
  lemma RegisteredAreListed(r: CommandRegistry, cmds: seq<Command>, c: Command)
    requires c in cmds
    ensures c in Commands(RegisterCommands(r, cmds).root)
  {
    var root := RegisterCommands(r, cmds).root;
    assert root.children == r.root.children + cmds;
    assert c in multiset(root.children);
  }
}

=== FILE: server.dfy ===
/** The worker's gRPC service (service/worker/server/server.go): wire
    events are turned into storage entries on the way in and storage
    entries into wire events on the way out, against any `Storage`. */
module Server {
  import opened Base
  import opened StorageTypes
  import opened Postgres

  /** The protocol's `LogEvent`: the timestamp travels as RFC 3339 text. */
  datatype LogEvent = LogEvent(
    timestamp: string,
    service: string,
    level: string,
    message: string,
    fields: Fields)

  datatype LogBatch = LogBatch(events: seq<LogEvent>)

  datatype SendLogsResponse = SendLogsResponse(ok: bool)

  datatype QueryRequest = QueryRequest(service: string, level: string)

  /** `LogAggregatorServer`: the storage it was built with (None for a nil
      interface), that storage's current state, and the RFC 3339 codec.
      The logger is not modelled. */
  datatype LogAggregatorServer<!S> = LogAggregatorServer(
    storage: Option<Storage<S>>,
    backend: S,
    codec: TimeCodec)

  /** What `SendLogs` answers, and the storage state it leaves behind. */
  datatype Sent<S> = Sent(response: SendLogsResponse, err: Option<Error>, backend: S)

  /** The largest answer `QueryLogs` asks storage for. */
  const DefaultQueryLimit := 1000

  /** The event time an entry gets: the parsed timestamp, or the server's
      clock reading when the text does not parse. */
  function EventTime(codec: TimeCodec, now: Time, text: string): (t: Time)
    ensures codec.parse(text).Some? ==> t == codec.parse(text).value
    ensures codec.parse(text).None? ==> t == now
  {
    match codec.parse(text)
    case Some(t) => t
    case None => now
  }

  /** One wire event as the entry handed to storage; the id and creation
      time are left for the backend to assign. */
  function ToEntry(codec: TimeCodec, now: Time, e: LogEvent): (x: LogEntry)
    ensures x.id == 0 && x.createdAt == ZeroTime
    ensures codec.parse(e.timestamp).Some? ==> codec.parse(e.timestamp) == Some(x.timestamp)
  {
    NewEntry(EventTime(codec, now, e.timestamp), e.service, e.level, e.message, e.fields)
  }

  /** The server's UTC clock while a batch is converted: `clock(i)` is what
      the clock reads when the `i`-th event's timestamp fails to parse, so
      different events of one batch may get different readings. */
  type Clock = nat -> Time

  /** The entries built for a batch, one per event, in order, each
      unparsable timestamp replaced by the clock reading taken at its own
      event. */
  function ToEntries(codec: TimeCodec, clock: Clock, events: seq<LogEvent>): (es: seq<LogEntry>)
    ensures |es| == |events|
    ensures forall i :: 0 <= i < |events| ==> es[i] == ToEntry(codec, clock(i), events[i])
  {
    if |events| == 0 then []
    else
      var n := |events| - 1;
      ToEntries(codec, clock, events[..n]) + [ToEntry(codec, clock(n), events[n])]
  }

  /** One stored entry as the wire event returned to the caller. */
  function ToEvent(codec: TimeCodec, e: LogEntry): (ev: LogEvent)
    ensures RoundTrips(codec) && InRfc3339Range(e.timestamp) ==>
              forall now :: ToEntry(codec, now, ev) == NewEntry(e.timestamp, e.service, e.level, e.message, e.fields)
  {
    LogEvent(codec.format(e.timestamp), e.service, e.level, e.message, e.fields)
  }

  function ToEvents(codec: TimeCodec, es: seq<LogEntry>): (events: seq<LogEvent>)
    ensures |events| == |es|
    ensures forall i :: 0 <= i < |es| ==> events[i] == ToEvent(codec, es[i])
  {
    if |es| == 0 then []
    else [ToEvent(codec, es[0])] + ToEvents(codec, es[1..])
  }

  /** An event and the entry made from it agree on everything the event
      says except the timestamp's spelling; the backend-assigned id and
      creation time are left at their zero values. */
  lemma ToEntryCopies(codec: TimeCodec, now: Time, e: LogEvent)
    ensures var x := ToEntry(codec, now, e);
      && x.service == e.service && x.level == e.level
      && x.message == e.message && x.fields == e.fields
      && x.id == 0 && x.createdAt == ZeroTime
      && (codec.parse(e.timestamp).Some? ==> x.timestamp == codec.parse(e.timestamp).value)
      && (codec.parse(e.timestamp).None? ==> x.timestamp == now)
  {
  }

  /** Timestamps that parse never depend on the clock: only events whose
      text does not parse pick up a clock reading. */
  lemma ToEntriesClockOnlyForUnparsed(codec: TimeCodec, clock1: Clock, clock2: Clock, events: seq<LogEvent>)
    requires forall i :: 0 <= i < |events| ==> codec.parse(events[i].timestamp).Some?
    ensures ToEntries(codec, clock1, events) == ToEntries(codec, clock2, events)
  {
  }

  /** The instants RFC 3339 can write: years 0000 through 9999 UTC. Go's
      RFC3339Nano formatter writes a five-digit or negative year for
      instants outside this range, and its parser refuses that text. */
  predicate InRfc3339Range(t: Time) {
    -62167219200 * 1000000000 <= t.nanos < 253402300800 * 1000000000
  }

  /** Every entry's timestamp lies in the range RFC 3339 can write. */
  predicate TimestampsInRange(es: seq<LogEntry>) {
    forall i :: 0 <= i < |es| ==> InRfc3339Range(es[i].timestamp)
  }

  /** The codec reads back what it writes, for every instant RFC 3339 can
      write. */
  ghost predicate RoundTrips(codec: TimeCodec) {
    forall t :: InRfc3339Range(t) ==> codec.parse(codec.format(t)) == Some(t)
  }

  /** Turning entries into events and back gives the entries again, up to
      the backend-assigned id and creation time, whenever the codec reads
      back its own output. */
  lemma EventsBackToEntries(codec: TimeCodec, clock: Clock, es: seq<LogEntry>)
    requires RoundTrips(codec) && TimestampsInRange(es)
    ensures ToEntries(codec, clock, ToEvents(codec, es)) ==
            seq(|es|, i requires 0 <= i < |es| =>
                  NewEntry(es[i].timestamp, es[i].service, es[i].level, es[i].message, es[i].fields))
  {
  }

  /** `SendLogs`: an empty batch is acknowledged without touching storage;
      otherwise every event becomes an entry (an unparsable timestamp
      replaced by the server's UTC clock as read at that event) and the whole batch goes
      to `InsertLogs` in one call, whose error decides the answer.  The
      storage's own clock during that call is `storeNow`.  A nil storage
      with a non-empty batch is a nil dereference in the source, hence the
      precondition. */
  function SendLogs<S>(srv: LogAggregatorServer<S>, clock: Clock, storeNow: Time, batch: LogBatch): (out: Sent<S>)
    requires |batch.events| > 0 ==> srv.storage.Some?
    ensures |batch.events| == 0 ==> out == Sent(SendLogsResponse(true), None, srv.backend)
    ensures |batch.events| > 0 ==>
              var w := srv.storage.value.insertLogs(srv.backend, storeNow, ToEntries(srv.codec, clock, batch.events));
              && out.backend == w.state
              && out.err == w.err
              && (out.response.ok <==> w.err.None?)
  {
    if |batch.events| == 0 then Sent(SendLogsResponse(true), None, srv.backend)
    else
      var entries := ToEntries(srv.codec, clock, batch.events);
      var w := srv.storage.value.insertLogs(srv.backend, storeNow, entries);
      if w.err.Some? then Sent(SendLogsResponse(false), w.err, w.state)
      else Sent(SendLogsResponse(true), None, w.state)
  }

  /** The filter `QueryLogs` asks storage for: the request's service and
      level, no time bounds, no offset, and the default limit. */
  function RequestFilter(req: QueryRequest): (f: QueryFilter)
    ensures f.service == req.service && f.level == req.level
    ensures f.startTime.None? && f.endTime.None?
    ensures f.limit == DefaultQueryLimit && f.offset == 0
  {
    QueryFilter(req.service, req.level, None, None, DefaultQueryLimit, 0)
  }

  /** `QueryLogs`: storage's answer, one event per entry in the same order,
      or storage's error as it is. */
  function QueryLogs<S>(srv: LogAggregatorServer<S>, req: QueryRequest): (res: Result<LogBatch>)
    requires srv.storage.Some?
    ensures srv.storage.value.queryLogs(srv.backend, RequestFilter(req)).Err? ==>
              res == Err(srv.storage.value.queryLogs(srv.backend, RequestFilter(req)).error)
    ensures srv.storage.value.queryLogs(srv.backend, RequestFilter(req)).Ok? ==>
              var es := srv.storage.value.queryLogs(srv.backend, RequestFilter(req)).value;
              && res.Ok? && |res.value.events| == |es|
              && forall i :: 0 <= i < |es| ==>
                   && res.value.events[i].service == es[i].service
                   && res.value.events[i].level == es[i].level
                   && res.value.events[i].message == es[i].message
                   && res.value.events[i].fields == es[i].fields
                   && res.value.events[i].timestamp == srv.codec.format(es[i].timestamp)
  {
    match srv.storage.value.queryLogs(srv.backend, RequestFilter(req))
    case Err(err) => Err(err)
    case Ok(es) => Ok(LogBatch(ToEvents(srv.codec, es)))
  }

  /** `Close`: storage's close result, or no error without a storage. */
  function Close<S>(srv: LogAggregatorServer<S>): (err: Option<Error>)
    ensures srv.storage.None? ==> err.None?
    ensures srv.storage.Some? ==> err == srv.storage.value.close(srv.backend)
  {
    if srv.storage.Some? then srv.storage.value.close(srv.backend) else None
  }

  // ---- The server against a recording test double ----

  /** The calls a recording storage has seen, newest last. */
  datatype Calls = Calls(
    inserted: seq<seq<LogEntry>>,
    queried: seq<QueryFilter>,
    closed: nat)

  /** A storage that records its calls and answers with fixed results, as
      the service's tests configure their mock. */
  function MockStorage(insertErr: Option<Error>, answer: Result<seq<LogEntry>>, closeErr: Option<Error>): Storage<Calls> {
    Storage(
      (c: Calls, now: Time, e: LogEntry) => Written(c.(inserted := c.inserted + [[e]]), insertErr),
      (c: Calls, now: Time, es: seq<LogEntry>) => Written(c.(inserted := c.inserted + [es]), insertErr),
      (c: Calls, f: QueryFilter) => answer,
      (c: Calls, now: Time, olderThan: Duration) => Deleted(c, 0, None),
      (c: Calls) => closeErr,
      (c: Calls) => None)
  }

  /** Against the recording storage, an empty batch makes no storage call
      and a non-empty one makes exactly one, carrying one entry per event
      in order; the answer is `ok` exactly when the storage succeeded, and
      a failure is handed back unchanged. */
  lemma SendLogsCallsInsertOnce(insertErr: Option<Error>, answer: Result<seq<LogEntry>>, closeErr: Option<Error>,
                                c: Calls, codec: TimeCodec, clock: Clock, storeNow: Time, batch: LogBatch)
    ensures var srv := LogAggregatorServer(Some(MockStorage(insertErr, answer, closeErr)), c, codec);
      var out := SendLogs(srv, clock, storeNow, batch);
      && (|batch.events| == 0 ==> out.backend == c && out.response.ok && out.err.None?)
      && (|batch.events| > 0 ==>
            && out.backend.inserted == c.inserted + [ToEntries(codec, clock, batch.events)]
            && |out.backend.inserted[|c.inserted|]| == |batch.events|
            && out.err == insertErr
            && (out.response.ok <==> insertErr.None?))
  {
  }

  /** Against any storage, a batch with at least one event is acknowledged
      exactly when storage accepted it. */
  lemma SendLogsAcknowledges<S>(srv: LogAggregatorServer<S>, clock: Clock, storeNow: Time, batch: LogBatch)
    requires srv.storage.Some?
    ensures SendLogs(srv, clock, storeNow, batch).response.ok <==> SendLogs(srv, clock, storeNow, batch).err.None?
  {
  }

  // ---- The server over the PostgreSQL backend ----

  /** Events accepted by a server over the PostgreSQL backend are in the
      table afterwards: one new row per event, in batch order, holding the
      event's service, level and message and the parsed timestamp (or the
      server's clock at that event when the text did not parse); rejected batches leave
      the rows as they were. */
  lemma SendLogsStoresEvents(db: Db, codec: TimeCodec, clock: Clock, storeNow: Time, batch: LogBatch)
    ensures var srv := LogAggregatorServer(Some(PostgresStorage()), db, codec);
      var out := SendLogs(srv, clock, storeNow, batch);
      && (out.err.Some? ==> out.backend.table.rows == db.table.rows)
      && (out.err.None? ==>
            && |out.backend.table.rows| == |db.table.rows| + |batch.events|
            && out.backend.table.rows[..|db.table.rows|] == db.table.rows
            && forall i :: 0 <= i < |batch.events| ==>
                 var r := out.backend.table.rows[|db.table.rows| + i];
                 && r.service == batch.events[i].service
                 && r.level == batch.events[i].level
                 && r.message == batch.events[i].message
                 && r.timestamp == EventTime(codec, clock(i), batch.events[i].timestamp))
  {
    var entries := ToEntries(codec, clock, batch.events);
    InsertLogsAtomic(db.driver, db.table, storeNow, entries);
    var w := InsertLogs(db.driver, db.table, storeNow, entries);
    var out := SendLogs(LogAggregatorServer(Some(PostgresStorage()), db, codec), clock, storeNow, batch);
    if |batch.events| == 0 {
      InsertLogsEmpty(db.driver, db.table, storeNow);
    } else {
      assert out.backend.table == w.state && out.err == w.err;
      if out.err.None? {
        forall i | 0 <= i < |batch.events|
          ensures var r := out.backend.table.rows[|db.table.rows| + i];
            && r.service == batch.events[i].service
            && r.level == batch.events[i].level
            && r.message == batch.events[i].message
            && r.timestamp == EventTime(codec, clock(i), batch.events[i].timestamp)
        {
          assert Stores(db.driver, entries[i], storeNow, w.state.rows[|db.table.rows| + i]);
        }
      }
    }
  }

  /** A query through a server over the PostgreSQL backend answers at most
      the default limit of events, each with the requested service and
      level when those are given. */
  lemma QueryLogsBounded(db: Db, codec: TimeCodec, req: QueryRequest)
    ensures var res := QueryLogs(LogAggregatorServer(Some(PostgresStorage()), db, codec), req);
      res.Ok? ==>
      var events := res.value.events;
      && |events| <= DefaultQueryLimit
      && forall i :: 0 <= i < |events| ==>
           && (req.service == "" || events[i].service == req.service)
           && (req.level == "" || events[i].level == req.level)
  {
    var f := RequestFilter(req);
    assert PostgresStorage().queryLogs(db, f) == Postgres.QueryLogs(db.driver, db.table, f);
    QueryLogsAnswer(db.driver, db.table, f);
  }
}

=== FILE: storage_types.dfy ===
/** The storage package's value types and its `Storage` interface
    (service/worker/storage/storage.go). */
module StorageTypes {
  import opened Base

  /** A log entry's free-form key/value fields. A nil Go map and an empty
      one are both the empty map here. */
  type Fields = map<string, string>

  /** `LogEntry`: `timestamp` is the caller's event time; `id` and
      `createdAt` are assigned by the backend when the row is written and
      are left at their zero values by the callers that build entries. */
  datatype LogEntry = LogEntry(
    id: int,
    timestamp: Time,
    service: string,
    level: string,
    message: string,
    fields: Fields,
    createdAt: Time)

  /** An entry as a caller builds it: a Go struct literal that sets only the
      event's own fields, so `ID` is 0 and `CreatedAt` is the zero time. */
  function NewEntry(timestamp: Time, service: string, level: string, message: string, fields: Fields): (e: LogEntry)
    ensures e.id == 0 && e.createdAt == ZeroTime
    ensures e.timestamp == timestamp && e.service == service && e.level == level
    ensures e.message == message && e.fields == fields
  {
    LogEntry(0, timestamp, service, level, message, fields, ZeroTime)
  }

  /** `QueryFilter`: the empty string is the wildcard for `service` and
      `level`; an absent bound leaves that side of the time range open;
      `limit` and `offset` take effect only when positive. */
  datatype QueryFilter = QueryFilter(
    service: string,
    level: string,
    startTime: Option<Time>,
    endTime: Option<Time>,
    limit: int,
    offset: int)

  /** The outcome of a write: the backend state afterwards and the error. */
  datatype Written<S> = Written(state: S, err: Option<Error>)

  /** The outcome of `DeleteOldLogs`: state afterwards, count and error. */
  datatype Deleted<S> = Deleted(state: S, count: int, err: Option<Error>)

  /** The `Storage` interface: exactly its six operations, over a backend
      state `S` the caller cannot see into.  The `Time` argument of the
      writes is the backend's clock reading during the call; the request
      context is not modelled. */
  datatype Storage<!S> = Storage(
    insertLog: (S, Time, LogEntry) -> Written<S>,
    insertLogs: (S, Time, seq<LogEntry>) -> Written<S>,
    queryLogs: (S, QueryFilter) -> Result<seq<LogEntry>>,
    deleteOldLogs: (S, Time, Duration) -> Deleted<S>,
    close: S -> Option<Error>,
    healthCheck: S -> Option<Error>)
}

=== FILE: text.dfy ===
/** String helpers the Go code takes from `fmt`, `strings` and `strconv`. */
module Text {

  predicate IsDigit(c: char) {
    '0' <= c <= '9'
  }

  /** Decimal rendering of a natural number, as `%d` prints it. */
  function NatToString(n: nat): (s: string)
    ensures |s| >= 1
    ensures forall i :: 0 <= i < |s| ==> IsDigit(s[i])
    decreases n
  {
    var d := [('0' as int + n % 10) as char];
    if n < 10 then d else NatToString(n / 10) + d
  }

  /** `strings.Repeat(s, n)`. */
  function Repeat(s: string, n: nat): (r: string)
    ensures |r| == |s| * n
  {
    if n == 0 then "" else s + Repeat(s, n - 1)
  }

  /** The concatenation of a sequence of strings, in order. */
  function Flatten(parts: seq<string>): string
  {
    if |parts| == 0 then "" else parts[0] + Flatten(parts[1..])
  }

  lemma FlattenAppend(a: seq<string>, b: seq<string>)
    ensures Flatten(a + b) == Flatten(a) + Flatten(b)
  {
    if |a| == 0 {
      assert a + b == b;
    } else {
      assert (a + b)[1..] == a[1..] + b;
      FlattenAppend(a[1..], b);
    }
  }

  /** `strings.HasPrefix(s, prefix)`: a raw, character-wise prefix test. */
  predicate HasPrefix(s: string, prefix: string) {
    |prefix| <= |s| && s[..|prefix|] == prefix
  }

  function ToLowerChar(c: char): char {
    if 'A' <= c <= 'Z' then (c as int + 32) as char else c
  }

  /** `strings.ToLower`, restricted to the ASCII letters. */
  function ToLower(s: string): (r: string)
    ensures |r| == |s|
    ensures forall i :: 0 <= i < |s| ==> r[i] == ToLowerChar(s[i])
  {
    seq(|s|, i requires 0 <= i < |s| => ToLowerChar(s[i]))
  }

  /** `strings.Join(parts, [sep])`. */
  function Join(parts: seq<string>, sep: char): string
  {
    if |parts| == 0 then ""
    else if |parts| == 1 then parts[0]
    else parts[0] + [sep] + Join(parts[1..], sep)
  }

  /** `strings.Split(s, [sep])`: the maximal runs between separators. */
  function Split(s: string, sep: char): (r: seq<string>)
    ensures |r| >= 1
    decreases |s|
  {
    if |s| == 0 then [""]
    else if s[0] == sep then [""] + Split(s[1..], sep)
    else
      var rest := Split(s[1..], sep);
      [[s[0]] + rest[0]] + rest[1..]
  }

  lemma {:induction false} SplitNoSeparator(s: string, sep: char)
    requires sep !in s
    ensures Split(s, sep) == [s]
    decreases |s|
  {
    if |s| > 0 {
      assert sep !in s[1..] by {
        forall i | 0 <= i < |s[1..]| ensures s[1..][i] != sep {
          assert s[1..][i] == s[i + 1];
        }
      }
      SplitNoSeparator(s[1..], sep);
      assert [s[0]] + s[1..] == s;
    }
  }

  lemma {:induction false} SplitAtSeparator(a: string, sep: char, b: string)
    requires sep !in a
    ensures Split(a + [sep] + b, sep) == [a] + Split(b, sep)
    decreases |a|
  {
    var s := a + [sep] + b;
    if |a| == 0 {
      assert s == [sep] + b;
      assert s[1..] == b;
    } else {
      assert s[0] == a[0];
      assert s[1..] == a[1..] + [sep] + b;
      assert sep !in a[1..] by {
        forall i | 0 <= i < |a[1..]| ensures a[1..][i] != sep {
          assert a[1..][i] == a[i + 1];
        }
      }
      SplitAtSeparator(a[1..], sep, b);
      assert [a[0]] + a[1..] == a;
    }
  }

  /** Splitting undoes joining whenever no part contains the separator. */
  lemma {:induction false} SplitJoin(parts: seq<string>, sep: char)
    requires |parts| >= 1
    requires forall i :: 0 <= i < |parts| ==> sep !in parts[i]
    ensures Split(Join(parts, sep), sep) == parts
  {
    if |parts| == 1 {
      SplitNoSeparator(parts[0], sep);
    } else {
      SplitAtSeparator(parts[0], sep, Join(parts[1..], sep));
      SplitJoin(parts[1..], sep);
      assert [parts[0]] + parts[1..] == parts;
    }
  }
}
